=== FILE: README.md ===
# NutritionTracker core, modelled in Dafny

This project models the core of NutritionTracker, a React Native nutrition and workout diary. The model covers:

- **The nutrition calculator.** BMR, TDEE, calorie and macro goals, nutrient scaling and sums, unit conversion, progress, calories burned and the stock serving sizes.
- **The client state stores.** The user, nutrition, workout and weight stores.
- **The local SQLite database layer.** Schema constraints, seeding, users, foods with serving sizes, name search, favourites and exercises.
- **The authentication mapping.** Conversion between a user profile and the identity provider's text attributes.
- **The recognition function (processV).** It takes a transcription or photo and returns food items. The model covers:
  - body validation;
  - the choice between image and text;
  - the clean-up of the model's reply;
  - extraction of the JSON span;
  - the two fallback payloads;
  - the mapping from errors to HTTP responses.
- **The client side of recognition (foodInput).** The blank-input guard, the request body, the parsing of the reply into a custom food item, and the recording flag.

Each store action is a pure function from the old state to the new one. Each database call is a function from a `Manager` to a `Reply`. The manager holds whether the handle is open and the tables. Each table is a sequence of rows in rowid order, and an `ORDER BY` is a stable insertion sort.

Some things the app gets from its environment. These are all parameters of the model:

- the clock, `Date.now()`-based ids and timestamps;
- `JSON.parse`, `String(x)` and `parseFloat` (`Json.Host`);
- number formatting and parsing in the attribute mapping (`Auth.Codec`);
- the secret lookup and the call to the language model in the recognition function;
- the HTTP call from the client.

Nutrition arithmetic is on reals. JavaScript's `Math.round(x)` is `(x + 0.5).Floor`, and one-decimal rounding is `Math.round(10 x) / 10`.

Modules:

| module | file | models |
|---|---|---|
| Wrappers, Text, Sequences, Sorting | wrappers.dfy, text.dfy, sequences.dfy, sorting.dfy | Option/Result, JavaScript whitespace and trimming, `filter`, stable insertion sort |
| Types | types.dfy | the app's records and string-literal unions; unlisted text is kept in a catch-all case |
| Calculations | calculations.dfy | `NutritionCalculator` and `generateCommonServingSizes` |
| UserStore, NutritionStore, WorkoutStore, WeightStore | user_store.dfy, nutrition_store.dfy, workout_store.dfy, weight_store.dfy | the Zustand stores |
| DbTables, MuscleJson, Database, DbSeed | db_tables.dfy, muscle_json.dfy, database.dfy, db_seed.dfy | tables and constraints, the muscle-group JSON column, `DatabaseManager`, the seed data |
| Auth | auth.dfy | profile and attribute conversion |
| Json, ReplyCleaning, ProcessV | json.dfy, reply_cleaning.dfy, process_v.dfy | JSON values, the reply clean-up, the recognition handler |
| FoodInput, Pipeline | food_input.dfy, pipeline.dfy | the client service, and facts about the client and the handler together |

## Model

| member | source | states |
|---|---|---|
| Calculations.Round | NutritionTracker/src/utils/calculations.ts:29 | `Math.round` gives the integer within half a unit below and strictly less than half above (ties round up) |
| Calculations.RoundTenth | NutritionTracker/src/utils/calculations.ts:107-111 | one-decimal rounding lands on the tenth grid within 0.05 of the input |
| Calculations.BmrGenderBranches | NutritionTracker/src/utils/calculations.ts:7-16 | Mifflin-St Jeor: men get 166 kcal more than women; any gender other than male uses the female formula; +10 per kg, +6.25 per cm, -5 per year; the intercepts are +5 for men and -161 otherwise |
| Calculations.Bmr | NutritionTracker/src/utils/calculations.ts:7-16 | the BMR is 10 per kg plus 6.25 per cm minus 5 per year, plus 5 kcal for men and minus 161 kcal for everyone else |
| Calculations.ActivityMultiplier | NutritionTracker/src/utils/calculations.ts:21-30 | the activity factors lie in 1.2..1.9, and 1.2 belongs to sedentary alone |
| Calculations.Tdee | NutritionTracker/src/utils/calculations.ts:21-30 | TDEE is BMR times the activity factor, rounded |
| Calculations.TdeeMonotone | NutritionTracker/src/utils/calculations.ts:21-30 | for a non-negative BMR, a more active level never gives a lower TDEE, and sedentary is the minimum; with a negative BMR the order reverses |
| Calculations.TdeeAtLeastBmr | NutritionTracker/src/utils/calculations.ts:21-30 | for a BMR of at least 2.5 kcal, TDEE never falls below the BMR; below that, rounding can take it under (0.4 kcal gives 0) |
| Calculations.AdjustForGoal | NutritionTracker/src/utils/calculations.ts:35-55 | losing weight subtracts 1100 kcal per weekly kg with a 1200 kcal floor; gaining adds it; building muscle adds 300; anything else keeps the TDEE |
| Calculations.CalorieGoal | NutritionTracker/src/utils/calculations.ts:35-55 | with `tdee` the TDEE of the profile's BMR and activity level and `w` the weekly change (0 when absent): losing weight asks for `tdee - 1100 w` but never less than 1200, gaining for `tdee + 1100 w`, building muscle for `tdee + 300`, and any other goal for `tdee` |
| Calculations.CalorieGoalFloor | NutritionTracker/src/utils/calculations.ts:42-45 | a weight-loss calorie goal is never under 1200 kcal |
| Calculations.MacroGoals | NutritionTracker/src/utils/calculations.ts:60-75 | protein and carbs take their share at 4 kcal/g and fat at 9 kcal/g, each rounded; fibre is 14 g per 1000 kcal; sugar is a tenth of the calories at 4 kcal/g; sodium 2300 and cholesterol 300 |
| Calculations.NutritionConsumed | NutritionTracker/src/utils/calculations.ts:80-97 | every nutrient of the per-100 g values is scaled by quantity times serving weight over 100; calories, sodium and cholesterol are rounded to whole numbers and the other five nutrients to one decimal |
| Calculations.NutritionConsumedOfNothing | NutritionTracker/src/utils/calculations.ts:80-97 | zero quantity or zero serving weight gives zero nutrition |
| Calculations.SumNutrition | NutritionTracker/src/utils/calculations.ts:102-125 | the calorie, sodium and cholesterol totals are exact sums; the others are on the tenth grid; the empty list gives zero |
| Calculations.SumNutritionExactOnGrid | NutritionTracker/src/utils/calculations.ts:102-125 | when every input is on the tenth grid, the per-step rounding loses nothing and the total is the exact sum |
| Calculations.TotalNutritionAppend | NutritionTracker/src/utils/calculations.ts:130-133 | the total of a food list grows by one accumulation step per added food |
| Calculations.TotalNutrition | NutritionTracker/src/utils/calculations.ts:130-133 | no foods give zero, and the calorie total is the sum of the foods' logged calories |
| Calculations.ConvertWeight | NutritionTracker/src/utils/calculations.ts:138-148 | same unit is the identity; kg and lb convert by 2.20462 to the nearest tenth |
| Calculations.WeightRoundTrip | NutritionTracker/src/utils/calculations.ts:138-148 | kg to lb and back lands within 0.1 kg of the start |
| Calculations.ConvertHeight | NutritionTracker/src/utils/calculations.ts:150-160 | cm to ft divides by 30.48 to a tenth; ft to cm multiplies and rounds to a whole number |
| Calculations.HeightRoundTrip | NutritionTracker/src/utils/calculations.ts:150-160 | cm to ft and back lands within 2.024 cm of the start |
| Calculations.Progress | NutritionTracker/src/utils/calculations.ts:165-168 | 0 for a zero goal; otherwise the percentage of the goal rounded half up, capped at 100 |
| Calculations.ProgressOfPercent | NutritionTracker/src/utils/calculations.ts:165-168 | a whole percentage from 0 to 100 of a non-zero goal reads back as exactly that percentage |
| Calculations.ProgressMonotone | NutritionTracker/src/utils/calculations.ts:165-168 | for a positive goal, a larger current value never shows less progress |
| Calculations.IsGoalMet | NutritionTracker/src/utils/calculations.ts:173-177 | met exactly when the value is within the tolerance fraction of the goal on either side |
| Calculations.CaloriesBurned | NutritionTracker/src/utils/calculations.ts:182-189 | MET times kg times hours, rounded; no time burns nothing |
| Calculations.StrengthCaloriesFacts | NutritionTracker/src/utils/calculations.ts:194-206 | light, moderate and vigorous use MET 3, 6 and 8; a missing intensity counts as moderate; harder training never burns less |
| Calculations.StrengthCalories | NutritionTracker/src/utils/calculations.ts:194-206 | the MET of the intensity, moderate (6) when none is given, times kg times hours, rounded; no time burns nothing |
| Calculations.CommonServingSizes | NutritionTracker/src/utils/calculations.ts:213-252 | every category starts with 100 g (`100g`), except beverages, which start with 100 ml (`100ml`); every size has a positive weight; the six listed categories get three sizes; any other category text gets the default pair (inherited `Object.prototype` names are the exception listed under Left out) |
| Calculations.CategoryServingSizes | NutritionTracker/src/utils/calculations.ts:213-252 | fat, snack, other and unlisted categories get the default pair; every other food category has a preset list of its own |
| Types.TextRoundTrips | NutritionTracker/src/types/index.ts:221-227 | reading back the text of any listed category, gender, activity level, goal, unit system or theme gives the same value |
| UserStore.Merge | NutritionTracker/src/stores/index.ts:47-61 | a profile update always stamps `updatedAt`, and an empty update changes nothing else |
| UserStore.UpdateUserProfile | NutritionTracker/src/stores/index.ts:47-61 | with no user nothing changes; otherwise only the user is replaced, by the merged profile |
| UserStore.UpdateUserProfileLaws | NutritionTracker/src/stores/index.ts:47-61 | applying the same update twice equals applying it once |
| UserStore.UpdateKeepsOtherFields | NutritionTracker/src/stores/index.ts:47-61 | a weight update changes the weight and `updatedAt` and nothing else in the profile |
| UserStore.SetUser | NutritionTracker/src/stores/index.ts:44-45 | setting a user marks the session authenticated and keeps the onboarding and loading flags |
| UserStore.Logout | NutritionTracker/src/stores/index.ts:63-64 | logging out clears the user, authentication and onboarding, and keeps the loading flag |
| UserStore.ClearAllData | NutritionTracker/src/stores/index.ts:66-67 | clearing returns the initial state |
| UserStore.LogoutLaws | NutritionTracker/src/stores/index.ts:47-67 | profile updates after logout do nothing; logout is idempotent; clearing is logout with loading off |
| NutritionStore.Recomputed | NutritionTracker/src/stores/index.ts:274-283 | recomputing makes the day's total agree with its foods and changes nothing else |
| NutritionStore.EmptyDay | NutritionTracker/src/stores/index.ts:133-145 | a new day is `daily-<date>` for the user, with no meals, no water and the user's calorie goal |
| NutritionStore.FindMeal | NutritionTracker/src/stores/index.ts:148 | finds a meal of the type exactly when the day has one |
| NutritionStore.FindFood | NutritionTracker/src/stores/index.ts:185 | finds a food with the id exactly when the list has one |
| NutritionStore.AddToMeals | NutritionTracker/src/stores/index.ts:147-160 | the day's foods gain exactly the new food; it joins the existing meal of its type or a new meal at the end; meal types stay unique |
| NutritionStore.AddFoodEntry | NutritionTracker/src/stores/index.ts:128-174 | without a user nothing changes; otherwise only the current day changes: its meals become those of adding the food to the meal of its type (created as `mealId` at `now` if missing), its id, date, goal and water stay, its total is consistent, the food item becomes most recent, and nothing else in the store changes |
| NutritionStore.AddToRecent | NutritionTracker/src/stores/index.ts:251-258 | the food comes first, its older copies go, the order of the rest is kept, and at most 10 remain |
| NutritionStore.AddToRecentIdempotent | NutritionTracker/src/stores/index.ts:251-258 | re-adding the most recent food changes nothing |
| NutritionStore.AddToRecentUniqueIds | NutritionTracker/src/stores/index.ts:251-258 | the recent list keeps its ids distinct |
| NutritionStore.MergeLaws | NutritionTracker/src/stores/index.ts:187-190 | merging an empty update is the identity, and merging the same update twice equals merging it once |
| NutritionStore.UpdateInMealsFlatten | NutritionTracker/src/stores/index.ts:176-203 | the meal-by-meal update changes exactly the first food with the id in the whole day |
| NutritionStore.UpdateFoodEntry | NutritionTracker/src/stores/index.ts:176-203 | with no entry for the current date nothing changes; otherwise only that day changes: each meal keeps its place and number of foods, the first food with the id across the day is merged, the total is recomputed, and the day's id, user, date, goal, water and notes are kept |
| NutritionStore.DeleteFromMeals | NutritionTracker/src/stores/index.ts:205-226 | only the first meal of the named type loses the foods with the id; a day without that meal is unchanged |
| NutritionStore.DeleteFoodEntry | NutritionTracker/src/stores/index.ts:205-226 | with no entry for the current date nothing changes; otherwise only that day changes: the foods with the id leave the first meal of the type, the total is recomputed, and the day's id, user, date, goal, water and notes are kept |
| NutritionStore.AddThenDeleteRestoresDay | NutritionTracker/src/stores/index.ts:128-226 | logging a food under a fresh id and deleting it from the same meal gives back the day's foods in order and its total |
| NutritionStore.AddToFavorites | NutritionTracker/src/stores/index.ts:228-244 | with no user, or for a food already a favourite, nothing changes; otherwise the food is appended |
| NutritionStore.RemoveFromFavorites | NutritionTracker/src/stores/index.ts:246-249 | exactly the favourites with a different id remain, every copy of each |
| NutritionStore.RemoveFromFavoritesConcat | NutritionTracker/src/stores/index.ts:246-249 | removal works piecewise over a split of the list, so the remaining favourites keep their order |
| NutritionStore.AddToFavoritesUniqueIds | NutritionTracker/src/stores/index.ts:228-244 | favourite ids stay distinct |
| NutritionStore.AddThenRemoveFavorite | NutritionTracker/src/stores/index.ts:228-249 | adding a new favourite and removing it gives back the list |
| NutritionStore.UpdateWaterIntake | NutritionTracker/src/stores/index.ts:260-272 | only the current day's water changes, and nothing changes when that day has no entry |
| NutritionStore.CalculateDailyNutrition | NutritionTracker/src/stores/index.ts:274-283 | an unknown date gives zero; a known date gives the total of its foods |
| NutritionStore.GetDailyEntry | NutritionTracker/src/stores/index.ts:124-126 | the stored day, present exactly when the date has an entry |
| NutritionStore.LoadDailyEntry | NutritionTracker/src/stores/index.ts:287-314 | creates an empty day only when the date has none and a user is signed in, and never breaks the store invariant |
| NutritionStore.LoadDailyEntryIdempotent | NutritionTracker/src/stores/index.ts:287-314 | loading the same date twice equals loading it once |
| NutritionStore.SetCurrentDate | NutritionTracker/src/stores/index.ts:119-122 | the date becomes current and gets the empty day of the signed-in user when it has no entry; every other part of the store, every other day included, is unchanged |
| NutritionStore.SetCurrentDateAndBack | NutritionTracker/src/stores/index.ts:119-122 | visiting another date and coming back leaves the store as if that date had only been loaded |
| WorkoutStore.LoadExercises | NutritionTracker/src/stores/index.ts:399-407 | a successful fetch replaces the exercise list and nothing else; a failed one changes nothing |
| WorkoutStore.StartWorkout | NutritionTracker/src/stores/index.ts:409-422 | with a user, an empty session for that user dated now becomes current and nothing else changes; without one nothing changes |
| WorkoutStore.EndWorkout | NutritionTracker/src/stores/index.ts:424-435 | the finished session is appended under its new id, no workout is in progress, and the catalogue and loading flag are unchanged |
| WorkoutStore.AddWorkout | NutritionTracker/src/stores/index.ts:437-440 | the workout is put first, the others follow in order, and nothing else in the store changes |
| WorkoutStore.DeleteWorkout | NutritionTracker/src/stores/index.ts:442-445 | exactly the workouts with a different id remain, every copy of each, and nothing else in the store changes |
| WorkoutStore.DeleteWorkoutConcat | NutritionTracker/src/stores/index.ts:442-445 | deletion works piecewise over a split of the list, so the remaining workouts keep their order |
| WorkoutStore.AddThenDeleteWorkout | NutritionTracker/src/stores/index.ts:424-445 | adding or ending a workout under a fresh id and deleting it gives back the list |
| WorkoutStore.WorkoutsForDate | NutritionTracker/src/stores/index.ts:447-452 | exactly the workouts on the given day, every copy of each |
| WorkoutStore.WorkoutsForDateConcat | NutritionTracker/src/stores/index.ts:447-452 | the day's workouts of a split list are those of each part joined, so they come in stored order |
| WeightStore.NewestFirstIsTotalPreorder | NutritionTracker/src/stores/index.ts:497-499 | newest-first ordering of entries is a total preorder |
| WeightStore.AddWeightEntry | NutritionTracker/src/stores/index.ts:485-509 | without a user nothing changes; otherwise the entries are a newest-first permutation of the old ones plus the new entry, the user's current weight becomes the logged weight, and nothing else in the weight store changes |
| WeightStore.AddWeightEntryInserts | NutritionTracker/src/stores/index.ts:485-509 | on a sorted list, adding is a single stable insertion |
| WeightStore.WeightEntriesSince | NutritionTracker/src/stores/index.ts:511-519 | exactly the entries on or after the cutoff, every copy of each |
| WeightStore.WeightEntriesSinceConcat | NutritionTracker/src/stores/index.ts:511-519 | the recent entries of a split list are those of each part joined, so they come in stored order |
| WeightStore.WeightEntriesSincePrefix | NutritionTracker/src/stores/index.ts:511-519 | on a newest-first list, those entries are a prefix |
| WeightStore.LatestWeight | NutritionTracker/src/stores/index.ts:521-524 | none exactly when there are no entries; otherwise the first entry, which on a sorted list is the newest |
| WeightStore.FirstWeight | NutritionTracker/src/stores/index.ts:526-529 | none exactly when there are no entries; otherwise the last entry, which on a sorted list is the oldest |
| WeightStore.LatestAfterNewerEntry | NutritionTracker/src/stores/index.ts:485-524 | logging a weight newer than every stored one makes it the latest weight |
| WeightStore.FirstAfterNewerEntry | NutritionTracker/src/stores/index.ts:485-529 | logging a weight newer than the oldest stored one leaves the first weight as it was |
| DbTables.InsertUser | NutritionTracker/src/database/index.ts:32-52 | an insert succeeds exactly when the id and the e-mail address are both new, and keeps the tables consistent |
| DbTables.InsertFood | NutritionTracker/src/database/index.ts:54-72 | an insert succeeds exactly when the id is new |
| DbTables.InsertServing | NutritionTracker/src/database/index.ts:74-81 | an insert succeeds exactly when the id is new and the food exists |
| DbTables.InsertOrIgnoreFavorite | NutritionTracker/src/database/index.ts:175-183 | a taken id or an existing (user, food) pair is ignored; otherwise it is appended when the user and the food exist, and is a foreign-key error when not |
| DbTables.Run | NutritionTracker/src/database/index.ts:194-297 | statements run until the first failure, earlier effects stay, and consistency is kept |
| DbTables.FindUserAppended | NutritionTracker/src/database/index.ts:325-378 | a user row appended under a new id is found by that id |
| MuscleJson.ParseStringify | NutritionTracker/src/database/index.ts:293 | parsing the stored JSON text of a muscle-group list gives back the list |
| MuscleJson.Stringify | NutritionTracker/src/database/index.ts:293 | the stored text is a bracketed list, `[]` exactly for no groups |
| Database.SeedIfEmpty | NutritionTracker/src/database/index.ts:194-199 | a database that already has foods is not seeded |
| Database.Initialize | NutritionTracker/src/database/index.ts:16-23 | initialising opens the handle, leaves an open one alone, never touches users or favourites, and keeps the tables consistent |
| Database.InitializeIdempotent | NutritionTracker/src/database/index.ts:16-23 | a second initialise does nothing |
| DbSeed.SeedRunsCleanly | NutritionTracker/src/database/index.ts:202-296 | every seed insert succeeds on an empty file |
| DbSeed.InitializeSeedsEmpty | NutritionTracker/src/database/index.ts:194-297 | a fresh file becomes five foods with three serving rows each (100 g, 1 medium of 150 g, 1 cup of 150 g) and five exercises; the result is consistent, and seeding again does nothing |
| DbSeed.SeededExercisesReadBack | NutritionTracker/src/database/index.ts:276-296 | the five seeded exercises, all of them and nothing else, read back with the muscle groups they were seeded with |
| Database.CreateUser | NutritionTracker/src/database/index.ts:300-323 | creating a user succeeds exactly when the new `user-` id and the e-mail address are free; a failure changes nothing |
| Database.GetUser | NutritionTracker/src/database/index.ts:325-378 | a stored user is found by its id, and an unknown id gives nothing |
| Database.CreateThenGetUser | NutritionTracker/src/database/index.ts:300-378 | a created user reads back as given, with fixed notification and privacy settings and no custom goals |
| Database.CreateFoodItem | NutritionTracker/src/database/index.ts:381-418 | creating a food succeeds exactly when the food id and the serving ids are fresh, and then appends the food row and its serving rows; a taken food id changes nothing; a failing serving insert leaves the food row and the servings before it, and nothing else |
| Database.RunServingStmtsPartial | NutritionTracker/src/database/index.ts:403-416 | the serving inserts stop at the first failure, leaving exactly the rows before it and touching no other table |
| Database.CreateFoodSteps | NutritionTracker/src/database/index.ts:381-418 | a taken food id stops before any write; otherwise the food row stays whatever happens to the servings |
| Database.GetFoodItem | NutritionTracker/src/database/index.ts:472-512 | a stored food is found by its id, together with exactly its serving rows |
| Database.CreateThenGetFoodItem | NutritionTracker/src/database/index.ts:381-512 | a created food reads back as given, with its serving sizes in order under their new ids |
| Database.SearchFoodItems | NutritionTracker/src/database/index.ts:420-470 | results match the `%query%` pattern, are ordered by name and respect the limit; no food comes back more often than it matches; a matching food left out sorts at or after every result; all matches appear when the limit allows |
| Database.SearchNoRepeats | NutritionTracker/src/database/index.ts:420-470 | the result is a prefix of a rearrangement of the matching foods, so none is repeated |
| Text.LikeContainsLiteral | NutritionTracker/src/database/index.ts:423-428 | for a query without `%` or `_`, the pattern matches exactly the names containing the query, ASCII case ignored |
| Text.LikeContainsUnderscore | NutritionTracker/src/database/index.ts:423-428 | the query `_` is a wildcard: it matches every non-empty name |
| Text.LikeLeadingPercent | NutritionTracker/src/database/index.ts:423-428 | a leading `%` lets the rest of the pattern match any suffix of the name |
| Database.SearchHydrated | NutritionTracker/src/database/index.ts:420-470 | each result carries exactly its own serving sizes |
| Database.AddToFavorites | NutritionTracker/src/database/index.ts:514-521 | an existing pair is a no-op; otherwise the pair is stored when the user and the food exist; a failure changes nothing |
| Database.AddToFavoritesTwice | NutritionTracker/src/database/index.ts:514-521 | adding a stored pair again changes nothing |
| Database.FavoritesOf | NutritionTracker/src/database/index.ts:523-572 | the user's favourite rows, newest first |
| Database.GetFavorites | NutritionTracker/src/database/index.ts:523-572 | one food per favourite of the user, in favourite order, each the stored food row with its serving sizes |
| Database.FavoritesOfAfterAdd | NutritionTracker/src/database/index.ts:514-572 | a favourite added later than every stored one heads the user's list, followed by the list as it was |
| Database.AddThenGetFavorites | NutritionTracker/src/database/index.ts:514-572 | after adding a new favourite, `getFavorites` returns the food in full first, followed by what it returned before |
| Database.DecodeExercises | NutritionTracker/src/database/index.ts:575-591 | decoding succeeds exactly when every muscle-group text parses |
| Database.GetAllExercises | NutritionTracker/src/database/index.ts:575-591 | a rearrangement of every stored exercise, each decoded once, ordered by name; fails only on unparseable muscle groups |
| Database.DecodedPermutation | NutritionTracker/src/database/index.ts:575-591 | decoding rows in another order gives the same decoded exercises, each as often as its row |
| Auth.ProfileFromAttributes | NutritionTracker/src/services/auth.ts:260-306 | the profile always has an id, a name and a breakfast time, the given e-mail, no custom goals, and `updatedAt` now |
| Auth.EmptyAttributesGiveDefaults | NutritionTracker/src/services/auth.ts:260-306 | every missing attribute takes its documented default |
| Auth.FlagsReadExactly | NutritionTracker/src/services/auth.ts:288-301 | each of the seven flags is on exactly when its attribute is the text `true` |
| Auth.ProfileToAttributes | NutritionTracker/src/services/auth.ts:312-341 | neither the e-mail address nor `sub` is among the written attributes |
| Auth.WrittenNames | NutritionTracker/src/services/auth.ts:312-341 | exactly the 26 profile attribute names are written; `sub`, `email` and foreign names are not |
| Auth.AttributeCount | NutritionTracker/src/services/auth.ts:312-341 | exactly 26 attributes are written |
| Auth.FlagsWritten | NutritionTracker/src/services/auth.ts:327-340 | each of the seven flags is written, as the text `true` or `false` |
| Auth.GoalsReadBack | NutritionTracker/src/services/auth.ts:273-284 | attributes holding a goal's written text read back as that goal, without custom goals |
| Auth.PreferencesReadBack | NutritionTracker/src/services/auth.ts:285-302 | attributes holding the written units, theme, reminders, times and privacy flags read back as those preferences |
| Auth.ReadBack | NutritionTracker/src/services/auth.ts:260-306 | attributes holding a storable profile's written text and its id as `sub` read back as that profile, with the birth date cut to its day, no custom goals and `updatedAt` now |
| Auth.AttributesRoundTrip | NutritionTracker/src/services/auth.ts:260-341 | writing a profile and reading it back gives it again, except the birth date is truncated to its day, custom goals are dropped and `updatedAt` is the reading time |
| Auth.MissingWeightsRoundTrip | NutritionTracker/src/services/auth.ts:275-276 | a missing target weight or weekly weight change stays missing through writing and reading back, whatever `sub` is |
| Json.Lookup | NutritionTracker/amplify/backend/function/processV/src/index.js:233 | a property is undefined exactly when the object has no field of that name; otherwise it is that field's value |
| ReplyCleaning.RemoveAll | NutritionTracker/amplify/backend/function/processV/src/index.js:213-214 | removing the fences never lengthens the text or adds characters |
| ReplyCleaning.DropChar | NutritionTracker/amplify/backend/function/processV/src/index.js:215-217 | the character is gone, and every other character keeps its number of occurrences |
| ReplyCleaning.DropCharConcat | NutritionTracker/amplify/backend/function/processV/src/index.js:215-217 | deletion works piecewise, so the remaining characters keep their order |
| ReplyCleaning.CollapseNewlines | NutritionTracker/amplify/backend/function/processV/src/index.js:218 | no two line breaks remain adjacent, and the same characters occur |
| ReplyCleaning.Clean | NutritionTracker/amplify/backend/function/processV/src/index.js:212-219 | the cleaned reply has no backtick, asterisk, hash or doubled line break, no surrounding whitespace, and only characters of the reply; a reply without markdown marks is only collapsed and trimmed |
| ReplyCleaning.CleanFenced | NutritionTracker/amplify/backend/function/processV/src/index.js:212-219 | a reply wrapped in a `json` fence around plain text cleans to that text, collapsed and trimmed |
| ReplyCleaning.CleanPlain | NutritionTracker/amplify/backend/function/processV/src/index.js:212-219 | on a reply with no backtick, asterisk or hash, the fence and mark removals change nothing |
| ReplyCleaning.CleanFixpoint | NutritionTracker/amplify/backend/function/processV/src/index.js:212-219 | cleaning changes nothing exactly when the text is already settled, so it is idempotent |
| ReplyCleaning.SpanBounds | NutritionTracker/amplify/backend/function/processV/src/index.js:224 | the regex matches exactly when the first `{` comes before the last `}` |
| ReplyCleaning.ExtractSpan | NutritionTracker/amplify/backend/function/processV/src/index.js:224-228 | with a match, the text from the first `{` to the last `}`; otherwise the text unchanged |
| ReplyCleaning.ExtractSpanIdempotent | NutritionTracker/amplify/backend/function/processV/src/index.js:224-228 | extracting twice equals extracting once |
| ProcessV.ReadInput | NutritionTracker/amplify/backend/function/processV/src/index.js:71 | a missing body throws; otherwise the body text is parsed again |
| ProcessV.RouteInput | NutritionTracker/amplify/backend/function/processV/src/index.js:73-207 | null input throws; the response is 400 exactly when neither input is truthy; a truthy image wins over the transcription |
| ProcessV.ParseFallbackFields | NutritionTracker/amplify/backend/function/processV/src/index.js:232-258 | the parse fallback has one "Unknown Food Item" and debug data with the raw reply |
| ProcessV.ShapeFallbackFields | NutritionTracker/amplify/backend/function/processV/src/index.js:261-282 | the shape fallback has one "Unidentified Food" and the original structure |
| ProcessV.ReplyText | NutritionTracker/amplify/backend/function/processV/src/index.js:207-228 | the text parsed has no markdown marks and only characters of the reply |
| ProcessV.Interpret | NutritionTracker/amplify/backend/function/processV/src/index.js:229-282 | a reply with items passes through; an unparseable reply gives the parse fallback; any other reply gives the shape fallback; a `null` reply throws; every success has items |
| ProcessV.ErrorResponse | NutritionTracker/amplify/backend/function/processV/src/index.js:292-316 | errors become 500 with CORS headers and a message chosen by status 401, 429 or 400; details appear only when the error has a message |
| ProcessV.Respond | NutritionTracker/amplify/backend/function/processV/src/index.js:284-316 | the response is 200 with items and JSON headers, or 500 |
| ProcessV.Handle | NutritionTracker/amplify/backend/function/processV/src/index.js:24-318 | only 200, 400 and 500; 200 always carries items; the invalid-body 400 happens exactly for a truthy string body that does not parse; the no-input 400 happens exactly when the parsed body has neither input |
| ProcessV.ImageWins | NutritionTracker/amplify/backend/function/processV/src/index.js:86-205 | with both inputs, the image is what reaches the model |
| ProcessV.ReplyPassedThrough | NutritionTracker/amplify/backend/function/processV/src/index.js:230-291 | a reply that already lists items is returned as parsed |
| ProcessV.UnparseableReply | NutritionTracker/amplify/backend/function/processV/src/index.js:232-258 | an unparseable reply still gives 200 with the fallback item and the documented debug information |
| FoodInput.RequestBody | NutritionTracker/src/services/foodInput.ts:221-229 | one field: `transcription` for text and audio, `base64Image` for images, `content` for barcodes |
| FoodInput.MissingItemsError | NutritionTracker/src/services/foodInput.ts:271-273 | the handler's debug error when present, otherwise "No items found in response" |
| FoodInput.Amount | NutritionTracker/src/services/foodInput.ts:288-293 | the parsed number, or 0 when it does not parse |
| FoodInput.Calories | NutritionTracker/src/services/foodInput.ts:287 | a falsy value is 0 and a number is itself |
| FoodInput.ItemOf | NutritionTracker/src/services/foodInput.ts:278-306 | the item becomes a custom food with its name or "Unknown Food", its brand only when truthy, its category or "other", and one serving of 100 g |
| FoodInput.ParseLambdaResponse | NutritionTracker/src/services/foodInput.ts:269-317 | no items fails with the handler's error; a missing first item fails as a type error; otherwise it succeeds with confidence 0.9 |
| FoodInput.ProcessTextInput | NutritionTracker/src/services/foodInput.ts:149-163 | blank text fails with "Input is empty" and is never sent; other text is sent as a transcription |
| FoodInput.BlankInputNeverPosted | NutritionTracker/src/services/foodInput.ts:150-152 | for blank text, the outcome does not depend on the network |
| FoodInput.StartRecording | NutritionTracker/src/services/foodInput.ts:102-122 | recording is active only after a successful start; a refused permission or a failure before the recorder exists changes nothing, and a start that fails after creating the recorder keeps the recorder, each failure reporting its message |
| FoodInput.TranscriptionOf | NutritionTracker/src/services/foodInput.ts:195-212 | success exactly when the reply's `success` and `transcription` are both truthy, and then the text is the transcription; a missing reply is an error |
| FoodInput.StopRecording | NutritionTracker/src/services/foodInput.ts:124-146 | stopping without an active recording fails and changes nothing; a device failure keeps the recorder and reports it; a stop with no recording URI clears the flag, keeps the recorder and reports `No recording URI`; a completed stop sends the placeholder audio for transcription and ends idle |
| FoodInput.StartThenStop | NutritionTracker/src/services/foodInput.ts:102-146 | a successful start makes the service report recording; a stop that gets past the device ends it, and a second stop is refused |
| FoodInput.FailedStartStopRefused | NutritionTracker/src/services/foodInput.ts:102-137 | after a failed start, even one that created the recorder, a stop is refused as no active recording |
| FoodInput.ReplayConsistent | NutritionTracker/src/services/foodInput.ts:28 | over any sequence of starts and stops, the recording flag is only on while a recorder exists |
| Pipeline.RequestsRoute | NutritionTracker/src/services/foodInput.ts:221-229 | text and voice bodies reach the model as transcriptions, images as images, and barcode bodies are always rejected with 400 |
| Pipeline.RepliesAccepted | NutritionTracker/src/services/foodInput.ts:269-317 | every 200 payload is accepted by the client exactly when its first item is not null |
| Pipeline.UnknownFoodItemRead | NutritionTracker/amplify/backend/function/processV/src/index.js:232-258 | the parse fallback reaches the app as a successful "Unknown Food Item" of 100 kcal with brand "Generic" and one "1 serving" size |

## Left out

- I/O is not modelled: SQLite's engine, AsyncStorage persistence of the stores, the AWS SDK, the secret store, OpenAI, Amplify's HTTP client, the camera, the gallery, the barcode scanner and speech recognition. Clocks, ids and the model's reply are parameters.
- The API key lookup is a parameter (`secret`). Its failure is an error that reaches the error mapping.
- The language-model request is a parameter (`model`). The prompt texts, image handling and request building of lines 86-205 are not modelled, nor is the resolution of the OpenAI package path, which only logs.
- `JSON.stringify` of the response body and the JSON text on the wire are not modelled. Responses carry the `Json` value.
- IEEE-754 floating point is not modelled: nutrition arithmetic is on exact reals, and `NaN` is absent. `parseFloat` yielding `NaN` is `None`.
- Calculations.Tdee: requires a listed activity level. The source's type only admits those; an unlisted one would give `NaN`.
- FoodInput.Calories: a truthy value that is not a number goes through `parseFloat`. The source keeps the raw value, so a text calorie count stays text there.
- ProcessV.ErrorResponse: the message text of an engine exception (a `TypeError` from a second `JSON.parse`) is not modelled; it is a failure with no status and no message.
- The date helpers (`DateUtils`), the analytics types, the theme and the screens are not part of this model.
- The `authHandler` and `cognito.js` functions are not part of this model.
- Database.CreateFoodItem: serving row ids are `food-…-<unit>-<Date.now()>` with the clock reading as a parameter per size. Two sizes of one unit read at the same millisecond collide; the model states this as a fresh-id precondition of success, not as a separate case.
- Auth.AttributesRoundTrip: holds only for profiles whose text fields and enum values are non-empty and canonical and whose numbers print as text that parses back. Outside that, the source itself does not round-trip: an empty name reads back as `User`, and a fractional height is cut by `parseInt`.
- Auth.ReadBack: number and date formatting (`toString`, `toISOString`, `parseInt`, `parseFloat`, `new Date`) is a parameter. The read-back facts assume it obeys the laws stated in `Auth.Lawful`.
- Calculations.CommonServingSizes: the category is looked up in an object literal, so a text naming an inherited member of `Object.prototype` (`constructor`, `toString`) yields that member rather than the default pair. The model treats every text other than the six categories as unknown, as the `string` parameter's callers, which pass a food category, evidently intend.
- Database.SearchFoodItems: SQLite's `LIKE` is modelled with ASCII case folding only; characters outside ASCII compare exactly, as SQLite does without the ICU extension.
- NutritionStore.AddToFavorites: the database write that follows the in-memory update (`db.initialize()` then `db.addToFavorites`, with any error logged and dropped) is not composed here; `Database.AddToFavorites` models it on its own.
- UserStore.UpdateUserProfile: the `db.updateUser` call after the in-memory update is not modelled. The database layer defines no such method, so the call fails, and the error is logged and dropped; only the in-memory merge takes effect.
- WorkoutStore.LoadExercises: the fetched list is a parameter, not composed with `Database.Initialize` and `Database.GetAllExercises`; a failure of either is the `Err` case.
- FoodInput.ParseLambdaResponse: when reading the first item throws, the message is modelled as `Response parsing error: TypeError`; the rest of the engine's `TypeError` text is not modelled.
- FoodInput.TranscriptionOf: for a missing reply the message is modelled as `Audio transcription error: TypeError`; the rest of the engine's `TypeError` text is not modelled.
- MuscleJson.Parse: the `muscle_groups` reader accepts only the compact text that `JSON.stringify` writes for the seven known groups, where `JSON.parse` also takes whitespace, escapes and other strings. Only the seed writes that column, so the stored texts are all of that form; "parses" in the rows of `Database.DecodeExercises` and `Database.GetAllExercises` means this reader.
- DbSeed.SeedFoodRows: every seeded row carries one clock reading, where the seeding reads `new Date()` for each insert and twice per food row; the timestamps of one seeding may differ by milliseconds in the source.
- Concurrency between store actions and database calls is not modelled: each action is one atomic step.

=== FILE: auth.dfy ===
/** The profile <-> attribute mapping of the authentication service:
    `createUserProfileFromAttributes` reads a profile out of the identity
    provider's attributes, filling in defaults, and `userProfileToAttributes`
    writes a profile back as 26 string attributes. Number and date text is
    produced and read by library code, which is a `Codec` parameter here. */
module Auth {
  import opened Wrappers
  import opened Types
  import opened Text

  /** The attribute names the mapping reads or writes; any other name is
      ignored. */
  datatype Key =
    | Sub | EmailKey | NameKey | Birthdate | GenderKey | Height | Weight | ActivityLevelKey | GoalTypeKey
    | TargetWeight | WeeklyWeightChange | CalorieGoal | MacroProtein | MacroCarbs | MacroFat | Units | Theme
    | MealRemindersKey | GoalRemindersKey | WaterRemindersKey | WorkoutRemindersKey
    | BreakfastTime | LunchTime | DinnerTime | ShareData | Analytics | CrashReporting | CreatedAt
    | OtherKey(text: string)
  {
    /** The attribute's name. */
    function Text(): string {
      match this
      case Sub => "sub"
      case EmailKey => "email"
      case NameKey => "name"
      case Birthdate => "birthdate"
      case GenderKey => "gender"
      case Height => "height"
      case Weight => "weight"
      case ActivityLevelKey => "activity_level"
      case GoalTypeKey => "goal_type"
      case TargetWeight => "target_weight"
      case WeeklyWeightChange => "weekly_weight_change"
      case CalorieGoal => "calorie_goal"
      case MacroProtein => "macro_protein"
      case MacroCarbs => "macro_carbs"
      case MacroFat => "macro_fat"
      case Units => "units"
      case Theme => "theme"
      case MealRemindersKey => "meal_reminders"
      case GoalRemindersKey => "goal_reminders"
      case WaterRemindersKey => "water_reminders"
      case WorkoutRemindersKey => "workout_reminders"
      case BreakfastTime => "breakfast_time"
      case LunchTime => "lunch_time"
      case DinnerTime => "dinner_time"
      case ShareData => "share_data"
      case Analytics => "analytics"
      case CrashReporting => "crash_reporting"
      case CreatedAt => "created_at"
      case OtherKey(t) => t
    }

    /** The position in `userProfileToAttributes`; `sub`, `email` and foreign
        names come after the written ones. */
    function Index(): nat {
      match this
      case NameKey => 0
      case Birthdate => 1
      case GenderKey => 2
      case Height => 3
      case Weight => 4
      case ActivityLevelKey => 5
      case GoalTypeKey => 6
      case TargetWeight => 7
      case WeeklyWeightChange => 8
      case CalorieGoal => 9
      case MacroProtein => 10
      case MacroCarbs => 11
      case MacroFat => 12
      case Units => 13
      case Theme => 14
      case MealRemindersKey => 15
      case GoalRemindersKey => 16
      case WaterRemindersKey => 17
      case WorkoutRemindersKey => 18
      case BreakfastTime => 19
      case LunchTime => 20
      case DinnerTime => 21
      case ShareData => 22
      case Analytics => 23
      case CrashReporting => 24
      case CreatedAt => 25
      case Sub => 26
      case EmailKey => 27
      case OtherKey(_) => 28
    }
  }

  /** Attribute names are unique, so the attribute list is a map from name to
      value. */
  type Attributes = map<Key, string>

  /** `getAttribute`: the value, or the empty string when it is missing. */
  function Get(attrs: Attributes, name: Key): (r: string)
    ensures name !in attrs ==> r == ""
    ensures r != "" ==> name in attrs && attrs[name] == r
  {
    if name in attrs then attrs[name] else ""
  }

  /** JavaScript's `s || fallback` on a string. */
  function Or(s: string, fallback: string): (r: string)
    ensures r != "" <== s != "" || fallback != ""
    ensures s != "" ==> r == s
  {
    if s == "" then fallback else s
  }

  /** Library conversions: `Number.prototype.toString`, `parseFloat`,
      `parseInt`, `toISOString().split('T')[0]`, `toISOString()` and
      `new Date(text)`. */
  datatype Codec = Codec(
    showNumber: real -> string,
    parseFloat: string -> real,
    parseInt: string -> real,
    showDay: Timestamp -> string,
    showInstant: Timestamp -> string,
    parseDate: string -> Timestamp)

  const DayMs: int := 86400000

  /** `new Date('1990-01-01')`: midnight UTC, in milliseconds since the epoch. */
  const DefaultBirthDate: Timestamp := 631152000000

  /** What the library guarantees: number and date text is never empty, plain
      digit strings parse to their value, a full ISO instant reads back as the
      same instant, a `YYYY-MM-DD` day reads back as midnight UTC of that day,
      and the default birth date reads as 1 January 1990. */
  ghost predicate Lawful(c: Codec) {
    && (forall x :: c.showNumber(x) != "")
    && (forall n: nat :: c.parseInt(NatText(n)) == n as real && c.parseFloat(NatText(n)) == n as real)
    && (forall t :: c.showDay(t) != "" && c.showInstant(t) != "")
    && (forall t :: c.parseDate(c.showInstant(t)) == t)
    && (forall t :: c.parseDate(c.showDay(t)) == t - t % DayMs)
    && c.parseDate("1990-01-01") == DefaultBirthDate
  }

  /** `x` reads back exactly through `parseFloat`. */
  predicate FloatReadsBack(c: Codec, x: real) {
    c.parseFloat(c.showNumber(x)) == x
  }

  /** `x` reads back exactly through `parseInt` (true of integers). */
  predicate IntReadsBack(c: Codec, x: real) {
    c.parseInt(c.showNumber(x)) == x
  }

  function Flag(attrs: Attributes, name: Key): bool {
    Get(attrs, name) == "true"
  }

  /** `attrs[name] || fallback`. */
  function TextOr(attrs: Attributes, name: Key, fallback: string): string {
    Or(Get(attrs, name), fallback)
  }

  /** The goals block of `createUserProfileFromAttributes`: an empty optional
      weight is absent, and custom goals are never read. */
  function GoalsFrom(attrs: Attributes, c: Codec): (g: NutritionGoals)
    ensures g.customGoals.None?
    ensures g.targetWeight.None? <==> Get(attrs, TargetWeight) == ""
    ensures g.weeklyWeightChange.None? <==> Get(attrs, WeeklyWeightChange) == ""
  {
    NutritionGoals(
      GoalFromText(TextOr(attrs, GoalTypeKey, "maintain")),
      if Get(attrs, TargetWeight) != "" then Some(c.parseFloat(Get(attrs, TargetWeight))) else None,
      if Get(attrs, WeeklyWeightChange) != "" then Some(c.parseFloat(Get(attrs, WeeklyWeightChange)))
      else None,
      c.parseInt(TextOr(attrs, CalorieGoal, "2000")),
      MacroRatios(
        c.parseInt(TextOr(attrs, MacroProtein, "30")),
        c.parseInt(TextOr(attrs, MacroCarbs, "40")),
        c.parseInt(TextOr(attrs, MacroFat, "30"))),
      None)
  }

  /** The notification block: four flags and three reminder times. */
  function NotificationsFrom(attrs: Attributes): (n: NotificationSettings)
    ensures n.mealReminderTimes.breakfast != "" && n.mealReminderTimes.lunch != ""
    ensures n.mealReminderTimes.dinner != ""
  {
    NotificationSettings(
      Flag(attrs, MealRemindersKey), Flag(attrs, GoalRemindersKey),
      Flag(attrs, WaterRemindersKey), Flag(attrs, WorkoutRemindersKey),
      MealReminderTimes(
        TextOr(attrs, BreakfastTime, "08:00"),
        TextOr(attrs, LunchTime, "12:00"),
        TextOr(attrs, DinnerTime, "18:00")))
  }

  /** The preferences block: units, theme, notifications and privacy. */
  function PreferencesFrom(attrs: Attributes): (q: UserPreferences)
    ensures q.notifications == NotificationsFrom(attrs)
    ensures q.privacy.shareData == Flag(attrs, ShareData)
    ensures q.privacy.analytics == Flag(attrs, Analytics)
    ensures q.privacy.crashReporting == Flag(attrs, CrashReporting)
  {
    UserPreferences(
      UnitsFromText(TextOr(attrs, Units, "metric")),
      ThemeFromText(TextOr(attrs, Theme, "system")),
      NotificationsFrom(attrs),
      PrivacySettings(Flag(attrs, ShareData), Flag(attrs, Analytics), Flag(attrs, CrashReporting)))
  }

  /** `createUserProfileFromAttributes`. The id falls back to
      `user-<Date.now()>` (the reading is `stamp`); `now` stands for the
      current instant. */
  function ProfileFromAttributes(attrs: Attributes, email: string, c: Codec, stamp: nat, now: Timestamp)
    : (p: UserProfile)
    ensures p.email == email && p.updatedAt == now && p.id != ""
    ensures p.goals.customGoals.None?
    ensures p.name != "" && p.preferences.notifications.mealReminderTimes.breakfast != ""
  {
    UserProfile(
      TextOr(attrs, Sub, "user-" + NatText(stamp)),
      email,
      TextOr(attrs, NameKey, "User"),
      c.parseDate(TextOr(attrs, Birthdate, "1990-01-01")),
      GenderFromText(TextOr(attrs, GenderKey, "other")),
      c.parseInt(TextOr(attrs, Height, "170")),
      c.parseFloat(TextOr(attrs, Weight, "70")),
      ActivityFromText(TextOr(attrs, ActivityLevelKey, "moderate")),
      GoalsFrom(attrs, c),
      PreferencesFrom(attrs),
      if Get(attrs, CreatedAt) == "" then now else c.parseDate(Get(attrs, CreatedAt)),
      now)
  }

  /** A missing or empty attribute gives its default. */
  lemma EmptyAttributesGiveDefaults(attrs: Attributes, email: string, c: Codec, stamp: nat, now: Timestamp)
    requires Lawful(c)
    ensures var p := ProfileFromAttributes(attrs, email, c, stamp, now);
            && (Get(attrs, Sub) == "" ==> p.id == "user-" + NatText(stamp))
            && (Get(attrs, NameKey) == "" ==> p.name == "User")
            && (Get(attrs, Birthdate) == "" ==> p.dateOfBirth == DefaultBirthDate)
            && (Get(attrs, GenderKey) == "" ==> p.gender == OtherGender)
            && (Get(attrs, Height) == "" ==> p.height == 170.0)
            && (Get(attrs, Weight) == "" ==> p.currentWeight == 70.0)
            && (Get(attrs, ActivityLevelKey) == "" ==> p.activityLevel == Moderate)
            && (Get(attrs, GoalTypeKey) == "" ==> p.goals.goalType == Maintain)
            && (Get(attrs, TargetWeight) == "" ==> p.goals.targetWeight.None?)
            && (Get(attrs, WeeklyWeightChange) == "" ==> p.goals.weeklyWeightChange.None?)
            && (Get(attrs, CalorieGoal) == "" ==> p.goals.calorieGoal == 2000.0)
            && (Get(attrs, MacroProtein) == "" ==> p.goals.macroRatios.protein == 30.0)
            && (Get(attrs, MacroCarbs) == "" ==> p.goals.macroRatios.carbs == 40.0)
            && (Get(attrs, MacroFat) == "" ==> p.goals.macroRatios.fat == 30.0)
            && (Get(attrs, Units) == "" ==> p.preferences.units == Metric)
            && (Get(attrs, Theme) == "" ==> p.preferences.theme == SystemTheme)
            && (Get(attrs, BreakfastTime) == "" ==> p.preferences.notifications.mealReminderTimes.breakfast == "08:00")
            && (Get(attrs, LunchTime) == "" ==> p.preferences.notifications.mealReminderTimes.lunch == "12:00")
            && (Get(attrs, DinnerTime) == "" ==> p.preferences.notifications.mealReminderTimes.dinner == "18:00")
            && (Get(attrs, CreatedAt) == "" ==> p.createdAt == now)
  {
    DefaultNumberTexts();
    GoalDefaults(attrs, c);
    PreferenceDefaults(attrs);
  }

  /** The goals block's defaults. */
  lemma GoalDefaults(attrs: Attributes, c: Codec)
    requires Lawful(c)
    ensures var g := GoalsFrom(attrs, c);
            && (Get(attrs, GoalTypeKey) == "" ==> g.goalType == Maintain)
            && (Get(attrs, CalorieGoal) == "" ==> g.calorieGoal == 2000.0)
            && (Get(attrs, MacroProtein) == "" ==> g.macroRatios.protein == 30.0)
            && (Get(attrs, MacroCarbs) == "" ==> g.macroRatios.carbs == 40.0)
            && (Get(attrs, MacroFat) == "" ==> g.macroRatios.fat == 30.0)
  {
    DefaultNumberTexts();
  }

  /** The preferences block's defaults. */
  lemma PreferenceDefaults(attrs: Attributes)
    ensures var q := PreferencesFrom(attrs);
            var t := q.notifications.mealReminderTimes;
            && (Get(attrs, Units) == "" ==> q.units == Metric)
            && (Get(attrs, Theme) == "" ==> q.theme == SystemTheme)
            && (Get(attrs, BreakfastTime) == "" ==> t.breakfast == "08:00")
            && (Get(attrs, LunchTime) == "" ==> t.lunch == "12:00")
            && (Get(attrs, DinnerTime) == "" ==> t.dinner == "18:00")
  {
  }

  lemma DefaultNumberTexts()
    ensures NatText(170) == "170" && NatText(70) == "70" && NatText(2000) == "2000"
    ensures NatText(30) == "30" && NatText(40) == "40"
  {
  }

  /** The seven notification and privacy flags are set exactly when the
      attribute is the text `true`; a missing one is false. */
  lemma FlagsReadExactly(attrs: Attributes, email: string, c: Codec, stamp: nat, now: Timestamp)
    ensures var p := ProfileFromAttributes(attrs, email, c, stamp, now);
            var n := p.preferences.notifications;
            var v := p.preferences.privacy;
            && (n.mealReminders <==> MealRemindersKey in attrs && attrs[MealRemindersKey] == "true")
            && (n.goalReminders <==> GoalRemindersKey in attrs && attrs[GoalRemindersKey] == "true")
            && (n.waterReminders <==> WaterRemindersKey in attrs && attrs[WaterRemindersKey] == "true")
            && (n.workoutReminders <==> WorkoutRemindersKey in attrs && attrs[WorkoutRemindersKey] == "true")
            && (v.shareData <==> ShareData in attrs && attrs[ShareData] == "true")
            && (v.analytics <==> Analytics in attrs && attrs[Analytics] == "true")
            && (v.crashReporting <==> CrashReporting in attrs && attrs[CrashReporting] == "true")
  {
  }

  function FlagText(b: bool): string {
    if b then "true" else "false"
  }

  /** `x?.toString() || ''`. */
  function OptionalNumber(c: Codec, x: Option<real>): (r: string)
    ensures Lawful(c) ==> (r == "" <==> x.None?)
  {
    match x
    case None => ""
    case Some(v) => c.showNumber(v)
  }

  /** The names `userProfileToAttributes` writes: all but `sub`, `email` and
      foreign ones. */
  predicate Written(k: Key) {
    !k.Sub? && !k.EmailKey? && !k.OtherKey?
  }

  /** The seven boolean attributes. */
  predicate IsFlag(k: Key) {
    k.MealRemindersKey? || k.GoalRemindersKey? || k.WaterRemindersKey? || k.WorkoutRemindersKey?
    || k.ShareData? || k.Analytics? || k.CrashReporting?
  }

  /** The names `userProfileToAttributes` writes, in its order. */
  const WrittenKeys: set<Key> := {
    NameKey, Birthdate, GenderKey, Height, Weight, ActivityLevelKey,
    GoalTypeKey, TargetWeight, WeeklyWeightChange, CalorieGoal, MacroProtein, MacroCarbs, MacroFat,
    Units, Theme,
    MealRemindersKey, GoalRemindersKey, WaterRemindersKey, WorkoutRemindersKey,
    BreakfastTime, LunchTime, DinnerTime,
    ShareData, Analytics, CrashReporting,
    CreatedAt}

  /** The value written under one name. */
  function AttributeValue(u: UserProfile, c: Codec, k: Key): string {
    var n := u.preferences.notifications;
    var v := u.preferences.privacy;
    match k
    case NameKey => u.name
    case Birthdate => c.showDay(u.dateOfBirth)
    case GenderKey => u.gender.Text()
    case Height => c.showNumber(u.height)
    case Weight => c.showNumber(u.currentWeight)
    case ActivityLevelKey => u.activityLevel.Text()
    case GoalTypeKey => u.goals.goalType.Text()
    case TargetWeight => OptionalNumber(c, u.goals.targetWeight)
    case WeeklyWeightChange => OptionalNumber(c, u.goals.weeklyWeightChange)
    case CalorieGoal => c.showNumber(u.goals.calorieGoal)
    case MacroProtein => c.showNumber(u.goals.macroRatios.protein)
    case MacroCarbs => c.showNumber(u.goals.macroRatios.carbs)
    case MacroFat => c.showNumber(u.goals.macroRatios.fat)
    case Units => u.preferences.units.Text()
    case Theme => u.preferences.theme.Text()
    case MealRemindersKey => FlagText(n.mealReminders)
    case GoalRemindersKey => FlagText(n.goalReminders)
    case WaterRemindersKey => FlagText(n.waterReminders)
    case WorkoutRemindersKey => FlagText(n.workoutReminders)
    case BreakfastTime => n.mealReminderTimes.breakfast
    case LunchTime => n.mealReminderTimes.lunch
    case DinnerTime => n.mealReminderTimes.dinner
    case ShareData => FlagText(v.shareData)
    case Analytics => FlagText(v.analytics)
    case CrashReporting => FlagText(v.crashReporting)
    case CreatedAt => c.showInstant(u.createdAt)
    case _ => ""
  }

  /** `userProfileToAttributes`: the object literal, one attribute per
      written name. */
  function ProfileToAttributes(u: UserProfile, c: Codec): (r: Attributes)
    ensures EmailKey !in r && Sub !in r
  {
    map k | k in WrittenKeys :: AttributeValue(u, c, k)
  }

  /** Exactly the names other than `sub`, `email` and foreign ones are
      written. */
  lemma WrittenNames(u: UserProfile, c: Codec)
    ensures forall k :: k in ProfileToAttributes(u, c) <==> Written(k)
  {
  }

  /** The name written in position `i` of `userProfileToAttributes`. */
  function KeyAt(i: nat): (k: Key)
    requires i < 26
  {
    match i
    case 0 => NameKey
    case 1 => Birthdate
    case 2 => GenderKey
    case 3 => Height
    case 4 => Weight
    case 5 => ActivityLevelKey
    case 6 => GoalTypeKey
    case 7 => TargetWeight
    case 8 => WeeklyWeightChange
    case 9 => CalorieGoal
    case 10 => MacroProtein
    case 11 => MacroCarbs
    case 12 => MacroFat
    case 13 => Units
    case 14 => Theme
    case 15 => MealRemindersKey
    case 16 => GoalRemindersKey
    case 17 => WaterRemindersKey
    case 18 => WorkoutRemindersKey
    case 19 => BreakfastTime
    case 20 => LunchTime
    case 21 => DinnerTime
    case 22 => ShareData
    case 23 => Analytics
    case 24 => CrashReporting
    case _ => CreatedAt
  }

  /** The positions 0 to 25 name the written names. */
  const PositionedKeys: set<Key> := set i: nat | i < 26 :: KeyAt(i)

  lemma KeyAtIndex(i: nat)
    requires i < 26
    ensures KeyAt(i).Index() == i
  {
  }

  lemma IndexKeyAt(k: Key)
    requires k.Index() < 26
    ensures KeyAt(k.Index()) == k
  {
  }

  lemma PositionedKeysAre(k: Key)
    ensures k in PositionedKeys <==> Written(k)
  {
    if k in PositionedKeys {
      var i: nat :| i < 26 && KeyAt(i) == k;
      KeyAtIndex(i);
    }
    if Written(k) {
      IndexKeyAt(k);
    }
  }

  /** No name is listed twice, so 26 attributes are written. */
  lemma AttributeCount(u: UserProfile, c: Codec)
    ensures |ProfileToAttributes(u, c)| == 26
  {
    WrittenNames(u, c);
    forall k
      ensures k in ProfileToAttributes(u, c).Keys <==> k in PositionedKeys
    {
      PositionedKeysAre(k);
    }
    assert ProfileToAttributes(u, c).Keys == PositionedKeys;
    KeysBelowCard(26);
    assert PositionedKeys == set i: nat | i < 26 :: KeyAt(i);
    assert |ProfileToAttributes(u, c)| == |ProfileToAttributes(u, c).Keys|;
  }

  lemma {:induction false} KeysBelowCard(n: nat)
    requires n <= 26
    ensures |set i: nat | i < n :: KeyAt(i)| == n
  {
    if n > 0 {
      KeysBelowCard(n - 1);
      var below := set i: nat | i < n - 1 :: KeyAt(i);
      assert (set i: nat | i < n :: KeyAt(i)) == below + {KeyAt(n - 1)};
      KeyAtIndex(n - 1);
      forall i: nat | i < n - 1
        ensures KeyAt(i) != KeyAt(n - 1)
      {
        KeyAtIndex(i);
      }
      assert KeyAt(n - 1) !in below;
    }
  }

  /** Every flag is written as `true` or `false`. */
  lemma FlagsWritten(u: UserProfile, c: Codec)
    ensures forall k :: IsFlag(k) ==> k in ProfileToAttributes(u, c)
                                      && ProfileToAttributes(u, c)[k] in {"true", "false"}
  {
  }

  /** What a profile needs for its attributes to read back unchanged: the
      text fields and enum values are non-empty (an empty one would read as
      its default), the enum values are canonical, and the numbers print as
      text that parses back to them. */
  predicate Storable(u: UserProfile, c: Codec) {
    && u.id != "" && u.name != ""
    && u.gender.Canonical() && u.gender.Text() != ""
    && u.activityLevel.Canonical() && u.activityLevel.Text() != ""
    && u.goals.goalType.Canonical() && u.goals.goalType.Text() != ""
    && u.preferences.units.Canonical() && u.preferences.units.Text() != ""
    && u.preferences.theme.Canonical() && u.preferences.theme.Text() != ""
    && u.preferences.notifications.mealReminderTimes.breakfast != ""
    && u.preferences.notifications.mealReminderTimes.lunch != ""
    && u.preferences.notifications.mealReminderTimes.dinner != ""
    && IntReadsBack(c, u.height) && FloatReadsBack(c, u.currentWeight)
    && (u.goals.targetWeight.Some? ==> FloatReadsBack(c, u.goals.targetWeight.value))
    && (u.goals.weeklyWeightChange.Some? ==> FloatReadsBack(c, u.goals.weeklyWeightChange.value))
    && IntReadsBack(c, u.goals.calorieGoal)
    && IntReadsBack(c, u.goals.macroRatios.protein)
    && IntReadsBack(c, u.goals.macroRatios.carbs)
    && IntReadsBack(c, u.goals.macroRatios.fat)
  }

  /** The attributes hold the written text of `u`'s name, birth date, gender
      and creation instant. */
  predicate HoldsIdentity(a: Attributes, u: UserProfile, c: Codec) {
    && Get(a, NameKey) == u.name
    && Get(a, Birthdate) == c.showDay(u.dateOfBirth)
    && Get(a, GenderKey) == u.gender.Text()
    && Get(a, CreatedAt) == c.showInstant(u.createdAt)
  }

  /** The attributes hold the written text of `u`'s height, weight and
      activity level. */
  predicate HoldsBody(a: Attributes, u: UserProfile, c: Codec) {
    && Get(a, Height) == c.showNumber(u.height)
    && Get(a, Weight) == c.showNumber(u.currentWeight)
    && Get(a, ActivityLevelKey) == u.activityLevel.Text()
  }

  /** The attributes hold the written text of the goal type and the optional
      weights of `g`. */
  predicate HoldsGoalKind(a: Attributes, g: NutritionGoals, c: Codec) {
    && Get(a, GoalTypeKey) == g.goalType.Text()
    && Get(a, TargetWeight) == OptionalNumber(c, g.targetWeight)
    && Get(a, WeeklyWeightChange) == OptionalNumber(c, g.weeklyWeightChange)
  }

  /** The attributes hold the written text of the calorie goal and the macro
      ratios of `g`. */
  predicate HoldsTargets(a: Attributes, g: NutritionGoals, c: Codec) {
    && Get(a, CalorieGoal) == c.showNumber(g.calorieGoal)
    && Get(a, MacroProtein) == c.showNumber(g.macroRatios.protein)
    && Get(a, MacroCarbs) == c.showNumber(g.macroRatios.carbs)
    && Get(a, MacroFat) == c.showNumber(g.macroRatios.fat)
  }

  /** The attributes hold the written text of the four reminder flags of `n`. */
  predicate HoldsReminders(a: Attributes, n: NotificationSettings) {
    && Get(a, MealRemindersKey) == FlagText(n.mealReminders)
    && Get(a, GoalRemindersKey) == FlagText(n.goalReminders)
    && Get(a, WaterRemindersKey) == FlagText(n.waterReminders)
    && Get(a, WorkoutRemindersKey) == FlagText(n.workoutReminders)
  }

  /** The attributes hold the three reminder times `t`. */
  predicate HoldsReminderTimes(a: Attributes, t: MealReminderTimes) {
    && Get(a, BreakfastTime) == t.breakfast
    && Get(a, LunchTime) == t.lunch
    && Get(a, DinnerTime) == t.dinner
  }

  /** The attributes hold the written text of the units and theme of `q`. */
  predicate HoldsDisplay(a: Attributes, q: UserPreferences) {
    Get(a, Units) == q.units.Text() && Get(a, Theme) == q.theme.Text()
  }

  /** The attributes hold the written text of the privacy flags of `q`. */
  predicate HoldsPrivacy(a: Attributes, q: UserPreferences) {
    && Get(a, ShareData) == FlagText(q.privacy.shareData)
    && Get(a, Analytics) == FlagText(q.privacy.analytics)
    && Get(a, CrashReporting) == FlagText(q.privacy.crashReporting)
  }

  /** The attributes of `u` as the identity provider hands them back: every
      written name carries its written value. */
  predicate HoldsWritten(a: Attributes, u: UserProfile, c: Codec) {
    && HoldsIdentity(a, u, c) && HoldsBody(a, u, c)
    && HoldsGoalKind(a, u.goals, c) && HoldsTargets(a, u.goals, c)
    && HoldsReminders(a, u.preferences.notifications)
    && HoldsReminderTimes(a, u.preferences.notifications.mealReminderTimes)
    && HoldsDisplay(a, u.preferences) && HoldsPrivacy(a, u.preferences)
  }

  /** The provider's copy of the written attributes: `sub` added. */
  function Stored(u: UserProfile, c: Codec, id: string): (a: Attributes)
    ensures Get(a, Sub) == id
  {
    ProfileToAttributes(u, c)[Sub := id]
  }

  lemma IdentityWritten(u: UserProfile, c: Codec, id: string)
    ensures HoldsIdentity(Stored(u, c, id), u, c)
  {
  }

  lemma BodyWritten(u: UserProfile, c: Codec, id: string)
    ensures HoldsBody(Stored(u, c, id), u, c)
  {
  }

  lemma GoalKindWritten(u: UserProfile, c: Codec, id: string)
    ensures HoldsGoalKind(Stored(u, c, id), u.goals, c)
  {
  }

  lemma TargetsWritten(u: UserProfile, c: Codec, id: string)
    ensures HoldsTargets(Stored(u, c, id), u.goals, c)
  {
  }

  lemma RemindersWritten(u: UserProfile, c: Codec, id: string)
    ensures HoldsReminders(Stored(u, c, id), u.preferences.notifications)
  {
  }

  lemma ReminderTimesWritten(u: UserProfile, c: Codec, id: string)
    ensures HoldsReminderTimes(Stored(u, c, id), u.preferences.notifications.mealReminderTimes)
  {
  }

  lemma DisplayWritten(u: UserProfile, c: Codec, id: string)
    ensures HoldsDisplay(Stored(u, c, id), u.preferences)
  {
  }

  lemma PrivacyWritten(u: UserProfile, c: Codec, id: string)
    ensures HoldsPrivacy(Stored(u, c, id), u.preferences)
  {
  }

  /** The written attributes, with `sub` added, hold the profile. */
  lemma ReadWritten(u: UserProfile, c: Codec, id: string)
    ensures HoldsWritten(Stored(u, c, id), u, c)
  {
    IdentityWritten(u, c, id);
    BodyWritten(u, c, id);
    GoalKindWritten(u, c, id);
    TargetsWritten(u, c, id);
    RemindersWritten(u, c, id);
    ReminderTimesWritten(u, c, id);
    DisplayWritten(u, c, id);
    PrivacyWritten(u, c, id);
  }

  /** A written number reads back through `parseInt`. */
  lemma IntReadBack(a: Attributes, k: Key, fallback: string, c: Codec, x: real)
    requires Get(a, k) == c.showNumber(x) != "" && IntReadsBack(c, x)
    ensures c.parseInt(TextOr(a, k, fallback)) == x
  {
  }

  /** A written number reads back through `parseFloat`. */
  lemma FloatReadBack(a: Attributes, k: Key, fallback: string, c: Codec, x: real)
    requires Get(a, k) == c.showNumber(x) != "" && FloatReadsBack(c, x)
    ensures c.parseFloat(TextOr(a, k, fallback)) == x
  {
  }

  /** Goals whose written text the attributes hold read back, without custom
      goals. */
  lemma GoalsReadBack(a: Attributes, g: NutritionGoals, c: Codec)
    requires Lawful(c) && HoldsGoalKind(a, g, c) && HoldsTargets(a, g, c)
    requires g.goalType.Canonical() && g.goalType.Text() != ""
    requires g.targetWeight.Some? ==> FloatReadsBack(c, g.targetWeight.value)
    requires g.weeklyWeightChange.Some? ==> FloatReadsBack(c, g.weeklyWeightChange.value)
    requires IntReadsBack(c, g.calorieGoal) && IntReadsBack(c, g.macroRatios.protein)
    requires IntReadsBack(c, g.macroRatios.carbs) && IntReadsBack(c, g.macroRatios.fat)
    ensures GoalsFrom(a, c) == g.(customGoals := None)
  {
    TextRoundTrips(OtherCategory, OtherGender, Sedentary, g.goalType, Metric, SystemTheme);
    IntReadBack(a, CalorieGoal, "2000", c, g.calorieGoal);
    IntReadBack(a, MacroProtein, "30", c, g.macroRatios.protein);
    IntReadBack(a, MacroCarbs, "40", c, g.macroRatios.carbs);
    IntReadBack(a, MacroFat, "30", c, g.macroRatios.fat);
  }

  /** Notification settings whose written text the attributes hold read back
      when the reminder times are not empty. */
  lemma NotificationsReadBack(a: Attributes, n: NotificationSettings)
    requires HoldsReminders(a, n) && HoldsReminderTimes(a, n.mealReminderTimes)
    requires n.mealReminderTimes.breakfast != "" && n.mealReminderTimes.lunch != ""
    requires n.mealReminderTimes.dinner != ""
    ensures NotificationsFrom(a) == n
  {
  }

  /** Preferences whose written text the attributes hold read back when their
      enum values are canonical and the reminder times are not empty. */
  lemma PreferencesReadBack(a: Attributes, q: UserPreferences)
    requires HoldsDisplay(a, q) && HoldsPrivacy(a, q) && HoldsReminders(a, q.notifications)
    requires HoldsReminderTimes(a, q.notifications.mealReminderTimes)
    requires q.units.Canonical() && q.units.Text() != ""
    requires q.theme.Canonical() && q.theme.Text() != ""
    requires q.notifications.mealReminderTimes.breakfast != ""
    requires q.notifications.mealReminderTimes.lunch != ""
    requires q.notifications.mealReminderTimes.dinner != ""
    ensures PreferencesFrom(a) == q
  {
    TextRoundTrips(OtherCategory, OtherGender, Sedentary, Maintain, q.units, q.theme);
    NotificationsReadBack(a, q.notifications);
  }

  /** The profile read back from attributes whose groups and top-level
      fields each read back. */
  lemma ProfileReadBack(a: Attributes, u: UserProfile, c: Codec, stamp: nat, now: Timestamp)
    requires Get(a, Sub) == u.id != ""
    requires Get(a, NameKey) == u.name != ""
    requires c.parseDate(TextOr(a, Birthdate, "1990-01-01")) == u.dateOfBirth - u.dateOfBirth % DayMs
    requires GenderFromText(TextOr(a, GenderKey, "other")) == u.gender
    requires c.parseInt(TextOr(a, Height, "170")) == u.height
    requires c.parseFloat(TextOr(a, Weight, "70")) == u.currentWeight
    requires ActivityFromText(TextOr(a, ActivityLevelKey, "moderate")) == u.activityLevel
    requires GoalsFrom(a, c) == u.goals.(customGoals := None)
    requires PreferencesFrom(a) == u.preferences
    requires Get(a, CreatedAt) != "" && c.parseDate(Get(a, CreatedAt)) == u.createdAt
    ensures ProfileFromAttributes(a, u.email, c, stamp, now)
              == u.(dateOfBirth := u.dateOfBirth - u.dateOfBirth % DayMs,
                    goals := u.goals.(customGoals := None),
                    updatedAt := now)
  {
  }

  /** The written top-level fields of a storable profile meet
      `ProfileReadBack`. */
  lemma PersonHeld(a: Attributes, u: UserProfile, c: Codec)
    requires Lawful(c) && Storable(u, c) && HoldsIdentity(a, u, c) && HoldsBody(a, u, c)
    ensures c.parseDate(TextOr(a, Birthdate, "1990-01-01")) == u.dateOfBirth - u.dateOfBirth % DayMs
    ensures GenderFromText(TextOr(a, GenderKey, "other")) == u.gender
    ensures c.parseInt(TextOr(a, Height, "170")) == u.height
    ensures c.parseFloat(TextOr(a, Weight, "70")) == u.currentWeight
    ensures ActivityFromText(TextOr(a, ActivityLevelKey, "moderate")) == u.activityLevel
    ensures Get(a, CreatedAt) != "" && c.parseDate(Get(a, CreatedAt)) == u.createdAt
  {
    TextRoundTrips(OtherCategory, u.gender, u.activityLevel, Maintain, Metric, SystemTheme);
    IntReadBack(a, Height, "170", c, u.height);
    FloatReadBack(a, Weight, "70", c, u.currentWeight);
  }

  /** Reading attributes that hold a storable profile gives the profile back,
      with the birth date at midnight UTC, no custom goals and `updatedAt` the
      reading instant. */
  lemma ReadBack(a: Attributes, u: UserProfile, c: Codec, stamp: nat, now: Timestamp)
    requires Lawful(c) && Storable(u, c)
    requires HoldsWritten(a, u, c) && Get(a, Sub) == u.id
    ensures ProfileFromAttributes(a, u.email, c, stamp, now)
              == u.(dateOfBirth := u.dateOfBirth - u.dateOfBirth % DayMs,
                    goals := u.goals.(customGoals := None),
                    updatedAt := now)
  {
    PersonHeld(a, u, c);
    GoalsReadBack(a, u.goals, c);
    PreferencesReadBack(a, u.preferences);
    ProfileReadBack(a, u, c, stamp, now);
  }

  /** Writing a profile and reading it back (with the provider's `sub`
      attribute added) gives the profile again, except that the birth date
      becomes midnight UTC of its day, custom goals are dropped and
      `updatedAt` is the reading instant. */
  lemma AttributesRoundTrip(u: UserProfile, c: Codec, stamp: nat, now: Timestamp)
    requires Lawful(c) && Storable(u, c)
    ensures ProfileFromAttributes(ProfileToAttributes(u, c)[Sub := u.id], u.email, c, stamp, now)
              == u.(dateOfBirth := u.dateOfBirth - u.dateOfBirth % DayMs,
                    goals := u.goals.(customGoals := None),
                    updatedAt := now)
  {
    ReadWritten(u, c, u.id);
    ReadBack(Stored(u, c, u.id), u, c, stamp, now);
  }

  /** Absent optional weights are written as empty text and survive the round
      trip as absent; present ones stay present. */
  lemma MissingWeightsRoundTrip(u: UserProfile, c: Codec, id: string, stamp: nat, now: Timestamp)
    requires Lawful(c)
    ensures var p := ProfileFromAttributes(ProfileToAttributes(u, c)[Sub := id], u.email, c, stamp, now);
            && (u.goals.targetWeight.None? <==> p.goals.targetWeight.None?)
            && (u.goals.weeklyWeightChange.None? <==> p.goals.weeklyWeightChange.None?)
  {
    GoalKindWritten(u, c, id);
  }
}

=== FILE: calculations.dfy ===
/** The nutrition calculator: energy targets (Mifflin–St Jeor BMR, activity
    multipliers, goal adjustments), macro targets, the nutrition of a logged
    portion, the running day total, unit conversion, goal progress, exercise
    energy and the serving-size presets of each food category.

    Numbers are exact reals. `Math.round(x)` rounds half up, `Round` below;
    one-decimal rounding is `Math.round(10 x) / 10`, `RoundTenth` below. */
module Calculations {
  import opened Wrappers
  import opened Types

  // ---------------------------------------------------------------- rounding

  predicate IsWhole(x: real) {
    x.Floor as real == x
  }

  /** A multiple of 0.1. */
  predicate OnTenthGrid(x: real) {
    IsWhole(10.0 * x)
  }

  /** `n` is what rounding half up makes of `x`. */
  predicate RoundsTo(x: real, n: int) {
    n as real - 0.5 <= x < n as real + 0.5
  }

  lemma FloorUnique(x: real, n: int)
    requires n as real <= x < n as real + 1.0
    ensures x.Floor == n
  {
  }

  lemma IntIsWhole(n: int)
    ensures IsWhole(n as real)
  {
    FloorUnique(n as real, n);
  }

  /** JavaScript `Math.round`. */
  function Round(x: real): (r: int)
    ensures RoundsTo(x, r)
  {
    (x + 0.5).Floor
  }

  /** Rounding never reverses an order. */
  lemma RoundMonotone(x: real, y: real)
    requires x <= y
    ensures Round(x) <= Round(y)
  {
  }

  /** Only one integer lies within half a unit of `x` on the rounding side. */
  lemma RoundUnique(x: real, n: int)
    requires RoundsTo(x, n)
    ensures Round(x) == n
  {
    FloorUnique(x + 0.5, n);
  }

  lemma RoundOfWhole(x: real)
    requires IsWhole(x)
    ensures Round(x) as real == x
  {
    RoundUnique(x, x.Floor);
  }

  lemma WholeSum(x: real, y: real)
    requires IsWhole(x) && IsWhole(y)
    ensures IsWhole(x + y)
  {
    var a, b := x.Floor, y.Floor;
    assert x + y == (a + b) as real;
    IntIsWhole(a + b);
  }

  /** `Math.round(10 x) / 10`. */
  function RoundTenth(x: real): (r: real)
    ensures OnTenthGrid(r)
    ensures r - 0.05 <= x < r + 0.05
  {
    var n := Round(10.0 * x);
    IntIsWhole(n);
    n as real / 10.0
  }

  lemma RoundTenthOfGrid(x: real)
    requires OnTenthGrid(x)
    ensures RoundTenth(x) == x
  {
    RoundOfWhole(10.0 * x);
  }

  lemma TenthGridSum(x: real, y: real)
    requires OnTenthGrid(x) && OnTenthGrid(y)
    ensures OnTenthGrid(x + y)
  {
    WholeSum(10.0 * x, 10.0 * y);
    assert 10.0 * (x + y) == 10.0 * x + 10.0 * y;
  }

  // ------------------------------------------------------- energy and goals

  /** Mifflin–St Jeor basal metabolic rate. `ageYears` is the calendar-year
      difference the caller derives from the birth date and today's date. */
  function Bmr(gender: Gender, weightKg: real, heightCm: real, ageYears: int): (r: real)
    ensures r - (10.0 * weightKg + 6.25 * heightCm - 5.0 * ageYears as real)
              == if gender == Male then 5.0 else -161.0
  {
    if gender == Male then 10.0 * weightKg + 6.25 * heightCm - 5.0 * ageYears as real + 5.0
    else 10.0 * weightKg + 6.25 * heightCm - 5.0 * ageYears as real - 161.0
  }

  /** Every gender other than male takes the same branch, 166 kcal below male. */
  lemma BmrGenderBranches(g: Gender, weightKg: real, heightCm: real, ageYears: int)
    ensures g != Male ==> Bmr(g, weightKg, heightCm, ageYears) == Bmr(Female, weightKg, heightCm, ageYears)
    ensures Bmr(Male, weightKg, heightCm, ageYears) - Bmr(Female, weightKg, heightCm, ageYears) == 166.0
    ensures Bmr(g, weightKg + 1.0, heightCm, ageYears) == Bmr(g, weightKg, heightCm, ageYears) + 10.0
    ensures Bmr(g, weightKg, heightCm + 1.0, ageYears) == Bmr(g, weightKg, heightCm, ageYears) + 6.25
    ensures Bmr(g, weightKg, heightCm, ageYears + 1) == Bmr(g, weightKg, heightCm, ageYears) - 5.0
    ensures Bmr(Female, 0.0, 0.0, 0) == -161.0 && Bmr(Male, 0.0, 0.0, 0) == 5.0
  {
  }

  predicate IsListedActivity(level: ActivityLevel) {
    !level.UnlistedActivity?
  }

  /** Position of a listed activity level, from sedentary (0) to very active (4). */
  function ActivityRank(level: ActivityLevel): nat
    requires IsListedActivity(level)
  {
    match level
    case Sedentary => 0
    case Light => 1
    case Moderate => 2
    case Active => 3
    case VeryActive => 4
  }

  /** The activity multipliers; the table grows with the level and starts at 1.2. */
  function ActivityMultiplier(level: ActivityLevel): (m: real)
    requires IsListedActivity(level)
    ensures 1.2 <= m <= 1.9
    ensures level == Sedentary <==> m == 1.2
  {
    match level
    case Sedentary => 1.2
    case Light => 1.375
    case Moderate => 1.55
    case Active => 1.725
    case VeryActive => 1.9
  }

  /** Total daily energy expenditure: the BMR scaled by the activity multiplier,
      rounded half up. */
  function Tdee(bmr: real, level: ActivityLevel): (r: int)
    requires IsListedActivity(level)
    ensures RoundsTo(bmr * ActivityMultiplier(level), r)
  {
    Round(bmr * ActivityMultiplier(level))
  }

  lemma MultiplierMonotone(a: ActivityLevel, b: ActivityLevel)
    requires IsListedActivity(a) && IsListedActivity(b)
    requires ActivityRank(a) <= ActivityRank(b)
    ensures ActivityMultiplier(a) <= ActivityMultiplier(b)
  {
  }

  /** For a non-negative BMR, a higher activity level never lowers the TDEE, and no
      level goes below the sedentary figure. */
  lemma TdeeMonotone(bmr: real, a: ActivityLevel, b: ActivityLevel)
    requires bmr >= 0.0
    requires IsListedActivity(a) && IsListedActivity(b)
    requires ActivityRank(a) <= ActivityRank(b)
    ensures Tdee(bmr, a) <= Tdee(bmr, b)
    ensures Round(1.2 * bmr) <= Tdee(bmr, a)
  {
    MultiplierMonotone(a, b);
    var ma, mb := ActivityMultiplier(a), ActivityMultiplier(b);
    assert bmr * ma <= bmr * mb;
    assert 1.2 * bmr <= bmr * ma;
  }

  /** For any realistic BMR (at least 2.5 kcal) the TDEE is at least the BMR. */
  lemma TdeeAtLeastBmr(bmr: real, level: ActivityLevel)
    requires bmr >= 2.5
    requires IsListedActivity(level)
    ensures Tdee(bmr, level) as real >= bmr
  {
    var m := ActivityMultiplier(level);
    assert bmr * m >= 1.2 * bmr;
  }

  /** The calorie adjustment for a goal: one kilogram is 7700 kcal, so a weekly
      change of `w` kg is `1100 w` kcal a day; weight loss never goes below
      1200 kcal; a missing weekly change counts as 0; any goal other than
      losing, gaining or building muscle keeps the TDEE. */
  function AdjustForGoal(tdee: int, goalType: GoalType, weeklyWeightChange: Option<real>): (r: real)
    ensures var w := weeklyWeightChange.GetOr(0.0);
      && (goalType == LoseWeight ==> r >= 1200.0 && (r == 1200.0 || r == tdee as real - 1100.0 * w))
      && (goalType == LoseWeight && tdee as real - 1100.0 * w >= 1200.0 ==> r == tdee as real - 1100.0 * w)
      && (goalType == GainWeight ==> r == tdee as real + 1100.0 * w)
      && (goalType == BuildMuscle ==> r == tdee as real + 300.0)
      && (goalType.Maintain? || goalType.UnlistedGoal? ==> r == tdee as real)
  {
    var w := weeklyWeightChange.GetOr(0.0);
    match goalType
    case LoseWeight =>
      var dailyDeficit := (w * 7700.0) / 7.0;
      if 1200.0 >= tdee as real - dailyDeficit then 1200.0 else tdee as real - dailyDeficit
    case GainWeight =>
      var dailySurplus := (w * 7700.0) / 7.0;
      tdee as real + dailySurplus
    case BuildMuscle => tdee as real + 300.0
    case _ => tdee as real
  }

  /** `calculateCalorieGoal`: BMR from the profile, TDEE for its activity level,
      then the goal adjustment. */
  function CalorieGoal(user: UserProfile, ageYears: int): (r: real)
    requires IsListedActivity(user.activityLevel)
    ensures var tdee := Tdee(Bmr(user.gender, user.currentWeight, user.height, ageYears), user.activityLevel) as real;
            var w := user.goals.weeklyWeightChange.GetOr(0.0);
            && (user.goals.goalType == LoseWeight ==> r == if tdee - 1100.0 * w <= 1200.0 then 1200.0 else tdee - 1100.0 * w)
            && (user.goals.goalType == GainWeight ==> r == tdee + 1100.0 * w)
            && (user.goals.goalType == BuildMuscle ==> r == tdee + 300.0)
            && (user.goals.goalType.Maintain? || user.goals.goalType.UnlistedGoal? ==> r == tdee)
  {
    var bmr := Bmr(user.gender, user.currentWeight, user.height, ageYears);
    AdjustForGoal(Tdee(bmr, user.activityLevel), user.goals.goalType, user.goals.weeklyWeightChange)
  }

  /** A weight-loss goal never asks for less than 1200 kcal, whatever the profile. */
  lemma CalorieGoalFloor(user: UserProfile, ageYears: int)
    requires IsListedActivity(user.activityLevel)
    requires user.goals.goalType == LoseWeight
    ensures CalorieGoal(user, ageYears) >= 1200.0
  {
  }

  /** Daily targets from a calorie goal and a protein/carbs/fat split: 4 kcal per
      gram of protein or carbohydrate, 9 per gram of fat, 14 g fibre per 1000 kcal,
      sugar at most a tenth of the energy, fixed sodium and cholesterol limits. */
  function MacroGoals(calorieGoal: real, ratios: MacroRatios): (r: Nutrition)
    ensures r.calories == calorieGoal
    ensures RoundsTo(calorieGoal * ratios.protein / 400.0, r.protein.Floor) && IsWhole(r.protein)
    ensures RoundsTo(calorieGoal * ratios.carbs / 400.0, r.carbs.Floor) && IsWhole(r.carbs)
    ensures RoundsTo(calorieGoal * ratios.fat / 900.0, r.fat.Floor) && IsWhole(r.fat)
    ensures RoundsTo(calorieGoal * 14.0 / 1000.0, r.fiber.Floor) && IsWhole(r.fiber)
    ensures RoundsTo(calorieGoal / 40.0, r.sugar.Floor) && IsWhole(r.sugar)
    ensures r.sodium == 2300.0 && r.cholesterol == 300.0
  {
    var proteinCalories := (calorieGoal * ratios.protein) / 100.0;
    var carbCalories := (calorieGoal * ratios.carbs) / 100.0;
    var fatCalories := (calorieGoal * ratios.fat) / 100.0;
    var p, c, f := Round(proteinCalories / 4.0), Round(carbCalories / 4.0), Round(fatCalories / 9.0);
    var fi, su := Round(calorieGoal / 1000.0 * 14.0), Round(calorieGoal * 0.1 / 4.0);
    IntIsWhole(p); IntIsWhole(c); IntIsWhole(f); IntIsWhole(fi); IntIsWhole(su);
    Nutrition(calorieGoal, p as real, c as real, f as real, fi as real, su as real, 2300.0, 300.0)
  }

  /** 2000 kcal split 30/40/30 gives 150 g protein, 200 g carbohydrate, 67 g fat. */
  lemma MacroGoalsExample()
    ensures var g := MacroGoals(2000.0, MacroRatios(30.0, 40.0, 30.0));
      g.protein == 150.0 && g.carbs == 200.0 && g.fat == 67.0 && g.fiber == 28.0 && g.sugar == 50.0
  {
    var g := MacroGoals(2000.0, MacroRatios(30.0, 40.0, 30.0));
    RoundUnique(2000.0 * 30.0 / 400.0, 150);
    FloorUnique(g.protein, 150);
    FloorUnique(g.carbs, 200);
    FloorUnique(g.fat, 67);
    FloorUnique(g.fiber, 28);
    FloorUnique(g.sugar, 50);
  }

  // ------------------------------------------------------ logged nutrition

  /** `Math.round(x)` kept as a number. */
  function RoundWhole(x: real): (r: real)
    ensures IsWhole(r) && RoundsTo(x, r.Floor)
  {
    var n := Round(x);
    IntIsWhole(n);
    FloorUnique(n as real, n);
    n as real
  }

  /** The nutrition of `quantity` servings of `servingWeight` grams of a food whose
      facts are given per 100 g: energy, sodium and cholesterol are whole numbers,
      the other five nutrients multiples of 0.1, each the nearest such value to
      the exact share (half up). */
  function NutritionConsumed(per100g: Nutrition, quantity: real, servingWeight: real): (r: Nutrition)
    ensures var t := quantity * servingWeight / 100.0;
      && IsWhole(r.calories) && RoundsTo(per100g.calories * t, r.calories.Floor)
      && IsWhole(r.sodium) && RoundsTo(per100g.sodium * t, r.sodium.Floor)
      && IsWhole(r.cholesterol) && RoundsTo(per100g.cholesterol * t, r.cholesterol.Floor)
      && OnTenthGrid(r.protein) && r.protein - 0.05 <= per100g.protein * t < r.protein + 0.05
      && OnTenthGrid(r.carbs) && r.carbs - 0.05 <= per100g.carbs * t < r.carbs + 0.05
      && OnTenthGrid(r.fat) && r.fat - 0.05 <= per100g.fat * t < r.fat + 0.05
      && OnTenthGrid(r.fiber) && r.fiber - 0.05 <= per100g.fiber * t < r.fiber + 0.05
      && OnTenthGrid(r.sugar) && r.sugar - 0.05 <= per100g.sugar * t < r.sugar + 0.05
  {
    var t := (quantity * servingWeight) / 100.0;
    Nutrition(
      RoundWhole(per100g.calories * t),
      RoundTenth(per100g.protein * t),
      RoundTenth(per100g.carbs * t),
      RoundTenth(per100g.fat * t),
      RoundTenth(per100g.fiber * t),
      RoundTenth(per100g.sugar * t),
      RoundWhole(per100g.sodium * t),
      RoundWhole(per100g.cholesterol * t))
  }

  /** No quantity, or a weightless serving, contributes nothing. */
  lemma NutritionConsumedOfNothing(per100g: Nutrition, quantity: real, servingWeight: real)
    requires quantity == 0.0 || servingWeight == 0.0
    ensures NutritionConsumed(per100g, quantity, servingWeight) == ZeroNutrition
  {
    var t := quantity * servingWeight / 100.0;
    assert t == 0.0;
    assert per100g.calories * t == 0.0 && per100g.protein * t == 0.0 && per100g.carbs * t == 0.0;
    assert per100g.fat * t == 0.0 && per100g.fiber * t == 0.0 && per100g.sugar * t == 0.0;
    assert per100g.sodium * t == 0.0 && per100g.cholesterol * t == 0.0;
    ZeroRoundsToZero();
  }

  lemma ZeroRoundsToZero()
    ensures RoundWhole(0.0) == 0.0 && RoundTenth(0.0) == 0.0
  {
    RoundUnique(0.0, 0);
  }

  /** Two 150 g apples at 52 kcal per 100 g are 156 kcal. */
  lemma NutritionConsumedExample()
    ensures NutritionConsumed(Nutrition(52.0, 0.3, 14.0, 0.2, 2.4, 10.0, 1.0, 0.0), 2.0, 150.0).calories == 156.0
  {
    var r := NutritionConsumed(Nutrition(52.0, 0.3, 14.0, 0.2, 2.4, 10.0, 1.0, 0.0), 2.0, 150.0);
    FloorUnique(r.calories, 156);
  }

  // --------------------------------------------------------- running total

  datatype Field = Calories | Protein | Carbs | Fat | Fiber | Sugar | Sodium | Cholesterol

  function Get(n: Nutrition, f: Field): real {
    match f
    case Calories => n.calories
    case Protein => n.protein
    case Carbs => n.carbs
    case Fat => n.fat
    case Fiber => n.fiber
    case Sugar => n.sugar
    case Sodium => n.sodium
    case Cholesterol => n.cholesterol
  }

  /** The exact sum of one field over a list. */
  function FieldSum(xs: seq<Nutrition>, f: Field): real {
    if |xs| == 0 then 0.0 else FieldSum(xs[..|xs| - 1], f) + Get(xs[|xs| - 1], f)
  }

  /** Element-wise exact sum, the reference the rounded running total is compared with. */
  function ExactSum(xs: seq<Nutrition>): Nutrition {
    Nutrition(
      FieldSum(xs, Calories), FieldSum(xs, Protein), FieldSum(xs, Carbs), FieldSum(xs, Fat),
      FieldSum(xs, Fiber), FieldSum(xs, Sugar), FieldSum(xs, Sodium), FieldSum(xs, Cholesterol))
  }

  /** One step of the `reduce` in `sumNutrition`: energy, sodium and cholesterol
      add exactly, the other fields are re-rounded to one decimal. */
  function AddStep(total: Nutrition, n: Nutrition): Nutrition {
    Nutrition(
      total.calories + n.calories,
      RoundTenth(total.protein + n.protein),
      RoundTenth(total.carbs + n.carbs),
      RoundTenth(total.fat + n.fat),
      RoundTenth(total.fiber + n.fiber),
      RoundTenth(total.sugar + n.sugar),
      total.sodium + n.sodium,
      total.cholesterol + n.cholesterol)
  }

  /** `sumNutrition`: a left fold of `AddStep` from all zeros, in list order. */
  function SumNutrition(xs: seq<Nutrition>): (r: Nutrition)
    ensures |xs| == 0 ==> r == ZeroNutrition
    ensures r.calories == FieldSum(xs, Calories)
    ensures r.sodium == FieldSum(xs, Sodium)
    ensures r.cholesterol == FieldSum(xs, Cholesterol)
    ensures |xs| > 0 ==> OnTenthGrid(r.protein) && OnTenthGrid(r.carbs) && OnTenthGrid(r.fat)
                         && OnTenthGrid(r.fiber) && OnTenthGrid(r.sugar)
  {
    if |xs| == 0 then ZeroNutrition
    else AddStep(SumNutrition(xs[..|xs| - 1]), xs[|xs| - 1])
  }

  predicate FiveOnGrid(n: Nutrition) {
    OnTenthGrid(n.protein) && OnTenthGrid(n.carbs) && OnTenthGrid(n.fat)
    && OnTenthGrid(n.fiber) && OnTenthGrid(n.sugar)
  }

  lemma ZeroOnGrid()
    ensures FiveOnGrid(ZeroNutrition)
  {
    IntIsWhole(0);
  }

  /** One step from an on-grid total with an on-grid addend adds exactly. */
  lemma AddStepOnGrid(s: Nutrition, x: Nutrition)
    requires FiveOnGrid(s) && FiveOnGrid(x)
    ensures AddStep(s, x) == Nutrition(
              s.calories + x.calories, s.protein + x.protein, s.carbs + x.carbs, s.fat + x.fat,
              s.fiber + x.fiber, s.sugar + x.sugar, s.sodium + x.sodium, s.cholesterol + x.cholesterol)
    ensures FiveOnGrid(AddStep(s, x))
  {
    TenthGridSum(s.protein, x.protein); RoundTenthOfGrid(s.protein + x.protein);
    TenthGridSum(s.carbs, x.carbs); RoundTenthOfGrid(s.carbs + x.carbs);
    TenthGridSum(s.fat, x.fat); RoundTenthOfGrid(s.fat + x.fat);
    TenthGridSum(s.fiber, x.fiber); RoundTenthOfGrid(s.fiber + x.fiber);
    TenthGridSum(s.sugar, x.sugar); RoundTenthOfGrid(s.sugar + x.sugar);
  }

  /** When every addend already sits on the 0.1 grid (as every logged portion
      does), re-rounding after each step loses nothing: the running total is
      the exact element-wise sum. */
  lemma {:induction false} SumNutritionExactOnGrid(xs: seq<Nutrition>)
    requires forall k :: 0 <= k < |xs| ==> FiveOnGrid(xs[k])
    ensures SumNutrition(xs) == ExactSum(xs)
    ensures FiveOnGrid(SumNutrition(xs))
  {
    if |xs| == 0 {
      ZeroOnGrid();
    } else {
      var init := xs[..|xs| - 1];
      SumNutritionExactOnGrid(init);
      AddStepOnGrid(SumNutrition(init), xs[|xs| - 1]);
    }
  }

  /** Logged portions always land on the grid the running total preserves. */
  lemma NutritionConsumedOnGrid(per100g: Nutrition, quantity: real, servingWeight: real)
    ensures FiveOnGrid(NutritionConsumed(per100g, quantity, servingWeight))
  {
  }

  function ConsumedNutritions(foods: seq<ConsumedFood>): (r: seq<Nutrition>)
    ensures |r| == |foods|
    ensures forall k :: 0 <= k < |foods| ==> r[k] == foods[k].nutritionConsumed
  {
    seq(|foods|, k requires 0 <= k < |foods| => foods[k].nutritionConsumed)
  }

  /** `calculateTotalNutrition`: the running total of the foods' logged nutrition. */
  function TotalNutrition(foods: seq<ConsumedFood>): (r: Nutrition)
    ensures |foods| == 0 ==> r == ZeroNutrition
    ensures r.calories == FieldSum(ConsumedNutritions(foods), Calories)
  {
    SumNutrition(ConsumedNutritions(foods))
  }

  /** A day's total depends on its foods only through their logged nutrition, in order. */
  lemma TotalNutritionAppend(foods: seq<ConsumedFood>, food: ConsumedFood)
    ensures TotalNutrition(foods + [food]) == AddStep(TotalNutrition(foods), food.nutritionConsumed)
  {
    var ns := ConsumedNutritions(foods + [food]);
    assert ns[..|ns| - 1] == ConsumedNutritions(foods);
  }

  // ---------------------------------------------------- units and progress

  datatype WeightUnit = Kg | Lbs
  datatype HeightUnit = Cm | Ft

  const LbsPerKg: real := 2.20462
  const CmPerFt: real := 30.48

  /** `convertWeight`: identity between equal units, otherwise the converted value
      rounded to one decimal. */
  function ConvertWeight(value: real, from: WeightUnit, to: WeightUnit): (r: real)
    ensures from == to ==> r == value
    ensures from != to ==> OnTenthGrid(r)
    ensures from == Kg && to == Lbs ==> r - 0.05 <= value * LbsPerKg < r + 0.05
    ensures from == Lbs && to == Kg ==> r - 0.05 <= value / LbsPerKg < r + 0.05
  {
    if from == to then value
    else if from == Kg then RoundTenth(value * LbsPerKg)
    else RoundTenth(value / LbsPerKg)
  }

  /** `convertHeight`: centimetres to feet keep one decimal, feet to centimetres
      are rounded to a whole number. */
  function ConvertHeight(value: real, from: HeightUnit, to: HeightUnit): (r: real)
    ensures from == to ==> r == value
    ensures from == Cm && to == Ft ==> OnTenthGrid(r) && r - 0.05 <= value / CmPerFt < r + 0.05
    ensures from == Ft && to == Cm ==> IsWhole(r) && RoundsTo(value * CmPerFt, r.Floor)
  {
    if from == to then value
    else if from == Cm then RoundTenth(value / CmPerFt)
    else
      var n := Round(value * CmPerFt);
      IntIsWhole(n);
      FloorUnique(n as real, n);
      n as real
  }

  /** Kilograms to pounds and back lands within 0.1 kg of the start. */
  lemma WeightRoundTrip(kg: real)
    ensures var back := ConvertWeight(ConvertWeight(kg, Kg, Lbs), Lbs, Kg);
      kg - 0.1 <= back <= kg + 0.1
  {
    var lbs := ConvertWeight(kg, Kg, Lbs);
    var back := ConvertWeight(lbs, Lbs, Kg);
    assert lbs / LbsPerKg - kg == (lbs - kg * LbsPerKg) / LbsPerKg;
  }

  /** Centimetres to feet and back lands within 2.024 cm of the start: up to
      0.05 ft (1.524 cm) from the one-decimal feet and 0.5 cm from the final
      rounding. */
  lemma HeightRoundTrip(cm: real)
    ensures var back := ConvertHeight(ConvertHeight(cm, Cm, Ft), Ft, Cm);
      cm - 2.024 <= back <= cm + 2.024
  {
    var ft := ConvertHeight(cm, Cm, Ft);
    var back := ConvertHeight(ft, Ft, Cm);
    assert ft - 0.05 <= cm / CmPerFt < ft + 0.05;
    assert (cm / CmPerFt) * CmPerFt == cm;
    assert ft * CmPerFt - 1.524 <= cm <= ft * CmPerFt + 1.524;
    assert back - 0.5 <= ft * CmPerFt < back + 0.5;
  }

  /** `calculateProgress`: the rounded percentage of the goal reached, capped at
      100; a zero goal shows no progress. */
  function Progress(current: real, goal: real): (r: int)
    ensures goal == 0.0 ==> r == 0
    ensures r <= 100
    ensures goal != 0.0 && r < 100 ==> RoundsTo(current / goal * 100.0, r)
    ensures goal != 0.0 && current / goal * 100.0 < 99.5 ==> RoundsTo(current / goal * 100.0, r)
    ensures goal != 0.0 && current / goal * 100.0 >= 99.5 ==> r == 100
  {
    if goal == 0.0 then 0
    else
      var p := Round((current / goal) * 100.0);
      if 100 <= p then 100 else p
  }

  /** A whole percentage up to 100 of a non-zero goal reads back as itself. */
  lemma ProgressOfPercent(goal: real, p: int)
    requires goal != 0.0 && 0 <= p <= 100
    ensures Progress(p as real / 100.0 * goal, goal) == p
  {
    var current := p as real / 100.0 * goal;
    assert current / goal == p as real / 100.0;
    RoundUnique(current / goal * 100.0, p);
  }

  /** For a positive goal, more progress never shows less. */
  lemma ProgressMonotone(a: real, b: real, goal: real)
    requires goal > 0.0 && a <= b
    ensures Progress(a, goal) <= Progress(b, goal)
  {
    assert a / goal <= b / goal;
    RoundMonotone(a / goal * 100.0, b / goal * 100.0);
  }

  /** 500 of a 400 goal shows 100 %, not 125 %. */
  lemma ProgressExample()
    ensures Progress(500.0, 400.0) == 100
  {
  }

  const DefaultTolerance: real := 0.1

  /** `isGoalMet`: within `tolerance` (a fraction of the goal) on either side. */
  function IsGoalMet(current: real, goal: real, tolerance: real): (r: bool)
    ensures r <==> current - goal <= goal * tolerance && goal - current <= goal * tolerance
  {
    var lowerBound := goal * (1.0 - tolerance);
    var upperBound := goal * (1.0 + tolerance);
    current >= lowerBound && current <= upperBound
  }

  // ------------------------------------------------------- exercise energy

  /** Energy of an exercise: MET times body weight times hours, rounded half up. */
  function CaloriesBurned(metValue: real, weightKg: real, durationMinutes: real): (r: int)
    ensures durationMinutes == 0.0 ==> r == 0
    ensures RoundsTo(metValue * weightKg * (durationMinutes / 60.0), r)
  {
    RoundUnique(0.0, 0);
    Round(metValue * weightKg * (durationMinutes / 60.0))
  }

  datatype StrengthIntensity = LightIntensity | ModerateIntensity | VigorousIntensity

  function StrengthMet(intensity: StrengthIntensity): real {
    match intensity
    case LightIntensity => 3.0
    case ModerateIntensity => 6.0
    case VigorousIntensity => 8.0
  }

  /** `calculateStrengthCalories`; an omitted intensity means moderate. */
  function StrengthCalories(weightKg: real, durationMinutes: real, intensity: Option<StrengthIntensity>): (r: int)
    ensures durationMinutes == 0.0 ==> r == 0
    ensures intensity.None? ==> RoundsTo(6.0 * weightKg * (durationMinutes / 60.0), r)
    ensures intensity.Some? ==> RoundsTo(StrengthMet(intensity.value) * weightKg * (durationMinutes / 60.0), r)
  {
    CaloriesBurned(StrengthMet(intensity.GetOr(ModerateIntensity)), weightKg, durationMinutes)
  }

  /** Strength training uses MET 3, 6 and 8; no intensity is the moderate figure;
      harder training never burns less. */
  lemma StrengthCaloriesFacts(weightKg: real, durationMinutes: real)
    requires weightKg >= 0.0 && durationMinutes >= 0.0
    ensures StrengthCalories(weightKg, durationMinutes, None)
         == CaloriesBurned(6.0, weightKg, durationMinutes)
    ensures StrengthCalories(weightKg, durationMinutes, Some(LightIntensity))
         == CaloriesBurned(3.0, weightKg, durationMinutes)
    ensures StrengthCalories(weightKg, durationMinutes, Some(VigorousIntensity))
         == CaloriesBurned(8.0, weightKg, durationMinutes)
    ensures StrengthCalories(weightKg, durationMinutes, Some(LightIntensity))
         <= StrengthCalories(weightKg, durationMinutes, None)
         <= StrengthCalories(weightKg, durationMinutes, Some(VigorousIntensity))
  {
    var h := weightKg * (durationMinutes / 60.0);
    assert h >= 0.0;
    assert 3.0 * weightKg * (durationMinutes / 60.0) == 3.0 * h;
    assert 6.0 * weightKg * (durationMinutes / 60.0) == 6.0 * h;
    assert 8.0 * weightKg * (durationMinutes / 60.0) == 8.0 * h;
  }

  // ------------------------------------------------------ serving presets

  const DefaultServingSizes: seq<NewServingSize> := [
    NewServingSize("100g", 100.0, Gram),
    NewServingSize("1 serving", 100.0, Piece)
  ]

  /** `generateCommonServingSizes`: the presets of a category, or the two-entry
      default list for any other key. */
  function CommonServingSizes(category: string): (r: seq<NewServingSize>)
    ensures |r| >= 2 && r[0].weight == 100.0
    ensures r[0].unit == (if category == "beverage" then Millilitre else Gram)
    ensures r[0].name == (if category == "beverage" then "100ml" else "100g")
    ensures forall k :: 0 <= k < |r| ==> r[k].weight > 0.0
    ensures category !in {"protein", "grain", "vegetable", "fruit", "dairy", "beverage"}
            ==> r == DefaultServingSizes
    ensures category in {"protein", "grain", "vegetable", "fruit", "dairy", "beverage"} ==> |r| == 3
  {
    match category
    case "protein" => [
      NewServingSize("100g", 100.0, Gram),
      NewServingSize("1 piece (85g)", 85.0, Piece),
      NewServingSize("1 oz", 28.35, Ounce)]
    case "grain" => [
      NewServingSize("100g", 100.0, Gram),
      NewServingSize("1 cup cooked", 195.0, Cup),
      NewServingSize("1 slice", 30.0, Slice)]
    case "vegetable" => [
      NewServingSize("100g", 100.0, Gram),
      NewServingSize("1 cup", 150.0, Cup),
      NewServingSize("1 medium", 120.0, Piece)]
    case "fruit" => [
      NewServingSize("100g", 100.0, Gram),
      NewServingSize("1 medium", 150.0, Piece),
      NewServingSize("1 cup", 150.0, Cup)]
    case "dairy" => [
      NewServingSize("100g", 100.0, Gram),
      NewServingSize("1 cup", 240.0, Cup),
      NewServingSize("1 tbsp", 15.0, Tablespoon)]
    case "beverage" => [
      NewServingSize("100ml", 100.0, Millilitre),
      NewServingSize("1 cup (240ml)", 240.0, Cup),
      NewServingSize("1 bottle (330ml)", 330.0, Piece)]
    case _ => DefaultServingSizes
  }

  /** A food's category picks its preset list: fat, snack, other and any
      unlisted category share the default pair, every other category has
      three sizes of its own. */
  lemma CategoryServingSizes(c: FoodCategory)
    requires c.Canonical()
    ensures (CommonServingSizes(c.Text()) == DefaultServingSizes)
            <==> (c.FatFood? || c.SnackFood? || c.OtherCategory? || c.UnlistedCategory?)
  {
    if c.UnlistedCategory? {
      assert CategoryFromText(c.text).UnlistedCategory?;
      assert c.Text() !in {"protein", "grain", "vegetable", "fruit", "dairy", "beverage"};
    }
  }
}

=== FILE: database.dfy ===
/** `DatabaseManager`: a handle that is either closed or open over the store's
    tables. Every accessor fails with `NotInitialized` while the handle is
    closed; `Initialize` opens it and seeds an empty food table. Operations
    that write return the new handle beside their result, because writes made
    before a failing statement stay (there is no transaction). The
    `Date.now()` values that ids are built from and the current instant are
    parameters. */
module Database {
  import opened Wrappers
  import opened Types
  import opened Text
  import opened Sorting
  import opened Sequences
  import opened MuscleJson
  import opened DbTables

  datatype Manager = Manager(open: bool, file: Tables)

  datatype Reply<T> = Reply(db: Manager, result: Result<T, DbError>)

  // ------------------------------------------------------------- seed data

  datatype SeedFood = SeedFood(id: string, name: string, category: string, nutrition: Nutrition)

  const SeedFoods: seq<SeedFood> := [
    SeedFood("apple-1", "Apple", "fruit", Nutrition(52.0, 0.3, 14.0, 0.2, 2.4, 10.0, 1.0, 0.0)),
    SeedFood("banana-1", "Banana", "fruit", Nutrition(89.0, 1.1, 23.0, 0.3, 2.6, 12.0, 1.0, 0.0)),
    SeedFood("chicken-breast-1", "Chicken Breast", "protein", Nutrition(165.0, 31.0, 0.0, 3.6, 0.0, 0.0, 74.0, 85.0)),
    SeedFood("brown-rice-1", "Brown Rice", "grain", Nutrition(123.0, 2.6, 23.0, 0.9, 1.8, 0.4, 5.0, 0.0)),
    SeedFood("broccoli-1", "Broccoli", "vegetable", Nutrition(34.0, 2.8, 7.0, 0.4, 2.6, 1.5, 33.0, 0.0))
  ]

  /** The three serving sizes every seeded food gets. */
  const SeedServings: seq<NewServingSize> := [
    NewServingSize("100g", 100.0, Gram),
    NewServingSize("1 medium", 150.0, Piece),
    NewServingSize("1 cup", 150.0, Cup)
  ]

  datatype SeedExercise = SeedExercise(
    id: string, name: string, category: ExerciseCategory, metValue: real, muscleGroups: seq<MuscleGroup>)

  const SeedExercises: seq<SeedExercise> := [
    SeedExercise("running-1", "Running", Cardio, 8.0, [Legs]),
    SeedExercise("cycling-1", "Cycling", Cardio, 6.8, [Legs]),
    SeedExercise("pushups-1", "Push-ups", Strength, 4.0, [Chest, Arms]),
    SeedExercise("squats-1", "Squats", Strength, 5.0, [Legs, Glutes]),
    SeedExercise("planks-1", "Planks", Strength, 3.5, [Abs])
  ]

  function SeedFoodRow(f: SeedFood, now: Timestamp): FoodRow {
    FoodRow(f.id, f.name, None, None, f.category, None, 0, f.nutrition, now, now)
  }

  /** Seeded serving ids are the food id and the unit: `apple-1-g`. */
  function SeedServingRow(f: SeedFood, s: NewServingSize): ServingRow {
    ServingRow(f.id + "-" + s.unit.Text(), f.id, s.name, s.weight, s.unit)
  }

  function SeedFoodStmts(f: SeedFood, now: Timestamp): seq<Stmt> {
    [ InsertFoodStmt(SeedFoodRow(f, now)),
      InsertServingStmt(SeedServingRow(f, SeedServings[0])),
      InsertServingStmt(SeedServingRow(f, SeedServings[1])),
      InsertServingStmt(SeedServingRow(f, SeedServings[2])) ]
  }

  function SeedFoodsStmts(fs: seq<SeedFood>, now: Timestamp): seq<Stmt> {
    if |fs| == 0 then [] else SeedFoodStmts(fs[0], now) + SeedFoodsStmts(fs[1..], now)
  }

  /** Exercises store their muscle groups as `JSON.stringify` text. */
  function SeedExerciseRow(e: SeedExercise, now: Timestamp): ExerciseRow {
    ExerciseRow(e.id, e.name, e.category, Some(e.metValue), Stringify(e.muscleGroups), None, now)
  }

  function SeedExercisesStmts(es: seq<SeedExercise>, now: Timestamp): seq<Stmt> {
    if |es| == 0 then [] else [InsertExerciseStmt(SeedExerciseRow(es[0], now))] + SeedExercisesStmts(es[1..], now)
  }

  /** The inserts of `seedInitialData`, in the order it issues them. */
  function SeedStatements(now: Timestamp): seq<Stmt> {
    SeedFoodsStmts(SeedFoods, now) + SeedExercisesStmts(SeedExercises, now)
  }

  /** `seedInitialData`: nothing happens when the food table has any row. */
  function SeedIfEmpty(t: Tables, now: Timestamp): (r: Exec)
    ensures |t.foods| > 0 ==> r == Exec(t, None)
    ensures Valid(t) ==> Valid(r.tables)
  {
    if |t.foods| > 0 then Exec(t, None) else Run(t, SeedStatements(now))
  }

  /** `initialize`: an open handle is returned as it is; otherwise the handle is
      opened (and stays open even if seeding then fails) and an empty food
      table is seeded. */
  function Initialize(m: Manager, now: Timestamp): (r: Reply<()>)
    ensures r.db.open
    ensures m.open ==> r == Reply(m, Ok(()))
    ensures !m.open && |m.file.foods| > 0 ==> r == Reply(Manager(true, m.file), Ok(()))
    ensures Valid(m.file) ==> Valid(r.db.file)
    ensures r.db.file.users == m.file.users && r.db.file.favorites == m.file.favorites
  {
    if m.open then Reply(m, Ok(()))
    else
      var e := SeedIfEmpty(m.file, now);
      Reply(Manager(true, e.tables), if e.error.None? then Ok(()) else Err(e.error.value))
  }

  /** A second `initialize` finds the handle open and does nothing. */
  lemma InitializeIdempotent(m: Manager, now: Timestamp, later: Timestamp)
    ensures var first := Initialize(m, now);
            Initialize(first.db, later) == Reply(first.db, Ok(()))
  {
  }

  // ------------------------------------------------------------------ users

  /** `Omit<UserProfile, 'id' | 'createdAt' | 'updatedAt'>`. */
  datatype UserDraft = UserDraft(
    email: string, name: string, dateOfBirth: Timestamp, gender: Gender, height: real,
    currentWeight: real, activityLevel: ActivityLevel, goals: NutritionGoals, preferences: UserPreferences)

  /** The preferences `getUser` reports whatever was stored: the users table has
      no columns for them. */
  const StoredNotifications := NotificationSettings(true, true, true, true, MealReminderTimes("08:00", "12:00", "18:00"))
  const StoredPrivacy := PrivacySettings(false, true, true)

  function UserRowOf(id: string, u: UserDraft, now: Timestamp): UserRow {
    UserRow(id, u.email, u.name, u.dateOfBirth, u.gender.Text(), u.height, u.currentWeight,
            u.activityLevel.Text(), u.goals.goalType.Text(), u.goals.targetWeight, u.goals.weeklyWeightChange,
            u.goals.calorieGoal, u.goals.macroRatios.protein, u.goals.macroRatios.carbs, u.goals.macroRatios.fat,
            u.preferences.units.Text(), u.preferences.theme.Text(), now, now)
  }

  /** The row mapping of `getUser`. */
  function ProfileOfRow(r: UserRow): (p: UserProfile)
    ensures p.preferences.notifications == StoredNotifications && p.preferences.privacy == StoredPrivacy
    ensures p.goals.customGoals.None?
    ensures p.id == r.id && p.email == r.email
  {
    UserProfile(
      r.id, r.email, r.name, r.dateOfBirth, GenderFromText(r.gender), r.height, r.currentWeight,
      ActivityFromText(r.activityLevel),
      NutritionGoals(GoalFromText(r.goalType), r.targetWeight, r.weeklyWeightChange, r.calorieGoal,
                     MacroRatios(r.macroProtein, r.macroCarbs, r.macroFat), None),
      UserPreferences(UnitsFromText(r.units), ThemeFromText(r.theme), StoredNotifications, StoredPrivacy),
      r.createdAt, r.updatedAt)
  }

  function NewUserId(stamp: nat): string {
    "user-" + NatText(stamp)
  }

  /** `createUser`: inserts the profile under `user-<stamp>`; the insert fails
      when that id or the e-mail address is taken. */
  function CreateUser(m: Manager, u: UserDraft, stamp: nat, now: Timestamp): (r: Reply<string>)
    ensures !m.open ==> r == Reply(m, Err(NotInitialized))
    ensures m.open ==> r.db.open
    ensures m.open ==>
              (r.result.Ok? <==> (!HasKey(m.file.users, UserId, NewUserId(stamp))
                                  && !HasKey(m.file.users, UserEmail, u.email)))
    ensures r.result.Ok? ==> r.result.value == NewUserId(stamp)
    ensures r.result.Err? ==> r.db == m
    ensures Valid(m.file) ==> Valid(r.db.file)
  {
    if !m.open then Reply(m, Err(NotInitialized))
    else
      var id := NewUserId(stamp);
      match InsertUser(m.file, UserRowOf(id, u, now))
      case Ok(t) => Reply(Manager(true, t), Ok(id))
      case Err(e) => Reply(m, Err(e))
  }

  /** `getUser`: the stored profile, or nothing for an unknown id. */
  function GetUser(m: Manager, id: string): (r: Result<Option<UserProfile>, DbError>)
    ensures !m.open ==> r == Err(NotInitialized)
    ensures m.open ==> r.Ok? && (r.value.None? <==> !HasKey(m.file.users, UserId, id))
    ensures r.Ok? && r.value.Some? ==> r.value.value.id == id
  {
    if !m.open then Err(NotInitialized)
    else match FindUser(m.file.users, id)
      case None => Ok(None)
      case Some(row) => Ok(Some(ProfileOfRow(row)))
  }

  /** A created user reads back with every stored field as given (enum values
      in canonical form), `createdAt` and `updatedAt` the creation instant, no
      custom goals, and the fixed notification and privacy preferences. */
  lemma CreateThenGetUser(m: Manager, u: UserDraft, stamp: nat, now: Timestamp)
    requires u.gender.Canonical() && u.activityLevel.Canonical() && u.goals.goalType.Canonical()
    requires u.preferences.units.Canonical() && u.preferences.theme.Canonical()
    ensures var r := CreateUser(m, u, stamp, now);
            r.result.Ok? ==>
              GetUser(r.db, r.result.value) == Ok(Some(UserProfile(
                NewUserId(stamp), u.email, u.name, u.dateOfBirth, u.gender, u.height, u.currentWeight,
                u.activityLevel, u.goals.(customGoals := None),
                u.preferences.(notifications := StoredNotifications, privacy := StoredPrivacy),
                now, now)))
  {
    var r := CreateUser(m, u, stamp, now);
    if r.result.Ok? {
      var row := UserRowOf(NewUserId(stamp), u, now);
      FindUserAppended(m.file.users, row);
      TextRoundTrips(OtherCategory, u.gender, u.activityLevel, u.goals.goalType, u.preferences.units, u.preferences.theme);
    }
  }

  // ------------------------------------------------------------------ foods

  /** `Omit<FoodItem, 'id' | 'createdAt' | 'updatedAt'>`; the serving sizes'
      own ids are not used. */
  datatype FoodDraft = FoodDraft(
    name: string, brand: Option<string>, barcode: Option<string>, nutritionPer100g: Nutrition,
    servingSizes: seq<ServingSize>, category: FoodCategory, imageUrl: Option<string>, isCustom: bool)

  function ServingOfRow(r: ServingRow): ServingSize {
    ServingSize(r.id, r.name, r.weight, r.unit)
  }

  /** `SELECT * FROM serving_sizes WHERE food_item_id = ?`, in rowid order. */
  function ServingsOf(rows: seq<ServingRow>, foodId: string): (r: seq<ServingSize>)
    ensures |r| <= |rows|
    ensures (forall k :: 0 <= k < |rows| ==> rows[k].foodItemId != foodId) ==> r == []
  {
    if |rows| == 0 then []
    else (if rows[0].foodItemId == foodId then [ServingOfRow(rows[0])] else []) + ServingsOf(rows[1..], foodId)
  }

  lemma {:induction false} ServingsOfConcat(a: seq<ServingRow>, b: seq<ServingRow>, foodId: string)
    ensures ServingsOf(a + b, foodId) == ServingsOf(a, foodId) + ServingsOf(b, foodId)
  {
    if |a| == 0 {
      assert a + b == b;
    } else {
      assert (a + b)[0] == a[0] && (a + b)[1..] == a[1..] + b;
      ServingsOfConcat(a[1..], b, foodId);
      var head := if a[0].foodItemId == foodId then [ServingOfRow(a[0])] else [];
      assert ServingsOf(a + b, foodId) == head + ServingsOf(a[1..] + b, foodId);
      assert ServingsOf(a, foodId) == head + ServingsOf(a[1..], foodId);
      ConcatAssocServings(head, ServingsOf(a[1..], foodId), ServingsOf(b, foodId));
    }
  }

  /** The row mapping of `getFoodItem`, `searchFoodItems` and `getFavorites`:
      `is_custom` reads back through `Boolean(...)`. */
  function FoodOfRow(row: FoodRow, servings: seq<ServingRow>): (f: FoodItem)
    ensures f.id == row.id && f.name == row.name
    ensures f.isCustom <==> row.isCustom != 0
    ensures f.servingSizes == ServingsOf(servings, row.id)
  {
    FoodItem(row.id, row.name, row.brand, row.barcode, row.nutrition, ServingsOf(servings, row.id),
             CategoryFromText(row.category), row.imageUrl, row.isCustom != 0, row.createdAt, row.updatedAt)
  }

  function NewFoodId(stamp: nat): string {
    "food-" + NatText(stamp)
  }

  /** A serving row of `createFoodItem`: its id is the food id, the unit and a
      fresh `Date.now()` reading. */
  function ServingRowFor(foodId: string, s: ServingSize, stamp: nat): ServingRow {
    ServingRow(foodId + "-" + s.unit.Text() + "-" + NatText(stamp), foodId, s.name, s.weight, s.unit)
  }

  function ServingRowsFor(foodId: string, sizes: seq<ServingSize>, stamps: seq<nat>): (r: seq<ServingRow>)
    requires |stamps| == |sizes|
    ensures |r| == |sizes|
    ensures forall k :: 0 <= k < |sizes| ==> r[k] == ServingRowFor(foodId, sizes[k], stamps[k])
  {
    seq(|sizes|, k requires 0 <= k < |sizes| => ServingRowFor(foodId, sizes[k], stamps[k]))
  }

  function ServingStmts(rows: seq<ServingRow>): seq<Stmt> {
    if |rows| == 0 then [] else [InsertServingStmt(rows[0])] + ServingStmts(rows[1..])
  }

  /** New serving ids must differ from each other and from every stored one. */
  predicate FreshServingIds(t: Tables, rows: seq<ServingRow>) {
    UniqueKeys(rows, ServingId) && forall k :: 0 <= k < |rows| ==> !HasKey(t.servings, ServingId, rows[k].id)
  }

  /** Inserting serving rows of a stored food one by one succeeds exactly when
      their ids are fresh, and then appends them in order. */
  lemma {:induction false} RunServingStmts(t: Tables, rows: seq<ServingRow>, foodId: string)
    requires HasKey(t.foods, FoodId, foodId)
    requires forall k :: 0 <= k < |rows| ==> rows[k].foodItemId == foodId
    decreases |rows|
    ensures var e := Run(t, ServingStmts(rows));
            && (e.error.None? <==> FreshServingIds(t, rows))
            && (e.error.None? ==> e.tables == t.(servings := t.servings + rows))
            && (e.error.Some? ==> e.error.value == UniqueViolation)
  {
    if |rows| == 0 {
      assert t.servings + rows == t.servings;
    } else {
      var r0 := rows[0];
      var rest := rows[1..];
      assert rows == [r0] + rest;
      assert ServingStmts(rows) == [InsertServingStmt(r0)] + ServingStmts(rest);
      RunFirst(t, InsertServingStmt(r0), ServingStmts(rest));
      if !HasKey(t.servings, ServingId, r0.id) {
        var t1 := t.(servings := t.servings + [r0]);
        RunServingStmts(t1, rest, foodId);
        ConcatAssocRows(t.servings, [r0], rest);
        FreshStep(t, r0, rest);
      } else {
        assert !FreshServingIds(t, rows) by { assert rows[0] == r0; }
      }
    }
  }

  /** The serving inserts run until the first failure: only the servings
      table changes, and it gains the rows before the failing one. */
  lemma {:induction false} RunServingStmtsPartial(t: Tables, rows: seq<ServingRow>, foodId: string)
    requires HasKey(t.foods, FoodId, foodId)
    requires forall k :: 0 <= k < |rows| ==> rows[k].foodItemId == foodId
    decreases |rows|
    ensures var e := Run(t, ServingStmts(rows));
            var stored := |e.tables.servings| - |t.servings|;
            && e.tables == t.(servings := e.tables.servings)
            && 0 <= stored <= |rows|
            && e.tables.servings == t.servings + rows[..stored]
            && (e.error.Some? ==> stored < |rows|)
  {
    if |rows| == 0 {
      assert t.servings + rows[..0] == t.servings;
    } else {
      var r0 := rows[0];
      var rest := rows[1..];
      assert rows == [r0] + rest;
      assert ServingStmts(rows) == [InsertServingStmt(r0)] + ServingStmts(rest);
      RunFirst(t, InsertServingStmt(r0), ServingStmts(rest));
      if !HasKey(t.servings, ServingId, r0.id) {
        var t1 := t.(servings := t.servings + [r0]);
        RunServingStmtsPartial(t1, rest, foodId);
        var e := Run(t1, ServingStmts(rest));
        var n := |e.tables.servings| - |t1.servings|;
        assert rows[..n + 1] == [r0] + rest[..n];
        ConcatAssocRows(t.servings, [r0], rest[..n]);
      } else {
        assert t.servings + rows[..0] == t.servings;
      }
    }
  }

  lemma ConcatAssocServings(a: seq<ServingSize>, b: seq<ServingSize>, c: seq<ServingSize>)
    ensures (a + b) + c == a + (b + c)
  {
  }

  lemma ConcatAssocRows(a: seq<ServingRow>, b: seq<ServingRow>, c: seq<ServingRow>)
    ensures (a + b) + c == a + (b + c)
  {
  }

  lemma FreshStep(t: Tables, r0: ServingRow, rest: seq<ServingRow>)
    requires !HasKey(t.servings, ServingId, r0.id)
    ensures FreshServingIds(t, [r0] + rest) <==> FreshServingIds(t.(servings := t.servings + [r0]), rest)
  {
    if FreshServingIds(t, [r0] + rest) {
      FreshStepForward(t, r0, rest);
    }
    if FreshServingIds(t.(servings := t.servings + [r0]), rest) {
      FreshStepBack(t, r0, rest);
    }
  }

  lemma FreshStepForward(t: Tables, r0: ServingRow, rest: seq<ServingRow>)
    requires FreshServingIds(t, [r0] + rest)
    ensures FreshServingIds(t.(servings := t.servings + [r0]), rest)
  {
    var rows := [r0] + rest;
    var s1 := t.servings + [r0];
    assert forall k :: 0 <= k < |rest| ==> rows[k + 1] == rest[k];
    forall k | 0 <= k < |rest|
      ensures !HasKey(s1, ServingId, rest[k].id)
    {
      assert rows[0].id != rows[k + 1].id;
      forall m | 0 <= m < |s1|
        ensures ServingId(s1[m]) != rest[k].id
      {
        if m < |t.servings| {
          assert s1[m] == t.servings[m];
        }
      }
    }
    assert UniqueKeys(rest, ServingId);
  }

  lemma FreshStepBack(t: Tables, r0: ServingRow, rest: seq<ServingRow>)
    requires !HasKey(t.servings, ServingId, r0.id)
    requires FreshServingIds(t.(servings := t.servings + [r0]), rest)
    ensures FreshServingIds(t, [r0] + rest)
  {
    var rows := [r0] + rest;
    var s1 := t.servings + [r0];
    forall k | 0 <= k < |rest|
      ensures !HasKey(t.servings, ServingId, rest[k].id) && rest[k].id != r0.id
    {
      if HasKey(t.servings, ServingId, rest[k].id) {
        AppendKeepsKey(t.servings, ServingId, r0, rest[k].id);
      }
      assert s1[|t.servings|] == r0;
    }
    forall i, j | 0 <= i < j < |rows|
      ensures ServingId(rows[i]) != ServingId(rows[j])
    {
      if i > 0 {
        assert rows[i] == rest[i - 1] && rows[j] == rest[j - 1];
      }
    }
    assert forall k :: 0 <= k < |rows| ==> k == 0 || rows[k] == rest[k - 1];
  }


  function FoodRowOf(id: string, f: FoodDraft, now: Timestamp): FoodRow {
    FoodRow(id, f.name, f.brand, f.barcode, f.category.Text(), f.imageUrl, if f.isCustom then 1 else 0,
            f.nutritionPer100g, now, now)
  }

  /** The food insert followed by its serving inserts succeeds exactly when the
      food id is free and the serving ids are fresh, and then appends all rows. */
  lemma RunCreateFood(t: Tables, row: FoodRow, rows: seq<ServingRow>)
    requires forall k :: 0 <= k < |rows| ==> rows[k].foodItemId == row.id
    ensures var e := Run(t, [InsertFoodStmt(row)] + ServingStmts(rows));
            var t1 := t.(foods := t.foods + [row]);
            && (e.error.None? <==> !HasKey(t.foods, FoodId, row.id) && FreshServingIds(t1, rows))
            && (e.error.None? ==> e.tables == t1.(servings := t.servings + rows))
  {
    var stmts := [InsertFoodStmt(row)] + ServingStmts(rows);
    assert stmts[0] == InsertFoodStmt(row) && stmts[1..] == ServingStmts(rows);
    if !HasKey(t.foods, FoodId, row.id) {
      var t1 := t.(foods := t.foods + [row]);
      assert HasKey(t1.foods, FoodId, row.id) by { assert FoodId(t1.foods[|t.foods|]) == row.id; }
      RunServingStmts(t1, rows, row.id);
    }
  }

  /** A taken food id stops the run before anything is written; otherwise the
      food row stays and the serving inserts run until the first failure. */
  lemma CreateFoodSteps(t: Tables, row: FoodRow, rows: seq<ServingRow>)
    requires forall k :: 0 <= k < |rows| ==> rows[k].foodItemId == row.id
    ensures var e := Run(t, [InsertFoodStmt(row)] + ServingStmts(rows));
            var t1 := t.(foods := t.foods + [row]);
            var stored := |e.tables.servings| - |t.servings|;
            && (HasKey(t.foods, FoodId, row.id) ==> e == Exec(t, Some(UniqueViolation)))
            && (!HasKey(t.foods, FoodId, row.id) ==>
                  && e.tables == t1.(servings := e.tables.servings)
                  && 0 <= stored <= |rows|
                  && e.tables.servings == t.servings + rows[..stored]
                  && (e.error.Some? ==> stored < |rows|))
  {
    RunFirst(t, InsertFoodStmt(row), ServingStmts(rows));
    if !HasKey(t.foods, FoodId, row.id) {
      var t1 := t.(foods := t.foods + [row]);
      assert HasKey(t1.foods, FoodId, row.id) by { assert FoodId(t1.foods[|t.foods|]) == row.id; }
      RunServingStmtsPartial(t1, rows, row.id);
    }
  }

  /** `createFoodItem`: the food row under `food-<stamp>`, then one serving row
      per serving size, each with its own `Date.now()` reading. It succeeds
      exactly when the food id is free and the serving ids are fresh; a failing
      serving insert leaves the food row and the earlier servings behind. */
  function CreateFoodItem(m: Manager, f: FoodDraft, stamp: nat, servingStamps: seq<nat>, now: Timestamp)
    : (r: Reply<string>)
    requires |servingStamps| == |f.servingSizes|
    ensures !m.open ==> r == Reply(m, Err(NotInitialized))
    ensures m.open ==> r.db.open
    ensures m.open ==>
              var id := NewFoodId(stamp);
              var t1 := m.file.(foods := m.file.foods + [FoodRowOf(id, f, now)]);
              (r.result.Ok? <==> !HasKey(m.file.foods, FoodId, id)
                                 && FreshServingIds(t1, ServingRowsFor(id, f.servingSizes, servingStamps)))
    ensures r.result.Ok? ==>
              r.result.value == NewFoodId(stamp)
              && r.db.file == m.file.(foods := m.file.foods + [FoodRowOf(NewFoodId(stamp), f, now)],
                                      servings := m.file.servings + ServingRowsFor(NewFoodId(stamp), f.servingSizes, servingStamps))
    ensures m.open && HasKey(m.file.foods, FoodId, NewFoodId(stamp)) ==>
              r == Reply(m, Err(UniqueViolation))
    ensures m.open && !HasKey(m.file.foods, FoodId, NewFoodId(stamp)) ==>
              var id := NewFoodId(stamp);
              var rows := ServingRowsFor(id, f.servingSizes, servingStamps);
              var stored := |r.db.file.servings| - |m.file.servings|;
              && r.db.file == m.file.(foods := m.file.foods + [FoodRowOf(id, f, now)],
                                      servings := r.db.file.servings)
              && 0 <= stored <= |rows|
              && r.db.file.servings == m.file.servings + rows[..stored]
              && (r.result.Err? ==> stored < |rows|)
    ensures Valid(m.file) ==> Valid(r.db.file)
  {
    if !m.open then Reply(m, Err(NotInitialized))
    else
      var id := NewFoodId(stamp);
      var rows := ServingRowsFor(id, f.servingSizes, servingStamps);
      var e := Run(m.file, [InsertFoodStmt(FoodRowOf(id, f, now))] + ServingStmts(rows));
      RunCreateFood(m.file, FoodRowOf(id, f, now), rows);
      CreateFoodSteps(m.file, FoodRowOf(id, f, now), rows);
      Reply(Manager(true, e.tables), if e.error.None? then Ok(id) else Err(e.error.value))
  }

  /** `getFoodItem`: the stored food with its serving sizes, or nothing for an
      unknown id. */
  function GetFoodItem(m: Manager, id: string): (r: Result<Option<FoodItem>, DbError>)
    ensures !m.open ==> r == Err(NotInitialized)
    ensures m.open ==> r.Ok? && (r.value.None? <==> !HasKey(m.file.foods, FoodId, id))
    ensures r.Ok? && r.value.Some? ==>
              r.value.value.id == id && r.value.value.servingSizes == ServingsOf(m.file.servings, id)
  {
    if !m.open then Err(NotInitialized)
    else match FindFood(m.file.foods, id)
      case None => Ok(None)
      case Some(row) => Ok(Some(FoodOfRow(row, m.file.servings)))
  }

  /** The serving sizes a created food reads back with: the ones given, in
      order, under their new ids. */
  function CreatedServings(id: string, sizes: seq<ServingSize>, stamps: seq<nat>): seq<ServingSize>
    requires |stamps| == |sizes|
  {
    seq(|sizes|, k requires 0 <= k < |sizes| => sizes[k].(id := ServingRowFor(id, sizes[k], stamps[k]).id))
  }

  /** A created food reads back as given: same fields (category in canonical
      form, `isCustom` through 1/0), the creation instant as both dates, and
      its serving sizes in order under their new ids. */
  lemma CreateThenGetFoodItem(m: Manager, f: FoodDraft, stamp: nat, servingStamps: seq<nat>, now: Timestamp)
    requires |servingStamps| == |f.servingSizes|
    requires Valid(m.file)
    requires f.category.Canonical()
    ensures var r := CreateFoodItem(m, f, stamp, servingStamps, now);
            var id := NewFoodId(stamp);
            r.result.Ok? ==>
              GetFoodItem(r.db, id) == Ok(Some(FoodItem(
                id, f.name, f.brand, f.barcode, f.nutritionPer100g, CreatedServings(id, f.servingSizes, servingStamps),
                f.category, f.imageUrl, f.isCustom, now, now)))
  {
    var r := CreateFoodItem(m, f, stamp, servingStamps, now);
    var id := NewFoodId(stamp);
    if r.result.Ok? {
      var row := FoodRowOf(id, f, now);
      var rows := ServingRowsFor(id, f.servingSizes, servingStamps);
      FindFoodAppended(m.file.foods, row);
      assert FindFood(r.db.file.foods, id) == Some(row);
      CreatedServingsRead(m.file, id, f.servingSizes, servingStamps);
      assert ServingsOf(r.db.file.servings, id) == CreatedServings(id, f.servingSizes, servingStamps);
      TextRoundTrips(f.category, OtherGender, Sedentary, Maintain, Metric, SystemTheme);
    }
  }

  /** A fresh food id has no stored serving rows, so only the new ones read back. */
  lemma CreatedServingsRead(t: Tables, id: string, sizes: seq<ServingSize>, stamps: seq<nat>)
    requires |stamps| == |sizes|
    requires Valid(t) && !HasKey(t.foods, FoodId, id)
    ensures ServingsOf(t.servings + ServingRowsFor(id, sizes, stamps), id) == CreatedServings(id, sizes, stamps)
  {
    var rows := ServingRowsFor(id, sizes, stamps);
    ServingsOfConcat(t.servings, rows, id);
    forall k | 0 <= k < |t.servings|
      ensures t.servings[k].foodItemId != id
    {
      assert HasKey(t.foods, FoodId, t.servings[k].foodItemId);
    }
    ServingsOfOwnRows(rows, id);
  }

  lemma {:induction false} ServingsOfOwnRows(rows: seq<ServingRow>, id: string)
    requires forall k :: 0 <= k < |rows| ==> rows[k].foodItemId == id
    ensures ServingsOf(rows, id) == seq(|rows|, k requires 0 <= k < |rows| => ServingOfRow(rows[k]))
  {
    if |rows| > 0 {
      ServingsOfOwnRows(rows[1..], id);
    }
  }

  // ----------------------------------------------------------------- search

  function NameOrder(): (FoodRow, FoodRow) -> bool {
    (a: FoodRow, b: FoodRow) => LexLe(a.name, b.name)
  }

  lemma NameOrderIsTotalPreorder()
    ensures TotalPreorder(NameOrder())
  {
    forall a: FoodRow, b: FoodRow
      ensures NameOrder()(a, b) || NameOrder()(b, a)
    {
      LexLeTotal(a.name, b.name);
    }
    forall a: FoodRow, b: FoodRow, c: FoodRow | NameOrder()(a, b) && NameOrder()(b, c)
      ensures NameOrder()(a, c)
    {
      LexLeTransitive(a.name, b.name, c.name);
    }
  }

  /** `name LIKE '%' || query || '%'`. */
  function NameMatches(query: string): FoodRow -> bool {
    (r: FoodRow) => LikeContains(r.name, query)
  }

  /** `LIMIT n`: a negative limit means no limit. */
  function Limit<T>(xs: seq<T>, limit: int): (r: seq<T>)
    ensures r <= xs
    ensures |r| == if limit < 0 || limit >= |xs| then |xs| else limit
  {
    if limit < 0 || limit >= |xs| then xs else xs[..limit]
  }

  function Hydrate(rows: seq<FoodRow>, servings: seq<ServingRow>): (r: seq<FoodItem>)
    ensures |r| == |rows|
    ensures forall k :: 0 <= k < |rows| ==> r[k] == FoodOfRow(rows[k], servings)
  {
    seq(|rows|, k requires 0 <= k < |rows| => FoodOfRow(rows[k], servings))
  }

  /** Sorting rows by name gives a permutation ordered by name. */
  lemma SortedByName(rows: seq<FoodRow>)
    ensures var sorted := Sort(rows, NameOrder());
            && multiset(sorted) == multiset(rows)
            && forall i, j :: 0 <= i < j < |sorted| ==> LexLe(sorted[i].name, sorted[j].name)
  {
    NameOrderIsTotalPreorder();
    SortSorted(rows, NameOrder());
  }

  /** The rows `searchFoodItems` selects: the matching foods, ordered by name,
      at most `limit` of them. */
  function SearchRows(t: Tables, query: string, limit: int): (r: seq<FoodRow>)
    ensures |r| == |Limit(Filter(t.foods, NameMatches(query)), limit)|
    ensures forall k :: 0 <= k < |r| ==> LikeContains(r[k].name, query) && r[k] in t.foods
    ensures forall i, j :: 0 <= i < j < |r| ==> LexLe(r[i].name, r[j].name)
    ensures limit < 0 || |Filter(t.foods, NameMatches(query))| <= limit ==>
              forall j :: 0 <= j < |t.foods| && LikeContains(t.foods[j].name, query) ==> t.foods[j] in r
    ensures forall j :: 0 <= j < |t.foods| && LikeContains(t.foods[j].name, query) ==>
              t.foods[j] in r || forall k :: 0 <= k < |r| ==> LexLe(r[k].name, t.foods[j].name)
  {
    var matching := Filter(t.foods, NameMatches(query));
    assert forall j :: 0 <= j < |t.foods| && LikeContains(t.foods[j].name, query) ==>
             NameMatches(query)(t.foods[j]);
    var sorted := Sort(matching, NameOrder());
    SortedByName(matching);
    SortedRowsFacts(matching, sorted, limit);
    PickedRowsMatch(t.foods, query, matching, Limit(sorted, limit));
    Limit(sorted, limit)
  }

  lemma PickedRowsMatch(foods: seq<FoodRow>, query: string, matching: seq<FoodRow>, picked: seq<FoodRow>)
    requires matching == Filter(foods, NameMatches(query))
    requires forall k :: 0 <= k < |picked| ==> picked[k] in matching
    ensures forall k :: 0 <= k < |picked| ==> LikeContains(picked[k].name, query) && picked[k] in foods
  {
    forall k | 0 <= k < |picked|
      ensures LikeContains(picked[k].name, query) && picked[k] in foods
    {
      var m :| 0 <= m < |matching| && matching[m] == picked[k];
      assert NameMatches(query)(matching[m]);
    }
  }

  lemma SortedRowsFacts(matching: seq<FoodRow>, sorted: seq<FoodRow>, limit: int)
    requires multiset(sorted) == multiset(matching)
    requires forall i, j :: 0 <= i < j < |sorted| ==> LexLe(sorted[i].name, sorted[j].name)
    ensures forall k :: 0 <= k < |Limit(sorted, limit)| ==> Limit(sorted, limit)[k] in matching
    ensures forall i, j :: 0 <= i < j < |Limit(sorted, limit)| ==>
              LexLe(Limit(sorted, limit)[i].name, Limit(sorted, limit)[j].name)
    ensures limit < 0 || |matching| <= limit ==> Limit(sorted, limit) == sorted
    ensures forall x :: x in matching ==> x in sorted
    ensures forall x :: x in matching ==>
              x in Limit(sorted, limit) || forall k :: 0 <= k < |Limit(sorted, limit)| ==>
                LexLe(Limit(sorted, limit)[k].name, x.name)
  {
    var picked := Limit(sorted, limit);
    forall x | x in matching
      ensures x in picked || forall k :: 0 <= k < |picked| ==> LexLe(picked[k].name, x.name)
    {
      assert x in multiset(sorted);
      var p :| 0 <= p < |sorted| && sorted[p] == x;
      if p < |picked| {
        assert picked[p] == x;
      } else {
        assert forall k :: 0 <= k < |picked| ==> picked[k] == sorted[k] && k < p;
      }
    }
    forall k | 0 <= k < |picked|
      ensures picked[k] in matching
    {
      assert picked[k] == sorted[k];
      assert sorted[k] in multiset(matching);
    }
    forall i, j | 0 <= i < j < |picked|
      ensures LexLe(picked[i].name, picked[j].name)
    {
      assert picked[i] == sorted[i] && picked[j] == sorted[j];
    }
    forall x | x in matching
      ensures x in sorted
    {
      assert x in multiset(sorted);
    }
  }

  /** `searchFoodItems`: the foods whose name contains the query (ASCII case
      ignored), ordered by name, at most `limit` of them, each read back with
      its serving sizes. */
  function SearchFoodItems(m: Manager, query: string, limit: int): (r: Result<seq<FoodItem>, DbError>)
    ensures !m.open ==> r == Err(NotInitialized)
    ensures m.open ==> r.Ok?
    ensures r.Ok? && limit >= 0 ==> |r.value| <= limit
    ensures r.Ok? ==> |r.value| == |Limit(Filter(m.file.foods, NameMatches(query)), limit)|
    ensures r.Ok? ==> forall k :: 0 <= k < |r.value| ==>
              && LikeContains(r.value[k].name, query)
              && r.value[k].servingSizes == ServingsOf(m.file.servings, r.value[k].id)
              && r.value[k] in Hydrate(m.file.foods, m.file.servings)
    ensures r.Ok? ==> forall i, j :: 0 <= i < j < |r.value| ==> LexLe(r.value[i].name, r.value[j].name)
    ensures r.Ok? && (limit < 0 || |Filter(m.file.foods, NameMatches(query))| <= limit) ==>
              forall j :: 0 <= j < |m.file.foods| && LikeContains(m.file.foods[j].name, query) ==>
                FoodOfRow(m.file.foods[j], m.file.servings) in r.value
    ensures r.Ok? ==> forall j :: 0 <= j < |m.file.foods| && LikeContains(m.file.foods[j].name, query) ==>
              || FoodOfRow(m.file.foods[j], m.file.servings) in r.value
              || forall k :: 0 <= k < |r.value| ==> LexLe(r.value[k].name, m.file.foods[j].name)
    ensures r.Ok? ==> multiset(r.value) <= multiset(Hydrate(Filter(m.file.foods, NameMatches(query)), m.file.servings))
  {
    if !m.open then Err(NotInitialized)
    else
      var rows := SearchRows(m.file, query, limit);
      SearchHydrated(m.file, query, limit);
      SearchNoRepeats(m.file, query, limit);
      Ok(Hydrate(rows, m.file.servings))
  }

  lemma SearchHydrated(t: Tables, query: string, limit: int)
    ensures var found := Hydrate(SearchRows(t, query, limit), t.servings);
            && (forall k :: 0 <= k < |found| ==>
                  && LikeContains(found[k].name, query)
                  && found[k].servingSizes == ServingsOf(t.servings, found[k].id)
                  && found[k] in Hydrate(t.foods, t.servings))
            && (forall i, j :: 0 <= i < j < |found| ==> LexLe(found[i].name, found[j].name))
            && (limit < 0 || |Filter(t.foods, NameMatches(query))| <= limit ==>
                  forall j :: 0 <= j < |t.foods| && LikeContains(t.foods[j].name, query) ==>
                    FoodOfRow(t.foods[j], t.servings) in found)
            && (forall j :: 0 <= j < |t.foods| && LikeContains(t.foods[j].name, query) ==>
                  || FoodOfRow(t.foods[j], t.servings) in found
                  || forall k :: 0 <= k < |found| ==> LexLe(found[k].name, t.foods[j].name))
  {
    var rows := SearchRows(t, query, limit);
    var found := Hydrate(rows, t.servings);
    HydrateMembers(rows, t.foods, t.servings);
    assert forall k :: 0 <= k < |found| ==> found[k] == FoodOfRow(rows[k], t.servings);
    assert forall j :: 0 <= j < |t.foods| ==> Hydrate(t.foods, t.servings)[j] == FoodOfRow(t.foods[j], t.servings);
  }

  /** The `k`th food read back with its serving sizes. */
  function WithServings(servings: seq<ServingRow>): FoodRow -> FoodItem {
    (row: FoodRow) => FoodOfRow(row, servings)
  }

  /** A search never returns a food more often than it matches: the result is
      a prefix of a rearrangement of the matching foods. */
  lemma SearchNoRepeats(t: Tables, query: string, limit: int)
    ensures multiset(Hydrate(SearchRows(t, query, limit), t.servings))
              <= multiset(Hydrate(Filter(t.foods, NameMatches(query)), t.servings))
  {
    var matching := Filter(t.foods, NameMatches(query));
    var sorted := Sort(matching, NameOrder());
    var rows := SearchRows(t, query, limit);
    assert rows == Limit(sorted, limit);
    var f := WithServings(t.servings);
    assert Hydrate(rows, t.servings) == Map(f, rows);
    assert Hydrate(sorted, t.servings) == Map(f, sorted);
    assert Hydrate(matching, t.servings) == Map(f, matching);
    assert Map(f, rows) <= Map(f, sorted);
    PrefixMultiset(Map(f, rows), Map(f, sorted));
    MapPermutation(f, sorted, matching);
  }

  lemma HydrateMembers(rows: seq<FoodRow>, foods: seq<FoodRow>, servings: seq<ServingRow>)
    ensures forall k :: 0 <= k < |rows| && rows[k] in foods ==> Hydrate(rows, servings)[k] in Hydrate(foods, servings)
    ensures forall j :: 0 <= j < |foods| && foods[j] in rows ==> Hydrate(foods, servings)[j] in Hydrate(rows, servings)
  {
    var hr := Hydrate(rows, servings);
    var hf := Hydrate(foods, servings);
    forall k | 0 <= k < |rows| && rows[k] in foods
      ensures hr[k] in hf
    {
      var j :| 0 <= j < |foods| && foods[j] == rows[k];
      assert hf[j] == hr[k];
    }
    forall j | 0 <= j < |foods| && foods[j] in rows
      ensures hf[j] in hr
    {
      var k :| 0 <= k < |rows| && rows[k] == foods[j];
      assert hf[j] == hr[k];
    }
  }

  // -------------------------------------------------------------- favourites

  function NewFavoriteId(stamp: nat): string {
    "fav-" + NatText(stamp)
  }

  /** `addToFavorites`: `INSERT OR IGNORE` of the (user, food) pair under
      `fav-<stamp>`. An existing pair (or a taken id) is skipped silently; an
      unknown user or food is a foreign-key error. */
  function AddToFavorites(m: Manager, userId: string, foodId: string, stamp: nat, now: Timestamp)
    : (r: Reply<()>)
    ensures !m.open ==> r == Reply(m, Err(NotInitialized))
    ensures m.open && HasKey(m.file.favorites, FavoritePair, (userId, foodId)) ==> r == Reply(m, Ok(()))
    ensures m.open && !HasKey(m.file.favorites, FavoriteId, NewFavoriteId(stamp))
            && !HasKey(m.file.favorites, FavoritePair, (userId, foodId)) ==>
              (r.result.Ok? <==> HasKey(m.file.users, UserId, userId) && HasKey(m.file.foods, FoodId, foodId))
              && (r.result.Ok? ==> r.db.file.favorites == m.file.favorites + [FavoriteRow(NewFavoriteId(stamp), userId, foodId, now)])
    ensures r.result.Ok? && !HasKey(m.file.favorites, FavoriteId, NewFavoriteId(stamp)) ==>
              HasKey(r.db.file.favorites, FavoritePair, (userId, foodId))
    ensures r.result.Err? ==> r.db == m
    ensures Valid(m.file) ==> Valid(r.db.file)
  {
    if !m.open then Reply(m, Err(NotInitialized))
    else
      var row := FavoriteRow(NewFavoriteId(stamp), userId, foodId, now);
      match InsertOrIgnoreFavorite(m.file, row)
      case Ok(t) =>
        assert t != m.file ==> FavoritePair(t.favorites[|m.file.favorites|]) == (userId, foodId);
        Reply(Manager(true, t), Ok(()))
      case Err(e) => Reply(m, Err(e))
  }

  /** Once a pair is stored, adding it again changes nothing: the table holds
      at most one row per (user, food). */
  lemma AddToFavoritesTwice(m: Manager, userId: string, foodId: string, stamp: nat, now: Timestamp,
                            stamp2: nat, now2: Timestamp)
    requires m.open && !HasKey(m.file.favorites, FavoriteId, NewFavoriteId(stamp))
    ensures var first := AddToFavorites(m, userId, foodId, stamp, now);
            first.result.Ok? ==>
              AddToFavorites(first.db, userId, foodId, stamp2, now2) == Reply(first.db, Ok(()))
  {
  }

  function OfUser(userId: string): FavoriteRow -> bool {
    (f: FavoriteRow) => f.userId == userId
  }

  /** `ORDER BY fav.created_at DESC`. */
  function NewestFavoriteFirst(): (FavoriteRow, FavoriteRow) -> bool {
    (a: FavoriteRow, b: FavoriteRow) => a.createdAt >= b.createdAt
  }

  /** The user's favourite rows, newest first. */
  function FavoritesOf(t: Tables, userId: string): (r: seq<FavoriteRow>)
    ensures Sorted(r, NewestFavoriteFirst())
    ensures multiset(r) == multiset(Filter(t.favorites, OfUser(userId)))
  {
    SortSorted(Filter(t.favorites, OfUser(userId)), NewestFavoriteFirst());
    Sort(Filter(t.favorites, OfUser(userId)), NewestFavoriteFirst())
  }

  /** The join with `food_items` on the food id. */
  function JoinFoods(favs: seq<FavoriteRow>, t: Tables): (r: seq<FoodItem>)
    ensures (forall k :: 0 <= k < |favs| ==> HasKey(t.foods, FoodId, favs[k].foodItemId)) ==>
              |r| == |favs| && forall k :: 0 <= k < |favs| ==> r[k].id == favs[k].foodItemId
    ensures (forall k :: 0 <= k < |favs| ==> HasKey(t.foods, FoodId, favs[k].foodItemId)) ==>
              forall k :: 0 <= k < |favs| ==>
                r[k] == FoodOfRow(FindFood(t.foods, favs[k].foodItemId).value, t.servings)
  {
    if |favs| == 0 then []
    else
      (match FindFood(t.foods, favs[0].foodItemId)
       case None => []
       case Some(row) => [FoodOfRow(row, t.servings)])
      + JoinFoods(favs[1..], t)
  }

  /** `getFavorites`: the user's favourite foods, most recently added first. */
  function GetFavorites(m: Manager, userId: string): (r: Result<seq<FoodItem>, DbError>)
    ensures !m.open ==> r == Err(NotInitialized)
    ensures m.open ==> r.Ok?
    ensures r.Ok? && Valid(m.file) ==>
              var favs := FavoritesOf(m.file, userId);
              |r.value| == |favs| && forall k :: 0 <= k < |favs| ==> r.value[k].id == favs[k].foodItemId
    ensures r.Ok? && Valid(m.file) ==>
              var favs := FavoritesOf(m.file, userId);
              forall k :: 0 <= k < |favs| ==>
                && HasKey(m.file.foods, FoodId, favs[k].foodItemId)
                && r.value[k] == FoodOfRow(FindFood(m.file.foods, favs[k].foodItemId).value, m.file.servings)
  {
    if !m.open then Err(NotInitialized)
    else
      FavoritesHaveFoods(m.file, userId);
      Ok(JoinFoods(FavoritesOf(m.file, userId), m.file))
  }

  /** Every favourite row names a stored food, so the join drops none. */
  lemma FavoritesHaveFoods(t: Tables, userId: string)
    ensures FavoritesReferenceRows(t) ==>
              forall k :: 0 <= k < |FavoritesOf(t, userId)| ==> HasKey(t.foods, FoodId, FavoritesOf(t, userId)[k].foodItemId)
  {
    if !FavoritesReferenceRows(t) { return; }
    var favs := FavoritesOf(t, userId);
    var mine := Filter(t.favorites, OfUser(userId));
    forall k | 0 <= k < |favs|
      ensures HasKey(t.foods, FoodId, favs[k].foodItemId)
    {
      assert favs[k] in multiset(mine);
      var i :| 0 <= i < |mine| && mine[i] == favs[k];
      var j :| 0 <= j < |t.favorites| && t.favorites[j] == mine[i];
    }
  }

  /** A favourite added later than every stored one heads the user's list,
      followed by the list as it was. */
  lemma FavoritesOfAfterAdd(t: Tables, row: FavoriteRow)
    requires forall k :: 0 <= k < |t.favorites| ==> t.favorites[k].createdAt < row.createdAt
    ensures FavoritesOf(t.(favorites := t.favorites + [row]), row.userId) == [row] + FavoritesOf(t, row.userId)
  {
    var mine := Filter(t.favorites, OfUser(row.userId));
    FilterConcat(t.favorites, [row], OfUser(row.userId));
    assert Filter([row], OfUser(row.userId)) == [row];
    var all := mine + [row];
    assert all[..|all| - 1] == mine && all[|all| - 1] == row;
    var sorted := Sort(mine, NewestFavoriteFirst());
    assert Sort(all, NewestFavoriteFirst()) == Insert(row, sorted, NewestFavoriteFirst());
    if |sorted| > 0 {
      assert sorted[0] in multiset(mine);
      assert !NewestFavoriteFirst()(sorted[0], row);
    }
  }

  /** Adding a new favourite puts the food, read back in full, at the head of
      `getFavorites`, ahead of the favourites the user already had. */
  lemma AddThenGetFavorites(m: Manager, userId: string, foodId: string, stamp: nat, now: Timestamp)
    requires m.open && Valid(m.file)
    requires HasKey(m.file.users, UserId, userId) && HasKey(m.file.foods, FoodId, foodId)
    requires !HasKey(m.file.favorites, FavoriteId, NewFavoriteId(stamp))
    requires !HasKey(m.file.favorites, FavoritePair, (userId, foodId))
    requires forall k :: 0 <= k < |m.file.favorites| ==> m.file.favorites[k].createdAt < now
    ensures var added := AddToFavorites(m, userId, foodId, stamp, now);
            && added.result.Ok?
            && GetFavorites(added.db, userId).Ok?
            && |GetFavorites(added.db, userId).value| > 0
            && GetFavorites(added.db, userId).value[0]
                 == FoodOfRow(FindFood(m.file.foods, foodId).value, m.file.servings)
            && GetFavorites(added.db, userId).value[1..] == GetFavorites(m, userId).value
  {
    var row := FavoriteRow(NewFavoriteId(stamp), userId, foodId, now);
    var added := AddToFavorites(m, userId, foodId, stamp, now);
    assert added.db.file == m.file.(favorites := m.file.favorites + [row]);
    FavoritesOfAfterAdd(m.file, row);
    var before := FavoritesOf(m.file, userId);
    var after := FavoritesOf(added.db.file, userId);
    assert after == [row] + before;
    var got := GetFavorites(added.db, userId).value;
    var had := GetFavorites(m, userId).value;
    assert got[0] == FoodOfRow(FindFood(m.file.foods, after[0].foodItemId).value, m.file.servings);
    forall k | 0 <= k < |had|
      ensures got[1..][k] == had[k]
    {
      assert after[k + 1] == before[k];
    }
  }

  // -------------------------------------------------------------- exercises

  function ExerciseNameOrder(): (ExerciseRow, ExerciseRow) -> bool {
    (a: ExerciseRow, b: ExerciseRow) => LexLe(a.name, b.name)
  }

  lemma ExerciseNameOrderIsTotalPreorder()
    ensures TotalPreorder(ExerciseNameOrder())
  {
    forall a: ExerciseRow, b: ExerciseRow
      ensures ExerciseNameOrder()(a, b) || ExerciseNameOrder()(b, a)
    {
      LexLeTotal(a.name, b.name);
    }
    forall a: ExerciseRow, b: ExerciseRow, c: ExerciseRow | ExerciseNameOrder()(a, b) && ExerciseNameOrder()(b, c)
      ensures ExerciseNameOrder()(a, c)
    {
      LexLeTransitive(a.name, b.name, c.name);
    }
  }

  /** An exercise as `getAllExercises` reads it back; only used on rows whose
      muscle-group text parses. */
  function ExerciseOf(row: ExerciseRow): Exercise {
    Exercise(row.id, row.name, row.category, row.metValue, Some([]), Parse(row.muscleGroups).GetOr([]),
             row.instructions)
  }

  /** The row mapping of `getAllExercises`; text in `muscle_groups` that does
      not parse makes the whole call fail, as `JSON.parse` throws. */
  function DecodeExercises(rows: seq<ExerciseRow>): (r: Result<seq<Exercise>, DbError>)
    ensures r.Ok? <==> forall k :: 0 <= k < |rows| ==> Parse(rows[k].muscleGroups).Some?
    ensures r.Ok? ==> |r.value| == |rows|
                      && forall k :: 0 <= k < |rows| ==>
                           r.value[k] == ExerciseOf(rows[k])
    ensures r.Err? ==> r.error == MalformedJson
  {
    if |rows| == 0 then Ok([])
    else match Parse(rows[0].muscleGroups)
      case None => Err(MalformedJson)
      case Some(groups) =>
        match DecodeExercises(rows[1..])
        case Err(e) =>
          assert !(forall k :: 0 <= k < |rows[1..]| ==> Parse(rows[1..][k].muscleGroups).Some?);
          Err(e)
        case Ok(rest) =>
          assert forall k :: 1 <= k < |rows| ==> rows[k] == rows[1..][k - 1];
          Ok([ExerciseOf(rows[0])] + rest)
  }

  /** `getAllExercises`: every exercise, ordered by name, with no equipment and
      its muscle groups parsed from their stored text. */
  function GetAllExercises(m: Manager): (r: Result<seq<Exercise>, DbError>)
    ensures !m.open ==> r == Err(NotInitialized)
    ensures r.Ok? ==> |r.value| == |m.file.exercises|
    ensures r.Ok? ==> forall i, j :: 0 <= i < j < |r.value| ==> LexLe(r.value[i].name, r.value[j].name)
    ensures r.Ok? ==> forall k :: 0 <= k < |r.value| ==>
              exists j :: 0 <= j < |m.file.exercises| && r.value[k] == ExerciseOf(m.file.exercises[j])
    ensures r.Ok? ==> multiset(r.value) == multiset(Map(ExerciseOf, m.file.exercises))
    ensures r.Ok? ==> forall j :: 0 <= j < |m.file.exercises| ==> ExerciseOf(m.file.exercises[j]) in r.value
    ensures (m.open && forall k :: 0 <= k < |m.file.exercises| ==> Parse(m.file.exercises[k].muscleGroups).Some?)
            ==> r.Ok?
    ensures m.open && r.Err? ==> r == Err(MalformedJson)
  {
    if !m.open then Err(NotInitialized)
    else
      var sorted := Sort(m.file.exercises, ExerciseNameOrder());
      SortedExercises(m.file.exercises);
      DecodedPermutation(m.file.exercises, sorted);
      DecodeExercises(sorted)
  }

  /** Decoding a rearrangement of the rows yields a rearrangement of the
      decoded rows: every stored exercise comes back, once per row. */
  lemma DecodedPermutation(rows: seq<ExerciseRow>, sorted: seq<ExerciseRow>)
    requires multiset(sorted) == multiset(rows)
    ensures DecodeExercises(sorted).Ok? ==>
              multiset(DecodeExercises(sorted).value) == multiset(Map(ExerciseOf, rows))
    ensures DecodeExercises(sorted).Ok? ==>
              forall j :: 0 <= j < |rows| ==> ExerciseOf(rows[j]) in DecodeExercises(sorted).value
  {
    if DecodeExercises(sorted).Ok? {
      var d := DecodeExercises(sorted).value;
      assert d == Map(ExerciseOf, sorted);
      MapPermutation(ExerciseOf, sorted, rows);
      forall j | 0 <= j < |rows|
        ensures ExerciseOf(rows[j]) in d
      {
        assert Map(ExerciseOf, rows)[j] == ExerciseOf(rows[j]);
        assert ExerciseOf(rows[j]) in multiset(Map(ExerciseOf, rows));
      }
    }
  }

  lemma SortedExercises(rows: seq<ExerciseRow>)
    ensures var sorted := Sort(rows, ExerciseNameOrder());
            && |sorted| == |rows|
            && (forall i, j :: 0 <= i < j < |sorted| ==> LexLe(sorted[i].name, sorted[j].name))
            && (forall k :: 0 <= k < |sorted| ==> exists j :: 0 <= j < |rows| && sorted[k] == rows[j])
  {
    var sorted := Sort(rows, ExerciseNameOrder());
    ExerciseNameOrderIsTotalPreorder();
    SortSorted(rows, ExerciseNameOrder());
    forall k | 0 <= k < |sorted|
      ensures exists j :: 0 <= j < |rows| && sorted[k] == rows[j]
    {
      assert sorted[k] in multiset(rows);
    }
  }
}

=== FILE: db_seed.dfy ===
/** What `seedInitialData` leaves in an empty database: the five common foods,
    each with its three serving sizes, and the five common exercises. Every
    seeded row carries one clock reading `now`, where the seeding reads the
    clock afresh for each insert (twice per food row). */
module DbSeed {
  import opened Wrappers
  import opened Types
  import opened MuscleJson
  import opened DbTables
  import opened Database

  function SeedFoodRows(fs: seq<SeedFood>, now: Timestamp): (r: seq<FoodRow>)
    ensures |r| == |fs|
    ensures forall k :: 0 <= k < |fs| ==> r[k] == SeedFoodRow(fs[k], now)
  {
    if |fs| == 0 then [] else [SeedFoodRow(fs[0], now)] + SeedFoodRows(fs[1..], now)
  }

  /** The three serving rows of one seeded food, in insertion order. */
  function SeedServingsOf(f: SeedFood): seq<ServingRow> {
    [SeedServingRow(f, SeedServings[0]), SeedServingRow(f, SeedServings[1]), SeedServingRow(f, SeedServings[2])]
  }

  function SeedServingRows(fs: seq<SeedFood>): (r: seq<ServingRow>)
    ensures |r| == 3 * |fs|
  {
    if |fs| == 0 then [] else SeedServingsOf(fs[0]) + SeedServingRows(fs[1..])
  }

  /** Food `i` owns rows `3i`, `3i + 1` and `3i + 2`. */
  lemma {:induction false} SeedServingRowsAt(fs: seq<SeedFood>, i: nat)
    requires i < |fs|
    ensures SeedServingRows(fs)[3 * i..3 * i + 3] == SeedServingsOf(fs[i])
  {
    if i > 0 {
      SeedServingRowsAt(fs[1..], i - 1);
      var r := SeedServingRows(fs);
      assert r == SeedServingsOf(fs[0]) + SeedServingRows(fs[1..]);
      assert r[3 * i..3 * i + 3] == SeedServingRows(fs[1..])[3 * (i - 1)..3 * (i - 1) + 3];
    }
  }

  function SeedExerciseRows(es: seq<SeedExercise>, now: Timestamp): (r: seq<ExerciseRow>)
    ensures |r| == |es|
    ensures forall k :: 0 <= k < |es| ==> r[k] == SeedExerciseRow(es[k], now)
  {
    if |es| == 0 then [] else [SeedExerciseRow(es[0], now)] + SeedExerciseRows(es[1..], now)
  }

  lemma ConcatAssoc<T>(a: seq<T>, b: seq<T>, c: seq<T>)
    ensures (a + b) + c == a + (b + c)
  {
  }

  lemma EmptyConcat<T>(a: seq<T>)
    ensures [] + a == a
  {
  }

  lemma {:induction false} HasKeyConcat<T, K>(a: seq<T>, b: seq<T>, key: T -> K, v: K)
    ensures HasKey(a + b, key, v) <==> HasKey(a, key, v) || HasKey(b, key, v)
  {
    var ab := a + b;
    if HasKey(ab, key, v) {
      var k :| 0 <= k < |ab| && key(ab[k]) == v;
      if k < |a| {
        assert a[k] == ab[k];
      } else {
        assert b[k - |a|] == ab[k];
      }
    }
    if HasKey(a, key, v) {
      var k :| 0 <= k < |a| && key(a[k]) == v;
      assert ab[k] == a[k];
    }
    if HasKey(b, key, v) {
      var k :| 0 <= k < |b| && key(b[k]) == v;
      assert ab[|a| + k] == b[k];
    }
  }

  lemma SeedServingsOfShape(f: SeedFood)
    ensures SeedServingsOf(f) == [
              ServingRow(f.id + "-g", f.id, "100g", 100.0, Gram),
              ServingRow(f.id + "-piece", f.id, "1 medium", 150.0, Piece),
              ServingRow(f.id + "-cup", f.id, "1 cup", 150.0, Cup)]
  {
    assert SeedServings[0] == NewServingSize("100g", 100.0, Gram) && Gram.Text() == "g";
    assert SeedServings[1] == NewServingSize("1 medium", 150.0, Piece) && Piece.Text() == "piece";
    assert SeedServings[2] == NewServingSize("1 cup", 150.0, Cup) && Cup.Text() == "cup";
    assert "-" + "g" == "-g" && "-" + "piece" == "-piece" && "-" + "cup" == "-cup";
    ConcatAssoc(f.id, "-", "g");
    ConcatAssoc(f.id, "-", "piece");
    ConcatAssoc(f.id, "-", "cup");
  }

  /** Seeded serving ids `<food>-g`, `<food>-piece` and `<food>-cup` are all
      different: the units end in different letters, and one unit after two
      different food ids gives two different ids. */
  lemma SeedServingIdsDiffer(f: SeedFood, g: SeedFood, a: nat, b: nat)
    requires a < 3 && b < 3
    requires f.id != g.id || a != b
    ensures SeedServingRow(f, SeedServings[a]).id != SeedServingRow(g, SeedServings[b]).id
  {
    var ua := SeedServings[a].unit.Text();
    var ub := SeedServings[b].unit.Text();
    var x := f.id + "-" + ua;
    var y := g.id + "-" + ub;
    assert SeedServings[0].unit.Text() == "g" && SeedServings[1].unit.Text() == "piece";
    assert SeedServings[2].unit.Text() == "cup";
    assert x[|x| - 1] == ua[|ua| - 1] && y[|y| - 1] == ub[|ub| - 1];
    assert x[..|f.id|] == f.id && y[..|g.id|] == g.id;
  }

  /** A food insert with a fresh id, followed by more statements. */
  lemma RunFoodInsertFirst(t: Tables, row: FoodRow, rest: seq<Stmt>)
    requires !HasKey(t.foods, FoodId, row.id)
    ensures Run(t, [InsertFoodStmt(row)] + rest) == Run(t.(foods := t.foods + [row]), rest)
  {
    assert ([InsertFoodStmt(row)] + rest)[1..] == rest;
  }

  /** A serving insert with a fresh id for a stored food, followed by more
      statements. */
  lemma RunServingInsertFirst(t: Tables, row: ServingRow, rest: seq<Stmt>)
    requires !HasKey(t.servings, ServingId, row.id) && HasKey(t.foods, FoodId, row.foodItemId)
    ensures Run(t, [InsertServingStmt(row)] + rest) == Run(t.(servings := t.servings + [row]), rest)
  {
    assert ([InsertServingStmt(row)] + rest)[1..] == rest;
  }

  /** The last two serving inserts of a stored food. */
  lemma RunLastServings(t: Tables, f: SeedFood)
    requires HasKey(t.foods, FoodId, f.id)
    requires !HasKey(t.servings, ServingId, SeedServingRow(f, SeedServings[1]).id)
    requires !HasKey(t.servings, ServingId, SeedServingRow(f, SeedServings[2]).id)
    ensures Run(t, SeedFoodStmts(f, 0)[2..])
              == Exec(t.(servings := t.servings + SeedServingsOf(f)[1..]), None)
  {
    var rs := SeedServingsOf(f);
    var s3: seq<Stmt> := [InsertServingStmt(rs[2])];
    assert SeedFoodStmts(f, 0)[2..] == [InsertServingStmt(rs[1])] + s3;
    RunServingInsertFirst(t, rs[1], s3);
    var t2 := t.(servings := t.servings + [rs[1]]);
    SeedServingIdsDiffer(f, f, 2, 1);
    HasKeyConcat(t.servings, [rs[1]], ServingId, rs[2].id);
    RunServingInsertFirst(t2, rs[2], []);
    assert s3 == [InsertServingStmt(rs[2])] + [];
    assert t2.servings + [rs[2]] == t.servings + rs[1..];
  }

  /** The three serving inserts of a stored food. */
  lemma RunSeedServings(t: Tables, f: SeedFood)
    requires HasKey(t.foods, FoodId, f.id)
    requires forall a :: 0 <= a < 3 ==> !HasKey(t.servings, ServingId, SeedServingRow(f, SeedServings[a]).id)
    ensures Run(t, SeedFoodStmts(f, 0)[1..]) == Exec(t.(servings := t.servings + SeedServingsOf(f)), None)
  {
    var rs := SeedServingsOf(f);
    var stmts := SeedFoodStmts(f, 0);
    assert stmts[1..] == [InsertServingStmt(rs[0])] + stmts[2..];
    RunServingInsertFirst(t, rs[0], stmts[2..]);
    var t2 := t.(servings := t.servings + [rs[0]]);
    SeedServingIdsDiffer(f, f, 1, 0);
    SeedServingIdsDiffer(f, f, 2, 0);
    HasKeyConcat(t.servings, [rs[0]], ServingId, rs[1].id);
    HasKeyConcat(t.servings, [rs[0]], ServingId, rs[2].id);
    RunLastServings(t2, f);
    assert t2.servings + rs[1..] == t.servings + rs;
  }

  /** One seeded food: its row, then its three serving rows, all inserted. */
  lemma RunSeedFood(t: Tables, f: SeedFood, now: Timestamp)
    requires !HasKey(t.foods, FoodId, f.id)
    requires forall a :: 0 <= a < 3 ==> !HasKey(t.servings, ServingId, SeedServingRow(f, SeedServings[a]).id)
    ensures Run(t, SeedFoodStmts(f, now))
              == Exec(t.(foods := t.foods + [SeedFoodRow(f, now)], servings := t.servings + SeedServingsOf(f)), None)
  {
    var row := SeedFoodRow(f, now);
    var stmts := SeedFoodStmts(f, now);
    assert stmts == [InsertFoodStmt(row)] + stmts[1..];
    assert stmts[1..] == SeedFoodStmts(f, 0)[1..];
    RunFoodInsertFirst(t, row, stmts[1..]);
    var t1 := t.(foods := t.foods + [row]);
    assert HasKey(t1.foods, FoodId, f.id) by { assert FoodId(t1.foods[|t.foods|]) == f.id; }
    RunSeedServings(t1, f);
  }

  /** No seeded food of `fs` and none of their serving ids is stored in `t`. */
  ghost predicate Unseeded(t: Tables, fs: seq<SeedFood>) {
    && (forall i :: 0 <= i < |fs| ==> !HasKey(t.foods, FoodId, fs[i].id))
    && (forall i, a :: 0 <= i < |fs| && 0 <= a < 3 ==>
          !HasKey(t.servings, ServingId, SeedServingRow(fs[i], SeedServings[a]).id))
  }

  ghost predicate DistinctFoods(fs: seq<SeedFood>) {
    forall i, j :: 0 <= i < j < |fs| ==> fs[i].id != fs[j].id
  }

  /** The tables after seeding the first food of `fs`. */
  function AfterFood(t: Tables, f: SeedFood, now: Timestamp): Tables {
    t.(foods := t.foods + [SeedFoodRow(f, now)], servings := t.servings + SeedServingsOf(f))
  }

  /** Seeding the first food leaves the rest distinct and unseeded. */
  lemma SeedFoodsStillFresh(t: Tables, fs: seq<SeedFood>, now: Timestamp)
    requires |fs| > 0 && DistinctFoods(fs) && Unseeded(t, fs)
    ensures DistinctFoods(fs[1..]) && Unseeded(AfterFood(t, fs[0], now), fs[1..])
  {
    var f := fs[0];
    var rest := fs[1..];
    var t' := AfterFood(t, f, now);
    assert forall i :: 0 <= i < |rest| ==> rest[i] == fs[i + 1];
    forall i | 0 <= i < |rest|
      ensures !HasKey(t'.foods, FoodId, rest[i].id)
    {
      assert rest[i].id != f.id;
      HasKeyConcat(t.foods, [SeedFoodRow(f, now)], FoodId, rest[i].id);
    }
    forall i, a | 0 <= i < |rest| && 0 <= a < 3
      ensures !HasKey(t'.servings, ServingId, SeedServingRow(rest[i], SeedServings[a]).id)
    {
      var v := SeedServingRow(rest[i], SeedServings[a]).id;
      assert rest[i].id != f.id;
      assert !HasKey(t.servings, ServingId, SeedServingRow(fs[i + 1], SeedServings[a]).id);
      HasKeyConcat(t.servings, SeedServingsOf(f), ServingId, v);
      SeedServingIdsDiffer(f, rest[i], 0, a);
      SeedServingIdsDiffer(f, rest[i], 1, a);
      SeedServingIdsDiffer(f, rest[i], 2, a);
    }
  }

  /** Seeding the first food of `fs` and then the rest. */
  lemma RunSeedFoodsHead(t: Tables, fs: seq<SeedFood>, now: Timestamp)
    requires |fs| > 0 && Unseeded(t, fs)
    ensures Run(t, SeedFoodsStmts(fs, now)) == Run(AfterFood(t, fs[0], now), SeedFoodsStmts(fs[1..], now))
  {
    var f := fs[0];
    assert !HasKey(t.foods, FoodId, f.id);
    assert forall a :: 0 <= a < 3 ==> !HasKey(t.servings, ServingId, SeedServingRow(f, SeedServings[a]).id);
    assert SeedFoodsStmts(fs, now) == SeedFoodStmts(f, now) + SeedFoodsStmts(fs[1..], now);
    RunConcat(t, SeedFoodStmts(f, now), SeedFoodsStmts(fs[1..], now));
    RunSeedFood(t, f, now);
  }

  /** The food part of the seed inserts every row, in order, without error,
      when the food ids are distinct and neither they nor their serving ids
      are stored yet. */
  lemma {:induction false} RunSeedFoods(t: Tables, fs: seq<SeedFood>, now: Timestamp)
    requires DistinctFoods(fs) && Unseeded(t, fs)
    ensures Run(t, SeedFoodsStmts(fs, now))
              == Exec(t.(foods := t.foods + SeedFoodRows(fs, now), servings := t.servings + SeedServingRows(fs)), None)
    decreases |fs|
  {
    if |fs| == 0 {
      assert t.foods + [] == t.foods && t.servings + [] == t.servings;
    } else {
      var f := fs[0];
      var rest := fs[1..];
      var t' := AfterFood(t, f, now);
      RunSeedFoodsHead(t, fs, now);
      SeedFoodsStillFresh(t, fs, now);
      RunSeedFoods(t', rest, now);
      assert SeedFoodRows(fs, now) == [SeedFoodRow(f, now)] + SeedFoodRows(rest, now);
      assert SeedServingRows(fs) == SeedServingsOf(f) + SeedServingRows(rest);
      ConcatAssoc(t.foods, [SeedFoodRow(f, now)], SeedFoodRows(rest, now));
      ConcatAssoc(t.servings, SeedServingsOf(f), SeedServingRows(rest));
    }
  }

  lemma RunExerciseInsertFirst(t: Tables, row: ExerciseRow, rest: seq<Stmt>)
    requires !HasKey(t.exercises, ExerciseId, row.id)
    ensures Run(t, [InsertExerciseStmt(row)] + rest) == Run(t.(exercises := t.exercises + [row]), rest)
  {
    assert ([InsertExerciseStmt(row)] + rest)[1..] == rest;
  }

  /** After the first exercise is inserted, the remaining ids are still
      distinct and unstored. */
  lemma SeedExercisesStillFresh(t: Tables, es: seq<SeedExercise>, now: Timestamp)
    requires |es| > 0
    requires forall i, j :: 0 <= i < j < |es| ==> es[i].id != es[j].id
    requires forall i :: 0 <= i < |es| ==> !HasKey(t.exercises, ExerciseId, es[i].id)
    ensures var rest := es[1..];
            var t' := t.(exercises := t.exercises + [SeedExerciseRow(es[0], now)]);
            && (forall i, j :: 0 <= i < j < |rest| ==> rest[i].id != rest[j].id)
            && (forall i :: 0 <= i < |rest| ==> !HasKey(t'.exercises, ExerciseId, rest[i].id))
  {
    var rest := es[1..];
    var row := SeedExerciseRow(es[0], now);
    forall i | 0 <= i < |rest|
      ensures !HasKey(t.exercises + [row], ExerciseId, rest[i].id)
    {
      assert rest[i] == es[i + 1];
      HasKeyConcat(t.exercises, [row], ExerciseId, rest[i].id);
    }
    assert forall i :: 0 <= i < |rest| ==> rest[i] == es[i + 1];
  }

  /** The exercise part of the seed inserts every row when the ids are
      distinct and not stored yet. */
  lemma {:induction false} RunSeedExercises(t: Tables, es: seq<SeedExercise>, now: Timestamp)
    requires forall i, j :: 0 <= i < j < |es| ==> es[i].id != es[j].id
    requires forall i :: 0 <= i < |es| ==> !HasKey(t.exercises, ExerciseId, es[i].id)
    ensures Run(t, SeedExercisesStmts(es, now))
              == Exec(t.(exercises := t.exercises + SeedExerciseRows(es, now)), None)
    decreases |es|
  {
    if |es| == 0 {
      assert t.exercises + [] == t.exercises;
    } else {
      var t' := t.(exercises := t.exercises + [SeedExerciseRow(es[0], now)]);
      RunExerciseInsertFirst(t, SeedExerciseRow(es[0], now), SeedExercisesStmts(es[1..], now));
      SeedExercisesStillFresh(t, es, now);
      RunSeedExercises(t', es[1..], now);
      assert SeedExerciseRows(es, now) == [SeedExerciseRow(es[0], now)] + SeedExerciseRows(es[1..], now);
      ConcatAssoc(t.exercises, [SeedExerciseRow(es[0], now)], SeedExerciseRows(es[1..], now));
    }
  }

  /** The tables `initialize` leaves behind on an empty database file. */
  function SeededTables(now: Timestamp): Tables {
    EmptyTables.(foods := SeedFoodRows(SeedFoods, now), servings := SeedServingRows(SeedFoods),
                 exercises := SeedExerciseRows(SeedExercises, now))
  }

  /** Every seed insert succeeds on an empty file. */
  lemma SeedFoodIdsDistinct()
    ensures DistinctFoods(SeedFoods)
  {
    var fs := SeedFoods;
    assert fs[0].id == "apple-1" && fs[1].id == "banana-1" && fs[2].id == "chicken-breast-1";
    assert fs[3].id == "brown-rice-1" && fs[4].id == "broccoli-1";
  }

  lemma SeedExerciseIdsDistinct()
    ensures forall i, j :: 0 <= i < j < |SeedExercises| ==> SeedExercises[i].id != SeedExercises[j].id
  {
    var es := SeedExercises;
    assert es[0].id == "running-1" && es[1].id == "cycling-1" && es[2].id == "pushups-1";
    assert es[3].id == "squats-1" && es[4].id == "planks-1";
  }

  /** Nothing is stored in empty tables. */
  lemma EmptyUnseeded(t: Tables, fs: seq<SeedFood>)
    requires t.foods == [] && t.servings == []
    ensures Unseeded(t, fs)
  {
  }

  lemma SeedRunsCleanly(now: Timestamp)
    ensures Run(EmptyTables, SeedStatements(now)) == Exec(SeededTables(now), None)
  {
    var fs := SeedFoods;
    var es := SeedExercises;
    SeedFoodIdsDistinct();
    SeedExerciseIdsDistinct();
    EmptyUnseeded(EmptyTables, fs);
    var fr := SeedFoodRows(fs, now);
    var sr := SeedServingRows(fs);
    var er := SeedExerciseRows(es, now);
    RunConcat(EmptyTables, SeedFoodsStmts(fs, now), SeedExercisesStmts(es, now));
    RunSeedFoods(EmptyTables, fs, now);
    EmptyConcat(fr);
    EmptyConcat(sr);
    EmptyConcat(er);
    var t1 := EmptyTables.(foods := fr, servings := sr);
    RunSeedExercises(t1, es, now);
  }


  /** `initialize` on an empty file opens it and seeds it without error: five
      foods, each owning its three serving rows `<food>-g` (100 g),
      `<food>-piece` (150) and `<food>-cup` (150), and five exercises. The
      result is a consistent database, and seeding it again does nothing. */
  lemma InitializeSeedsEmpty(now: Timestamp)
    ensures var r := Initialize(Manager(false, EmptyTables), now);
            && r == Reply(Manager(true, SeededTables(now)), Ok(()))
            && Valid(r.db.file)
            && |r.db.file.foods| == 5 && |r.db.file.servings| == 15 && |r.db.file.exercises| == 5
            && (forall i :: 0 <= i < 5 ==>
                  && r.db.file.foods[i].id == SeedFoods[i].id
                  && r.db.file.servings[3 * i..3 * i + 3] == [
                       ServingRow(SeedFoods[i].id + "-g", SeedFoods[i].id, "100g", 100.0, Gram),
                       ServingRow(SeedFoods[i].id + "-piece", SeedFoods[i].id, "1 medium", 150.0, Piece),
                       ServingRow(SeedFoods[i].id + "-cup", SeedFoods[i].id, "1 cup", 150.0, Cup)])
            && SeedIfEmpty(r.db.file, now) == Exec(r.db.file, None)
  {
    SeedRunsCleanly(now);
    EmptyTablesValid();
    var t := SeededTables(now);
    forall i | 0 <= i < 5
      ensures t.foods[i].id == SeedFoods[i].id
      ensures t.servings[3 * i..3 * i + 3] == [
                ServingRow(SeedFoods[i].id + "-g", SeedFoods[i].id, "100g", 100.0, Gram),
                ServingRow(SeedFoods[i].id + "-piece", SeedFoods[i].id, "1 medium", 150.0, Piece),
                ServingRow(SeedFoods[i].id + "-cup", SeedFoods[i].id, "1 cup", 150.0, Cup)]
    {
      SeedServingRowsAt(SeedFoods, i);
      SeedServingsOfShape(SeedFoods[i]);
    }
  }

  /** Every seeded exercise reads back through `getAllExercises` with the
      muscle groups it was seeded with. */
  lemma SeededExercisesReadBack(now: Timestamp)
    ensures var r := GetAllExercises(Manager(true, SeededTables(now)));
            && r.Ok? && |r.value| == 5
            && (forall k :: 0 <= k < 5 ==> exists i :: 0 <= i < 5 && r.value[k] == Exercise(
                  SeedExercises[i].id, SeedExercises[i].name, SeedExercises[i].category,
                  Some(SeedExercises[i].metValue), Some([]), SeedExercises[i].muscleGroups, None))
            && forall i :: 0 <= i < 5 ==> Exercise(
                 SeedExercises[i].id, SeedExercises[i].name, SeedExercises[i].category,
                 Some(SeedExercises[i].metValue), Some([]), SeedExercises[i].muscleGroups, None) in r.value
  {
    var rows := SeededTables(now).exercises;
    forall i | 0 <= i < 5
      ensures Parse(rows[i].muscleGroups) == Some(SeedExercises[i].muscleGroups)
    {
      ParseStringify(SeedExercises[i].muscleGroups);
    }
  }
}

=== FILE: db_tables.dfy ===
/** The local SQLite store as plain relations. Each table is its rows in
    insertion (rowid) order; a column holding an ISO date holds the instant
    itself, a `BOOLEAN` column holds the integer written to it, and the
    enum-typed text columns of the users and food tables hold their text.

    Inserting checks what SQLite checks with `PRAGMA foreign_keys = ON`: the
    primary key and the `UNIQUE` columns, then the foreign keys. `Valid` is
    the set of those constraints over the whole store; every successful
    insert keeps it. */
module DbTables {
  import opened Wrappers
  import opened Types

  datatype DbError = NotInitialized | UniqueViolation | ForeignKeyViolation | MalformedJson

  datatype UserRow = UserRow(
    id: string, email: string, name: string, dateOfBirth: Timestamp, gender: string,
    height: real, currentWeight: real, activityLevel: string, goalType: string,
    targetWeight: Option<real>, weeklyWeightChange: Option<real>, calorieGoal: real,
    macroProtein: real, macroCarbs: real, macroFat: real, units: string, theme: string,
    createdAt: Timestamp, updatedAt: Timestamp)

  datatype FoodRow = FoodRow(
    id: string, name: string, brand: Option<string>, barcode: Option<string>, category: string,
    imageUrl: Option<string>, isCustom: int, nutrition: Nutrition,
    createdAt: Timestamp, updatedAt: Timestamp)

  datatype ServingRow = ServingRow(id: string, foodItemId: string, name: string, weight: real, unit: MeasurementUnit)

  datatype FavoriteRow = FavoriteRow(id: string, userId: string, foodItemId: string, createdAt: Timestamp)

  datatype ExerciseRow = ExerciseRow(
    id: string, name: string, category: ExerciseCategory, metValue: Option<real>,
    muscleGroups: string, instructions: Option<string>, createdAt: Timestamp)

  datatype Tables = Tables(
    users: seq<UserRow>,
    foods: seq<FoodRow>,
    servings: seq<ServingRow>,
    favorites: seq<FavoriteRow>,
    exercises: seq<ExerciseRow>)

  const EmptyTables := Tables([], [], [], [], [])

  // ------------------------------------------------------------------ keys

  predicate HasKey<T, K(==)>(rows: seq<T>, key: T -> K, v: K) {
    exists k :: 0 <= k < |rows| && key(rows[k]) == v
  }

  predicate UniqueKeys<T, K(==)>(rows: seq<T>, key: T -> K) {
    forall i, j :: 0 <= i < j < |rows| ==> key(rows[i]) != key(rows[j])
  }

  lemma AppendKeepsUnique<T, K>(rows: seq<T>, key: T -> K, x: T)
    requires !HasKey(rows, key, key(x))
    ensures UniqueKeys(rows, key) ==> UniqueKeys(rows + [x], key)
  {
    var r := rows + [x];
    if UniqueKeys(rows, key) {
      forall i, j | 0 <= i < j < |r|
        ensures key(r[i]) != key(r[j])
      {
        if j == |rows| {
          assert r[i] == rows[i];
        }
      }
    }
  }

  lemma AppendKeepsKey<T, K>(rows: seq<T>, key: T -> K, x: T, v: K)
    requires HasKey(rows, key, v)
    ensures HasKey(rows + [x], key, v)
  {
    var k :| 0 <= k < |rows| && key(rows[k]) == v;
    assert (rows + [x])[k] == rows[k];
  }

  function UserId(r: UserRow): string { r.id }
  function UserEmail(r: UserRow): string { r.email }
  function FoodId(r: FoodRow): string { r.id }
  function ServingId(r: ServingRow): string { r.id }
  function FavoriteId(r: FavoriteRow): string { r.id }
  function FavoritePair(r: FavoriteRow): (string, string) { (r.userId, r.foodItemId) }
  function ExerciseId(r: ExerciseRow): string { r.id }

  predicate ServingsReferenceFoods(t: Tables) {
    forall k :: 0 <= k < |t.servings| ==> HasKey(t.foods, FoodId, t.servings[k].foodItemId)
  }

  predicate FavoritesReferenceRows(t: Tables) {
    forall k :: 0 <= k < |t.favorites| ==>
      HasKey(t.users, UserId, t.favorites[k].userId) && HasKey(t.foods, FoodId, t.favorites[k].foodItemId)
  }

  /** The schema's primary keys, `UNIQUE` constraints and foreign keys. */
  predicate Valid(t: Tables) {
    && UniqueKeys(t.users, UserId) && UniqueKeys(t.users, UserEmail)
    && UniqueKeys(t.foods, FoodId)
    && UniqueKeys(t.servings, ServingId) && ServingsReferenceFoods(t)
    && UniqueKeys(t.favorites, FavoriteId) && UniqueKeys(t.favorites, FavoritePair)
    && FavoritesReferenceRows(t)
    && UniqueKeys(t.exercises, ExerciseId)
  }

  lemma EmptyTablesValid()
    ensures Valid(EmptyTables)
  {
  }

  // --------------------------------------------------------------- inserts

  /** `INSERT INTO users`: fails on a taken id or e-mail address. */
  function InsertUser(t: Tables, row: UserRow): (r: Result<Tables, DbError>)
    ensures r.Ok? <==> !HasKey(t.users, UserId, row.id) && !HasKey(t.users, UserEmail, row.email)
    ensures r.Ok? ==> r.value == t.(users := t.users + [row])
    ensures r.Err? ==> r.error == UniqueViolation
    ensures Valid(t) && r.Ok? ==> Valid(r.value)
  {
    if HasKey(t.users, UserId, row.id) || HasKey(t.users, UserEmail, row.email) then Err(UniqueViolation)
    else
      var t' := t.(users := t.users + [row]);
      AppendKeepsUnique(t.users, UserId, row);
      AppendKeepsUnique(t.users, UserEmail, row);
      forall k | 0 <= k < |t.favorites| && HasKey(t.users, UserId, t.favorites[k].userId)
        ensures HasKey(t'.users, UserId, t.favorites[k].userId)
      {
        AppendKeepsKey(t.users, UserId, row, t.favorites[k].userId);
      }
      Ok(t')
  }

  /** `INSERT INTO food_items`: fails on a taken id. */
  function InsertFood(t: Tables, row: FoodRow): (r: Result<Tables, DbError>)
    ensures r.Ok? <==> !HasKey(t.foods, FoodId, row.id)
    ensures r.Ok? ==> r.value == t.(foods := t.foods + [row])
    ensures r.Err? ==> r.error == UniqueViolation
    ensures Valid(t) && r.Ok? ==> Valid(r.value)
  {
    if HasKey(t.foods, FoodId, row.id) then Err(UniqueViolation)
    else
      var t' := t.(foods := t.foods + [row]);
      AppendKeepsUnique(t.foods, FoodId, row);
      forall k | 0 <= k < |t.servings| && HasKey(t.foods, FoodId, t.servings[k].foodItemId)
        ensures HasKey(t'.foods, FoodId, t.servings[k].foodItemId)
      {
        AppendKeepsKey(t.foods, FoodId, row, t.servings[k].foodItemId);
      }
      forall k | 0 <= k < |t.favorites| && HasKey(t.foods, FoodId, t.favorites[k].foodItemId)
        ensures HasKey(t'.foods, FoodId, t.favorites[k].foodItemId)
      {
        AppendKeepsKey(t.foods, FoodId, row, t.favorites[k].foodItemId);
      }
      Ok(t')
  }

  /** `INSERT INTO serving_sizes`: fails on a taken id or an unknown food. */
  function InsertServing(t: Tables, row: ServingRow): (r: Result<Tables, DbError>)
    ensures r.Ok? <==> !HasKey(t.servings, ServingId, row.id) && HasKey(t.foods, FoodId, row.foodItemId)
    ensures r.Ok? ==> r.value == t.(servings := t.servings + [row])
    ensures HasKey(t.servings, ServingId, row.id) ==> r == Err(UniqueViolation)
    ensures Valid(t) && r.Ok? ==> Valid(r.value)
  {
    if HasKey(t.servings, ServingId, row.id) then Err(UniqueViolation)
    else if !HasKey(t.foods, FoodId, row.foodItemId) then Err(ForeignKeyViolation)
    else
      AppendKeepsUnique(t.servings, ServingId, row);
      Ok(t.(servings := t.servings + [row]))
  }

  /** `INSERT INTO exercises`: fails on a taken id. */
  function InsertExercise(t: Tables, row: ExerciseRow): (r: Result<Tables, DbError>)
    ensures r.Ok? <==> !HasKey(t.exercises, ExerciseId, row.id)
    ensures r.Ok? ==> r.value == t.(exercises := t.exercises + [row])
    ensures Valid(t) && r.Ok? ==> Valid(r.value)
  {
    if HasKey(t.exercises, ExerciseId, row.id) then Err(UniqueViolation)
    else
      AppendKeepsUnique(t.exercises, ExerciseId, row);
      Ok(t.(exercises := t.exercises + [row]))
  }

  /** `INSERT OR IGNORE INTO favorites`: a row whose id or (user, food) pair is
      taken is skipped without error; otherwise the foreign keys are checked,
      and `OR IGNORE` does not cover those. */
  function InsertOrIgnoreFavorite(t: Tables, row: FavoriteRow): (r: Result<Tables, DbError>)
    ensures (HasKey(t.favorites, FavoriteId, row.id) || HasKey(t.favorites, FavoritePair, FavoritePair(row)))
              ==> r == Ok(t)
    ensures r.Err? ==> r.error == ForeignKeyViolation
    ensures !HasKey(t.favorites, FavoriteId, row.id) && !HasKey(t.favorites, FavoritePair, FavoritePair(row)) ==>
              (r.Ok? <==> HasKey(t.users, UserId, row.userId) && HasKey(t.foods, FoodId, row.foodItemId))
              && (r.Ok? ==> r.value == t.(favorites := t.favorites + [row]))
    ensures Valid(t) && r.Ok? ==> Valid(r.value)
  {
    if HasKey(t.favorites, FavoriteId, row.id) || HasKey(t.favorites, FavoritePair, FavoritePair(row)) then Ok(t)
    else if !HasKey(t.users, UserId, row.userId) || !HasKey(t.foods, FoodId, row.foodItemId) then
      Err(ForeignKeyViolation)
    else
      AppendKeepsUnique(t.favorites, FavoriteId, row);
      AppendKeepsUnique(t.favorites, FavoritePair, row);
      Ok(t.(favorites := t.favorites + [row]))
  }

  // ------------------------------------------------------ statement batches

  /** The inserts the application issues one `runAsync` at a time. */
  datatype Stmt = InsertFoodStmt(food: FoodRow) | InsertServingStmt(serving: ServingRow) | InsertExerciseStmt(exercise: ExerciseRow)

  function Apply(t: Tables, s: Stmt): (r: Result<Tables, DbError>)
    ensures Valid(t) && r.Ok? ==> Valid(r.value)
  {
    match s
    case InsertFoodStmt(row) => InsertFood(t, row)
    case InsertServingStmt(row) => InsertServing(t, row)
    case InsertExerciseStmt(row) => InsertExercise(t, row)
  }

  /** What a run of statements leaves behind: the tables after every statement
      that succeeded, and the error of the one that failed, if any. */
  datatype Exec = Exec(tables: Tables, error: Option<DbError>)

  /** Statements run one after another, without a transaction: the first
      failure stops the run and the earlier inserts stay. */
  function Run(t: Tables, stmts: seq<Stmt>): (r: Exec)
    ensures Valid(t) ==> Valid(r.tables)
    ensures r.tables.users == t.users && r.tables.favorites == t.favorites
    ensures t.foods <= r.tables.foods && t.servings <= r.tables.servings && t.exercises <= r.tables.exercises
    decreases |stmts|
  {
    if |stmts| == 0 then Exec(t, None)
    else match Apply(t, stmts[0])
      case Err(e) => Exec(t, Some(e))
      case Ok(t') => Run(t', stmts[1..])
  }

  /** Running a statement and then the rest. */
  lemma RunFirst(t: Tables, s: Stmt, rest: seq<Stmt>)
    ensures Run(t, [s] + rest) ==
              if Apply(t, s).Err? then Exec(t, Some(Apply(t, s).error)) else Run(Apply(t, s).value, rest)
  {
    assert ([s] + rest)[0] == s && ([s] + rest)[1..] == rest;
  }

  lemma {:induction false} RunConcat(t: Tables, a: seq<Stmt>, b: seq<Stmt>)
    ensures Run(t, a + b) ==
              if Run(t, a).error.Some? then Run(t, a) else Run(Run(t, a).tables, b)
    decreases |a|
  {
    if |a| > 0 {
      assert (a + b)[0] == a[0] && (a + b)[1..] == a[1..] + b;
      match Apply(t, a[0])
      case Err(_) =>
      case Ok(t') => RunConcat(t', a[1..], b);
    } else {
      assert a + b == b;
    }
  }

  // --------------------------------------------------------------- lookups

  /** The first row with that id (`getFirstAsync ... WHERE id = ?`). */
  function FindUser(rows: seq<UserRow>, id: string): (r: Option<UserRow>)
    ensures r.None? <==> !HasKey(rows, UserId, id)
    ensures r.Some? ==> r.value in rows && r.value.id == id
  {
    if |rows| == 0 then None
    else if rows[0].id == id then Some(rows[0])
    else
      var r := FindUser(rows[1..], id);
      assert HasKey(rows, UserId, id) ==> HasKey(rows[1..], UserId, id) by {
        if HasKey(rows, UserId, id) {
          var k :| 0 <= k < |rows| && UserId(rows[k]) == id;
          assert rows[1..][k - 1] == rows[k];
        }
      }
      r
  }

  function FindFood(rows: seq<FoodRow>, id: string): (r: Option<FoodRow>)
    ensures r.None? <==> !HasKey(rows, FoodId, id)
    ensures r.Some? ==> r.value in rows && r.value.id == id
  {
    if |rows| == 0 then None
    else if rows[0].id == id then Some(rows[0])
    else
      var r := FindFood(rows[1..], id);
      assert HasKey(rows, FoodId, id) ==> HasKey(rows[1..], FoodId, id) by {
        if HasKey(rows, FoodId, id) {
          var k :| 0 <= k < |rows| && FoodId(rows[k]) == id;
          assert rows[1..][k - 1] == rows[k];
        }
      }
      r
  }

  /** A row appended under a key nobody else has is the one a lookup finds. */
  lemma {:induction false} FindUserAppended(rows: seq<UserRow>, row: UserRow)
    requires !HasKey(rows, UserId, row.id)
    ensures FindUser(rows + [row], row.id) == Some(row)
  {
    if |rows| > 0 {
      assert (rows + [row])[1..] == rows[1..] + [row];
      assert forall k :: 0 <= k < |rows[1..]| ==> rows[1..][k] == rows[k + 1];
      assert rows[0].id != row.id by { assert UserId(rows[0]) != row.id; }
      FindUserAppended(rows[1..], row);
    }
  }

  lemma {:induction false} FindFoodAppended(rows: seq<FoodRow>, row: FoodRow)
    requires !HasKey(rows, FoodId, row.id)
    ensures FindFood(rows + [row], row.id) == Some(row)
  {
    if |rows| > 0 {
      assert (rows + [row])[1..] == rows[1..] + [row];
      assert forall k :: 0 <= k < |rows[1..]| ==> rows[1..][k] == rows[k + 1];
      assert rows[0].id != row.id by { assert FoodId(rows[0]) != row.id; }
      FindFoodAppended(rows[1..], row);
    }
  }
}

=== FILE: food_input.dfy ===
/** The client side of food recognition (`FoodInputService`): the guard on
    typed text, the request body posted for each kind of input, the mapping
    of the recognition reply to a `FoodItem`, and the voice-recording flag.

    The posted request and the device calls are outside the model: the reply
    to a post is a parameter (`call`), and device steps are outcomes passed
    in. `Date.now()` in generated ids is the `stamp` parameter. */
module FoodInput {
  import opened Wrappers
  import opened Text
  import opened Json
  import opened Types

  datatype InputType = TextInput | ImageInput | AudioInput | BarcodeInput

  /** The body sent to the recognition endpoint: text and audio go as a
      transcription, images as a base64 image, anything else as `content`. */
  function RequestBody(kind: InputType, content: string): (r: Json)
    ensures r.JObj? && |r.fields| == 1 && r.fields[0].1 == JStr(content)
    ensures Prop(r, "transcription").Some? <==> kind.TextInput? || kind.AudioInput?
    ensures Prop(r, "base64Image").Some? <==> kind.ImageInput?
    ensures Prop(r, "content").Some? <==> kind.BarcodeInput?
  {
    var key := match kind
      case TextInput => "transcription"
      case AudioInput => "transcription"
      case ImageInput => "base64Image"
      case BarcodeInput => "content";
    assert "transcription" != "base64Image" && "transcription" != "content" && "base64Image" != "content" by {
      assert |"transcription"| != |"base64Image"| && |"transcription"| != |"content"|;
      assert |"base64Image"| != |"content"|;
    }
    JObj([(key, JStr(content))])
  }

  datatype InputResult = InputResult(
    success: bool, foodItem: Option<FoodItem>, error: Option<string>, confidence: Option<real>)

  function Failed(message: string): InputResult {
    InputResult(false, None, Some(message), None)
  }

  /** The error reported when the first item cannot be read; the text after
      the prefix in the engine's `TypeError` message is not modelled. */
  const ParsingTypeError := "Response parsing error: TypeError"

  /** `!response || !response.items || response.items.length === 0`. */
  predicate NoItems(response: Option<Json>) {
    || !Truthy(response)
    || !Truthy(Prop(response.value, "items"))
    || Prop(Prop(response.value, "items").value, "length") == Some(JNum(0.0))
  }

  /** `response?.debug_info?.error || 'No items found in response'`. */
  function MissingItemsError(h: Host, response: Option<Json>): (r: string)
    ensures var e := OptProp(OptProp(response, "debug_info"), "error");
            && (!Truthy(e) ==> r == "No items found in response")
            && (Truthy(e) ==> r == TextOf(h, e.value))
  {
    TextOr(h, OptProp(OptProp(response, "debug_info"), "error"), "No items found in response")
  }

  /** `parseFloat(v) || 0`: an absent or unparseable value counts as zero. */
  function Amount(h: Host, v: Option<Json>): (r: real)
    ensures v.None? ==> r == 0.0
    ensures v.Some? && h.parseFloat(TextOf(h, v.value)).None? ==> r == 0.0
    ensures v.Some? && h.parseFloat(TextOf(h, v.value)).Some? ==> r == h.parseFloat(TextOf(h, v.value)).value
  {
    match v
    case None => 0.0
    case Some(j) => h.parseFloat(TextOf(h, j)).GetOr(0.0)
  }

  /** `item.calories || 0`: a falsy value counts as zero and a number is
      taken as is. */
  function Calories(h: Host, v: Option<Json>): (r: real)
    ensures !Truthy(v) ==> r == 0.0
    ensures Truthy(v) && v.value.JNum? ==> r == v.value.n
  {
    if !Truthy(v) then 0.0
    else if v.value.JNum? then v.value.n
    else Amount(h, v)
  }

  /** The food item built from the first recognised item. */
  function ItemOf(h: Host, item: Json, stamp: nat, now: Timestamp): (f: FoodItem)
    ensures f.id == "custom-" + NatText(stamp)
    ensures !Truthy(Prop(item, "name")) ==> f.name == "Unknown Food"
    ensures Truthy(Prop(item, "name")) ==> f.name == TextOf(h, Prop(item, "name").value)
    ensures f.brand.None? <==> !Truthy(Prop(item, "brand"))
    ensures Truthy(Prop(item, "brand")) ==> f.brand == Some(TextOf(h, Prop(item, "brand").value))
    ensures !Truthy(Prop(item, "category")) ==> f.category == OtherCategory
    ensures Truthy(Prop(item, "category")) ==> f.category.Text() == TextOf(h, Prop(item, "category").value)
    ensures f.nutritionPer100g.calories == Calories(h, Prop(item, "calories"))
    ensures f.nutritionPer100g.protein == Amount(h, Prop(item, "protein"))
    ensures f.nutritionPer100g.carbs == Amount(h, Prop(item, "carbs"))
    ensures f.nutritionPer100g.fat == Amount(h, Prop(item, "fat"))
    ensures f.nutritionPer100g.fiber == Amount(h, Prop(item, "fiber"))
    ensures f.nutritionPer100g.sugar == Amount(h, Prop(item, "sugar"))
    ensures f.nutritionPer100g.sodium == Amount(h, Prop(item, "sodium"))
    ensures f.nutritionPer100g.cholesterol == 0.0
    ensures |f.servingSizes| == 1 && f.servingSizes[0].id == "1"
    ensures f.servingSizes[0].weight == 100.0 && f.servingSizes[0].unit == Gram
    ensures f.servingSizes[0].name == TextOr(h, Prop(item, "serving_size"), "1 serving")
    ensures f.isCustom && f.barcode.None? && f.imageUrl.None?
    ensures f.createdAt == now && f.updatedAt == now
  {
    var brand := Prop(item, "brand");
    FoodItem(
      id := "custom-" + NatText(stamp),
      name := TextOr(h, Prop(item, "name"), "Unknown Food"),
      brand := if Truthy(brand) then Some(TextOf(h, brand.value)) else None,
      barcode := None,
      nutritionPer100g := Nutrition(
        calories := Calories(h, Prop(item, "calories")),
        protein := Amount(h, Prop(item, "protein")),
        carbs := Amount(h, Prop(item, "carbs")),
        fat := Amount(h, Prop(item, "fat")),
        fiber := Amount(h, Prop(item, "fiber")),
        sugar := Amount(h, Prop(item, "sugar")),
        sodium := Amount(h, Prop(item, "sodium")),
        cholesterol := 0.0),
      servingSizes := [ServingSize("1", TextOr(h, Prop(item, "serving_size"), "1 serving"), 100.0, Gram)],
      category := CategoryFromText(TextOr(h, Prop(item, "category"), "other")),
      imageUrl := None,
      isCustom := true,
      createdAt := now,
      updatedAt := now)
  }

  /** `parseLambdaResponse`: only the first item is used; reading a property
      of a missing or `null` first item throws and is reported. */
  function ParseLambdaResponse(h: Host, response: Option<Json>, stamp: nat, now: Timestamp): (r: InputResult)
    ensures NoItems(response) ==> r == Failed(MissingItemsError(h, response))
    ensures !NoItems(response) ==>
              var first := At(Prop(response.value, "items").value, 0);
              && (r.success <==> !Nullish(first))
              && (Nullish(first) ==> r == Failed(ParsingTypeError))
              && (r.success ==> r == InputResult(true, Some(ItemOf(h, first.value, stamp, now)), None, Some(0.9)))
    ensures r.success <==> r.foodItem.Some?
    ensures !r.success ==> r.error.Some? && r.confidence.None?
  {
    if NoItems(response) then Failed(MissingItemsError(h, response))
    else
      var first := At(Prop(response.value, "items").value, 0);
      if Nullish(first) then Failed(ParsingTypeError)
      else InputResult(true, Some(ItemOf(h, first.value, stamp, now)), None, Some(0.9))
  }

  /** `processTextInput`: blank text is refused before anything is posted;
      other text is posted as a transcription and the reply parsed. */
  function ProcessTextInput(h: Host, text: string, call: Json -> Option<Json>, stamp: nat, now: Timestamp)
    : (r: InputResult)
    ensures AllWhitespace(text) ==> r == Failed("Input is empty")
    ensures !AllWhitespace(text) ==>
              r == ParseLambdaResponse(h, call(RequestBody(TextInput, text)), stamp, now)
  {
    TrimEmptyIffBlank(text);
    if Trim(text) == "" then Failed("Input is empty")
    else ParseLambdaResponse(h, call(RequestBody(TextInput, text)), stamp, now)
  }

  /** Blank input gives the same answer whatever the endpoint would reply. */
  lemma BlankInputNeverPosted(h: Host, text: string, call1: Json -> Option<Json>,
                              call2: Json -> Option<Json>, stamp: nat, now: Timestamp)
    requires AllWhitespace(text)
    ensures ProcessTextInput(h, text, call1, stamp, now) == ProcessTextInput(h, text, call2, stamp, now)
    ensures !ProcessTextInput(h, text, call1, stamp, now).success
  {
  }

  // Voice recording

  datatype VoiceResult = VoiceResult(success: bool, text: Option<string>, error: Option<string>)

  function VoiceFailed(message: string): VoiceResult {
    VoiceResult(false, None, Some(message))
  }

  /** Whether a recording object is held, and the `recordingActive` flag. */
  datatype Recorder = Recorder(hasRecording: bool, active: bool)

  const Idle := Recorder(false, false)

  /** The flag is only ever set while a recording object is held. */
  predicate Consistent(rec: Recorder) {
    rec.active ==> rec.hasRecording
  }

  /** How the device answers a start request: permission refused, a failure
      before the recording object exists, a failure of `startAsync` after it
      was created, or a started recording. */
  datatype StartOutcome = PermissionDenied | SetupFailed(message: string) | StartFailed(message: string) | Started

  /** `startVoiceRecording`. */
  function StartRecording(rec: Recorder, o: StartOutcome): (r: (Recorder, VoiceResult))
    ensures o.Started? ==> r.0 == Recorder(true, true) && r.1.success
    ensures !o.Started? ==> !r.1.success && r.0.active == rec.active
    ensures o.PermissionDenied? ==> r == (rec, VoiceFailed("Microphone permission denied"))
    ensures o.SetupFailed? ==> r == (rec, VoiceFailed("Recording error: " + o.message))
    ensures o.StartFailed? ==> r == (rec.(hasRecording := true), VoiceFailed("Recording error: " + o.message))
    ensures Consistent(rec) ==> Consistent(r.0)
  {
    match o
    case PermissionDenied => (rec, VoiceFailed("Microphone permission denied"))
    case SetupFailed(m) => (rec, VoiceFailed("Recording error: " + m))
    case StartFailed(m) => (rec.(hasRecording := true), VoiceFailed("Recording error: " + m))
    case Started => (Recorder(true, true), VoiceResult(true, None, None))
  }

  /** How the device answers a stop request. */
  datatype StopOutcome = StopFailed(message: string) | NoUri | Stopped

  /** The audio content posted for transcription (a fixed placeholder). */
  const AudioPlaceholder := "base64_placeholder_string"

  /** `transcribeAudio` on the endpoint's reply: success needs truthy
      `success` and `transcription`; reading a property of a missing or
      `null` reply throws and is reported. */
  function TranscriptionOf(h: Host, reply: Option<Json>): (r: VoiceResult)
    ensures r.success <==> !Nullish(reply) && Truthy(Prop(reply.value, "success"))
                           && Truthy(Prop(reply.value, "transcription"))
    ensures r.success ==> r.text == Some(TextOf(h, Prop(reply.value, "transcription").value))
    ensures !r.success ==> r.error.Some? && r.text.None?
  {
    if Nullish(reply) then VoiceFailed("Audio transcription error: TypeError")
    else
      var ok := Prop(reply.value, "success");
      var transcription := Prop(reply.value, "transcription");
      if Truthy(ok) && Truthy(transcription) then VoiceResult(true, Some(TextOf(h, transcription.value)), None)
      else VoiceFailed("Failed to transcribe audio")
  }

  /** `stopVoiceRecording`: refused unless a recording is active; a successful
      stop clears the flag before anything else can fail. */
  function StopRecording(h: Host, rec: Recorder, o: StopOutcome, call: Json -> Option<Json>)
    : (r: (Recorder, VoiceResult))
    ensures !(rec.hasRecording && rec.active) ==> r == (rec, VoiceFailed("No active recording"))
    ensures rec.hasRecording && rec.active && o.StopFailed? ==> r.0 == rec && !r.1.success
    ensures rec.hasRecording && rec.active && o.StopFailed? ==>
              r == (rec, VoiceFailed("Stop recording error: " + o.message))
    ensures rec.hasRecording && rec.active && o.NoUri? ==>
              r == (rec.(active := false), VoiceFailed("No recording URI"))
    ensures rec.hasRecording && rec.active && !o.StopFailed? ==> !r.0.active
    ensures rec.hasRecording && rec.active && o.Stopped? ==>
              r == (Idle, TranscriptionOf(h, call(RequestBody(AudioInput, AudioPlaceholder))))
    ensures Consistent(rec) ==> Consistent(r.0)
  {
    if !rec.hasRecording || !rec.active then (rec, VoiceFailed("No active recording"))
    else
      match o
      case StopFailed(m) => (rec, VoiceFailed("Stop recording error: " + m))
      case NoUri => (rec.(active := false), VoiceFailed("No recording URI"))
      case Stopped => (Idle, TranscriptionOf(h, call(RequestBody(AudioInput, AudioPlaceholder))))
  }

  /** `isRecording`. */
  function IsRecording(rec: Recorder): bool {
    rec.active
  }

  /** A start that fails, even after creating the recorder, leaves nothing to
      stop: the stop that follows is refused. */
  lemma FailedStartStopRefused(h: Host, o: StartOutcome, so: StopOutcome, call: Json -> Option<Json>)
    requires !o.Started?
    ensures var started := StartRecording(Idle, o);
            StopRecording(h, started.0, so, call) == (started.0, VoiceFailed("No active recording"))
  {
  }

  /** A start that succeeds makes the service report recording; a stop that
      gets past the device makes it stop reporting, and a second stop is
      refused. */
  lemma StartThenStop(h: Host, rec: Recorder, o: StopOutcome, call: Json -> Option<Json>)
    requires !o.StopFailed?
    ensures var started := StartRecording(rec, Started).0;
            var stopped := StopRecording(h, started, o, call).0;
            && IsRecording(started) && !IsRecording(stopped)
            && StopRecording(h, stopped, o, call) == (stopped, VoiceFailed("No active recording"))
  {
  }

  /** A device event seen by the service. */
  datatype RecordingEvent = StartEvent(start: StartOutcome) | StopEvent(stop: StopOutcome)

  /** The recorder after a sequence of events. */
  function Replay(h: Host, rec: Recorder, events: seq<RecordingEvent>, call: Json -> Option<Json>)
    : (r: Recorder)
    ensures |events| == 0 ==> r == rec
    decreases |events|
  {
    if |events| == 0 then rec
    else
      var before := Replay(h, rec, events[..|events| - 1], call);
      match events[|events| - 1]
      case StartEvent(o) => StartRecording(before, o).0
      case StopEvent(o) => StopRecording(h, before, o, call).0
  }

  /** Whatever the device does, the flag is never set without a recording
      object, starting from the initial state. */
  lemma {:induction false} ReplayConsistent(h: Host, events: seq<RecordingEvent>, call: Json -> Option<Json>)
    ensures Consistent(Replay(h, Idle, events, call))
    decreases |events|
  {
    if |events| > 0 {
      ReplayConsistent(h, events[..|events| - 1], call);
    }
  }
}

=== FILE: json.dfy ===
/** JSON values as the recognition function and the client exchange them, with
    the JavaScript operations both sides apply to them: property access (which
    yields `undefined` for a missing property), indexing, truthiness for `||`
    and `!`, and `String(x)` coercion.

    `JSON.parse`, `String(x)` on non-strings and `parseFloat` are host
    built-ins; they are parameters (`Host`) rather than definitions. */
module Json {
  import opened Wrappers
  import opened Text

  datatype Json =
    | JNull
    | JBool(b: bool)
    | JNum(n: real)
    | JStr(s: string)
    | JArr(elems: seq<Json>)
    | JObj(fields: seq<(string, Json)>)

  /** The host built-ins: `JSON.parse` (`None` when it throws), `String(x)` for
      values that are not strings, and `parseFloat` (`None` for `NaN`). */
  datatype Host = Host(
    parse: string -> Option<Json>,
    show: Json -> string,
    parseFloat: string -> Option<real>)

  /** Field lookup in an object. The names of a JavaScript object are
      distinct (`JSON.parse` keeps the last of duplicated names), so the
      first field with the name is the only one. */
  function Lookup(fields: seq<(string, Json)>, key: string): (r: Option<Json>)
    ensures r.None? <==> forall k :: 0 <= k < |fields| ==> fields[k].0 != key
    ensures r.Some? ==> exists k :: 0 <= k < |fields| && fields[k] == (key, r.value)
                                    && forall m :: 0 <= m < k ==> fields[m].0 != key
  {
    if |fields| == 0 then None
    else if fields[0].0 == key then Some(fields[0].1)
    else
      var r := Lookup(fields[1..], key);
      assert forall k :: 0 < k < |fields| ==> fields[k] == fields[1..][k - 1];
      r
  }

  /** Lookup in a two-field object literal. */
  lemma LookupPair(k1: string, v1: Json, k2: string, v2: Json, key: string)
    ensures Lookup([(k1, v1), (k2, v2)], key)
              == if k1 == key then Some(v1) else if k2 == key then Some(v2) else None
  {
    assert [(k1, v1), (k2, v2)][1..] == [(k2, v2)];
  }

  /** `v.key` for a non-numeric name; `None` is `undefined`. Strings and
      arrays expose only `length` among such names. */
  function Prop(v: Json, key: string): Option<Json> {
    match v
    case JObj(fs) => Lookup(fs, key)
    case JArr(xs) => if key == "length" then Some(JNum(|xs| as real)) else None
    case JStr(s) => if key == "length" then Some(JNum(|s| as real)) else None
    case _ => None
  }

  /** `v[i]`: an element of an array, a one-character string of a string, or
      the field named by the decimal index of an object. */
  function At(v: Json, i: nat): Option<Json> {
    match v
    case JArr(xs) => if i < |xs| then Some(xs[i]) else None
    case JStr(s) => if i < |s| then Some(JStr([s[i]])) else None
    case JObj(fs) => Lookup(fs, NatText(i))
    case _ => None
  }

  /** `undefined` or `null`: the values whose properties cannot be read. */
  predicate Nullish(v: Option<Json>) {
    v.None? || v.value.JNull?
  }

  /** `x?.key`: `undefined` when `x` is nullish. */
  function OptProp(v: Option<Json>, key: string): (r: Option<Json>)
    ensures Nullish(v) ==> r.None?
    ensures !Nullish(v) ==> r == Prop(v.value, key)
  {
    if Nullish(v) then None else Prop(v.value, key)
  }

  /** JavaScript truthiness (`NaN` is not modelled). */
  predicate Truthy(v: Option<Json>) {
    match v
    case None => false
    case Some(JNull) => false
    case Some(JBool(b)) => b
    case Some(JNum(n)) => n != 0.0
    case Some(JStr(s)) => s != ""
    case Some(_) => true
  }

  /** `String(v)`: strings are themselves. */
  function TextOf(h: Host, v: Json): (r: string)
    ensures v.JStr? ==> r == v.s
  {
    if v.JStr? then v.s else h.show(v)
  }

  /** `x || fallback` where the result is used as text. */
  function TextOr(h: Host, v: Option<Json>, fallback: string): (r: string)
    ensures !Truthy(v) ==> r == fallback
    ensures Truthy(v) ==> r == TextOf(h, v.value)
  {
    if Truthy(v) then TextOf(h, v.value) else fallback
  }
}

=== FILE: muscle_json.dfy ===
/** The `muscle_groups` column of the exercises table: a JSON array of
    muscle-group names, written with `JSON.stringify` and read back with
    `JSON.parse(text || '[]')`. The reader accepts exactly the compact text the
    writer produces (no whitespace, no escapes). */
module MuscleJson {
  import opened Wrappers
  import opened Types
  import opened Text

  function GroupFromText(s: string): (r: Option<MuscleGroup>)
    ensures r.Some? ==> r.value.Text() == s
  {
    match s
    case "chest" => Some(Chest)
    case "back" => Some(Back)
    case "shoulders" => Some(Shoulders)
    case "arms" => Some(Arms)
    case "legs" => Some(Legs)
    case "abs" => Some(Abs)
    case "glutes" => Some(Glutes)
    case _ => None
  }

  lemma GroupTextRoundTrip(g: MuscleGroup)
    ensures GroupFromText(g.Text()) == Some(g)
    ensures '"' !in g.Text() && ',' !in g.Text()
  {
  }

  function Quote(g: MuscleGroup): string {
    "\"" + g.Text() + "\""
  }

  /** The comma-separated items between the brackets. */
  function Items(gs: seq<MuscleGroup>): string {
    if |gs| == 0 then ""
    else if |gs| == 1 then Quote(gs[0])
    else Quote(gs[0]) + "," + Items(gs[1..])
  }

  /** `JSON.stringify(groups)`. */
  function Stringify(gs: seq<MuscleGroup>): (r: string)
    ensures |r| >= 2 && r[0] == '[' && r[|r| - 1] == ']'
    ensures gs == [] <==> r == "[]"
  {
    "[" + Items(gs) + "]"
  }

  /** Reads items: a quoted name, then either the end or a comma and more items. */
  function ParseItems(t: string): (r: Option<seq<MuscleGroup>>)
    decreases |t|
  {
    if |t| == 0 then Some([])
    else if t[0] != '"' then None
    else match FirstIndex(t[1..], '"')
      case None => None
      case Some(j) =>
        match GroupFromText(t[1..j + 1])
        case None => None
        case Some(g) =>
          var rest := t[j + 2..];
          if |rest| == 0 then Some([g])
          else if rest[0] == ',' && |rest| > 1 then
            match ParseItems(rest[1..])
            case None => None
            case Some(gs) => Some([g] + gs)
          else None
  }

  /** `JSON.parse(text || '[]')`: an empty column reads as the empty array;
      text that is not such an array is a parse error (`None`). */
  function Parse(s: string): (r: Option<seq<MuscleGroup>>)
    ensures s == "" ==> r == Some([])
  {
    var text := if s == "" then "[]" else s;
    if |text| >= 2 && text[0] == '[' && text[|text| - 1] == ']' then ParseItems(text[1..|text| - 1])
    else None
  }

  /** The first quote after an opening quote closes a name without quotes. */
  lemma QuoteClosesName(name: string, more: string)
    requires '"' !in name
    ensures var t := "\"" + name + "\"" + more;
            FirstIndex(t[1..], '"') == Some(|name|)
            && t[1..|name| + 1] == name
            && t[|name| + 2..] == more
  {
    var t := "\"" + name + "\"" + more;
    var n := |name|;
    var u := t[1..];
    assert u == name + "\"" + more;
    assert u[n] == '"';
    assert u[..n] == name;
    assert forall k :: 0 <= k < n ==> u[k] == name[k] != '"';
    assert '"' !in u[..n];
  }

  /** The first quote after an opening quote closes the group's name. */
  lemma QuoteCloses(g: MuscleGroup, more: string)
    ensures var t := Quote(g) + more;
            FirstIndex(t[1..], '"') == Some(|g.Text()|)
            && t[1..|g.Text()| + 1] == g.Text()
            && t[|g.Text()| + 2..] == more
  {
    GroupTextRoundTrip(g);
    QuoteClosesName(g.Text(), more);
  }

  /** One step of the reader over a quoted name followed by the rest. */
  lemma ParseItemsStep(g: MuscleGroup, more: string)
    ensures ParseItems(Quote(g) + more) ==
              if |more| == 0 then Some([g])
              else if more[0] == ',' && |more| > 1 then
                match ParseItems(more[1..])
                case None => None
                case Some(gs) => Some([g] + gs)
              else None
  {
    QuoteCloses(g, more);
    GroupTextRoundTrip(g);
  }

  /** A lone quoted name reads as that one group. */
  lemma ParseOneItem(g: MuscleGroup)
    ensures ParseItems(Quote(g)) == Some([g])
  {
    ParseItemsStep(g, "");
    assert Quote(g) + "" == Quote(g);
  }

  /** A quoted name, a comma and more items read as the group before the rest. */
  lemma ParseItemsCons(g: MuscleGroup, tail: string)
    requires |tail| > 0
    ensures ParseItems(Quote(g) + ("," + tail)) ==
              if ParseItems(tail).Some? then Some([g] + ParseItems(tail).value) else None
  {
    ParseItemsStep(g, "," + tail);
    assert ("," + tail)[1..] == tail;
  }

  /** The items of a group before more groups: its quoted name, a comma and
      the rest. */
  lemma ItemsCons(g: MuscleGroup, rest: seq<MuscleGroup>)
    requires |rest| > 0
    ensures Items([g] + rest) == Quote(g) + ("," + Items(rest))
    ensures |Items(rest)| > 0
  {
    var gs := [g] + rest;
    assert gs[0] == g && gs[1..] == rest;
    assert Items(rest)[0] == '"';
  }

  /** Items read back once the items after the first do. */
  lemma ParseItemsOfCons(g: MuscleGroup, rest: seq<MuscleGroup>)
    requires |rest| > 0 && ParseItems(Items(rest)) == Some(rest)
    ensures ParseItems(Items([g] + rest)) == Some([g] + rest)
  {
    ItemsCons(g, rest);
    ParseItemsCons(g, Items(rest));
  }

  lemma {:induction false} ParseItemsOfItems(gs: seq<MuscleGroup>)
    ensures ParseItems(Items(gs)) == Some(gs)
  {
    if |gs| == 1 {
      ParseOneItem(gs[0]);
      assert gs == [gs[0]];
    } else if |gs| > 1 {
      ParseItemsOfItems(gs[1..]);
      ParseItemsOfCons(gs[0], gs[1..]);
      assert [gs[0]] + gs[1..] == gs;
    }
  }

  /** What the writer stores, the reader gives back. */
  lemma ParseStringify(gs: seq<MuscleGroup>)
    ensures Parse(Stringify(gs)) == Some(gs)
  {
    var s := Stringify(gs);
    assert s[1..|s| - 1] == Items(gs);
    ParseItemsOfItems(gs);
  }
}

=== FILE: nutrition_store.dfy ===
/** The nutrition store: one `DailyNutrition` per date (the day log), the
    current date, favourite and recently used foods. Every action is a pure
    transition from the old state to the new one; the signed-in user, the
    clock and the `Date.now()`-derived meal id are parameters.

    The invariant every action keeps is `Valid`: each day's `totalNutrition`
    is the running total over all its foods, flattened in meal order, and a
    day holds at most one meal of each type. */
module NutritionStore {
  import opened Wrappers
  import opened Types
  import opened Calculations
  import opened Sequences

  /** The recent-foods list keeps this many items. */
  const RecentLimit: nat := 10

  datatype State = State(
    dailyEntries: map<string, DailyNutrition>,
    currentDate: string,
    favorites: seq<FoodItem>,
    recentFoods: seq<FoodItem>,
    isLoading: bool)

  // ------------------------------------------------------------- day shape

  /** `meals.flatMap(m => m.foodItems)`. */
  function Flatten(meals: seq<MealEntry>): seq<ConsumedFood> {
    if |meals| == 0 then [] else meals[0].foodItems + Flatten(meals[1..])
  }

  lemma {:induction false} FlattenConcat(a: seq<MealEntry>, b: seq<MealEntry>)
    ensures Flatten(a + b) == Flatten(a) + Flatten(b)
  {
    if |a| == 0 {
      assert a + b == b;
    } else {
      assert (a + b)[0] == a[0] && (a + b)[1..] == a[1..] + b;
      FlattenConcat(a[1..], b);
    }
  }

  /** Replacing one meal replaces exactly its block of the flattened list. */
  lemma FlattenReplace(meals: seq<MealEntry>, k: nat, m: MealEntry)
    requires k < |meals|
    ensures Flatten(meals[k := m]) == Flatten(meals[..k]) + m.foodItems + Flatten(meals[k + 1..])
    ensures Flatten(meals) == Flatten(meals[..k]) + meals[k].foodItems + Flatten(meals[k + 1..])
  {
    assert meals[k := m] == meals[..k] + ([m] + meals[k + 1..]);
    assert meals == meals[..k] + ([meals[k]] + meals[k + 1..]);
    FlattenConcat(meals[..k], [m] + meals[k + 1..]);
    FlattenConcat(meals[..k], [meals[k]] + meals[k + 1..]);
    assert ([m] + meals[k + 1..])[1..] == meals[k + 1..];
    assert ([meals[k]] + meals[k + 1..])[1..] == meals[k + 1..];
  }

  /** The day's total is the running total of every food it holds. */
  predicate Consistent(day: DailyNutrition) {
    day.totalNutrition == TotalNutrition(Flatten(day.meals))
  }

  /** Meals are found by type with `find`, so a day keeps at most one of each. */
  predicate UniqueMealTypes(meals: seq<MealEntry>) {
    forall i, j :: 0 <= i < j < |meals| ==> meals[i].mealType != meals[j].mealType
  }

  predicate ValidDay(day: DailyNutrition) {
    Consistent(day) && UniqueMealTypes(day.meals)
  }

  predicate Valid(s: State) {
    forall date :: date in s.dailyEntries ==> ValidDay(s.dailyEntries[date])
  }

  /** `Recomputed` day: the total brought back in line with the foods. */
  function Recomputed(day: DailyNutrition): (r: DailyNutrition)
    ensures Consistent(r)
    ensures r.(totalNutrition := day.totalNutrition) == day
  {
    day.(totalNutrition := TotalNutrition(Flatten(day.meals)))
  }

  /** The zeroed entry created for a date that has none yet. */
  function EmptyDay(date: string, user: UserProfile): (r: DailyNutrition)
    ensures ValidDay(r) && r.meals == []
    ensures r.date == date && r.userId == user.id && r.calorieGoal == user.goals.calorieGoal
    ensures r.id == "daily-" + date && r.waterIntake == 0.0 && r.notes.None?
  {
    DailyNutrition("daily-" + date, user.id, date, [], ZeroNutrition, user.goals.calorieGoal, 0.0, None)
  }

  /** `meals.find(m => m.mealType === mealType)`, as an index. */
  function FindMeal(meals: seq<MealEntry>, t: MealType): (r: Option<nat>)
    ensures r.None? <==> forall k :: 0 <= k < |meals| ==> meals[k].mealType != t
    ensures r.Some? ==> r.value < |meals| && meals[r.value].mealType == t
                        && forall k :: 0 <= k < r.value ==> meals[k].mealType != t
  {
    if |meals| == 0 then None
    else if meals[0].mealType == t then Some(0)
    else match FindMeal(meals[1..], t)
      case None => None
      case Some(k) => Some(k + 1)
  }

  /** `foodItems.findIndex(f => f.id === entryId)`, as an index. */
  function FindFood(foods: seq<ConsumedFood>, id: string): (r: Option<nat>)
    ensures r.None? <==> forall k :: 0 <= k < |foods| ==> foods[k].id != id
    ensures r.Some? ==> r.value < |foods| && foods[r.value].id == id
                        && forall k :: 0 <= k < r.value ==> foods[k].id != id
  {
    if |foods| == 0 then None
    else if foods[0].id == id then Some(0)
    else match FindFood(foods[1..], id)
      case None => None
      case Some(k) => Some(k + 1)
  }

  // ---------------------------------------------------------- adding food

  /** Appends `food` to the meal of its type, creating that meal (with the given
      id and time) only when the day has none. */
  function AddToMeals(meals: seq<MealEntry>, t: MealType, food: ConsumedFood, mealId: string, now: Timestamp)
    : (r: seq<MealEntry>)
    ensures multiset(Flatten(r)) == multiset(Flatten(meals)) + multiset{food}
    ensures FindMeal(meals, t).None? ==> r == meals + [MealEntry(mealId, t, [food], now, None)]
    ensures FindMeal(meals, t).Some? ==>
              var k := FindMeal(meals, t).value;
              r == meals[k := meals[k].(foodItems := meals[k].foodItems + [food])]
    ensures UniqueMealTypes(meals) ==> UniqueMealTypes(r)
  {
    match FindMeal(meals, t)
    case None =>
      var m := MealEntry(mealId, t, [food], now, None);
      var r := meals + [m];
      FlattenConcat(meals, [m]);
      assert Flatten([m]) == [food];
      r
    case Some(k) =>
      var m := meals[k].(foodItems := meals[k].foodItems + [food]);
      FlattenReplace(meals, k, m);
      var r := meals[k := m];
      assert forall j :: 0 <= j < |r| ==> r[j].mealType == meals[j].mealType;
      r
  }

  /** `addToRecent`: the food moves to the front, any older copy (same id) is
      dropped, and the list is cut to its first ten items. */
  function AddToRecent(recent: seq<FoodItem>, food: FoodItem): (r: seq<FoodItem>)
    ensures 1 <= |r| <= RecentLimit && r[0] == food
    ensures forall k :: 1 <= k < |r| ==> r[k].id != food.id
    ensures r[1..] <= Filter(recent, OtherFood(food.id))
    ensures |r| == Min(RecentLimit, 1 + |Filter(recent, OtherFood(food.id))|)
  {
    var rest := Filter(recent, OtherFood(food.id));
    var kept := if 1 + |rest| <= RecentLimit then rest else rest[..RecentLimit - 1];
    assert forall k :: 0 <= k < |kept| ==> !OtherFood(food.id)(food) && OtherFood(food.id)(kept[k]);
    assert ([food] + kept)[1..] == kept;
    [food] + kept
  }

  function Min(a: nat, b: nat): nat {
    if a <= b then a else b
  }

  /** The keep-test of `filter(f => f.id !== id)` on foods. */
  function OtherFood(id: string): FoodItem -> bool {
    (f: FoodItem) => f.id != id
  }

  /** The keep-test of `filter(f => f.id !== id)` on logged foods. */
  function OtherEntry(id: string): ConsumedFood -> bool {
    (f: ConsumedFood) => f.id != id
  }

  /** Using a food twice in a row leaves the same recent list as using it once. */
  lemma AddToRecentIdempotent(recent: seq<FoodItem>, food: FoodItem)
    ensures AddToRecent(AddToRecent(recent, food), food) == AddToRecent(recent, food)
  {
    var r := AddToRecent(recent, food);
    assert r == [r[0]] + r[1..];
    FilterConcat([r[0]], r[1..], OtherFood(food.id));
    FilterKeepsAll(r[1..], OtherFood(food.id));
    assert Filter([r[0]], OtherFood(food.id)) == [];
  }

  predicate UniqueFoodIds(xs: seq<FoodItem>) {
    forall i, j :: 0 <= i < j < |xs| ==> xs[i].id != xs[j].id
  }

  /** Dropping items keeps ids distinct, so the recent list never holds two
      copies of a food once it starts without them. */
  lemma {:induction false} FilterKeepsUniqueIds(xs: seq<FoodItem>, keep: FoodItem -> bool)
    requires UniqueFoodIds(xs)
    ensures UniqueFoodIds(Filter(xs, keep))
  {
    if |xs| > 0 {
      FilterKeepsUniqueIds(xs[1..], keep);
      var rest := Filter(xs[1..], keep);
      forall k | 0 <= k < |rest|
        ensures rest[k].id != xs[0].id
      {
        var j :| 0 <= j < |xs[1..]| && xs[1..][j] == rest[k];
        assert xs[j + 1] == rest[k];
      }
    }
  }

  lemma AddToRecentUniqueIds(recent: seq<FoodItem>, food: FoodItem)
    requires UniqueFoodIds(recent)
    ensures UniqueFoodIds(AddToRecent(recent, food))
  {
    var f := Filter(recent, OtherFood(food.id));
    FilterKeepsUniqueIds(recent, OtherFood(food.id));
    var r := AddToRecent(recent, food);
    forall i, j | 0 <= i < j < |r|
      ensures r[i].id != r[j].id
    {
      if i > 0 {
        assert r[i] == f[i - 1] && r[j] == f[j - 1];
      }
    }
  }

  /** The day a food is logged into: the current entry, or a fresh empty one. */
  function DayOrEmpty(s: State, user: UserProfile): (r: DailyNutrition)
    ensures s.currentDate in s.dailyEntries ==> r == s.dailyEntries[s.currentDate]
    ensures s.currentDate !in s.dailyEntries ==> r == EmptyDay(s.currentDate, user)
  {
    if s.currentDate in s.dailyEntries then s.dailyEntries[s.currentDate] else EmptyDay(s.currentDate, user)
  }

  /** `addFoodEntry`: nothing without a signed-in user; otherwise the food joins
      the meal of its type on the current date (which is created if needed),
      the day's total is recomputed and the food item becomes the most recent. */
  function AddFoodEntry(s: State, user: Option<UserProfile>, t: MealType, food: ConsumedFood,
                        mealId: string, now: Timestamp): (r: State)
    ensures user.None? ==> r == s
    ensures user.Some? ==>
              && r.currentDate == s.currentDate && r.favorites == s.favorites
              && r.currentDate in r.dailyEntries
              && r.recentFoods == AddToRecent(s.recentFoods, food.foodItem)
              && (forall d :: d != s.currentDate ==>
                    (d in r.dailyEntries <==> d in s.dailyEntries)
                    && (d in s.dailyEntries ==> r.dailyEntries[d] == s.dailyEntries[d]))
              && Consistent(r.dailyEntries[r.currentDate])
              && multiset(Flatten(r.dailyEntries[r.currentDate].meals))
                 == multiset(Flatten(DayOrEmpty(s, user.value).meals)) + multiset{food}
    ensures user.Some? ==>
              var day := DayOrEmpty(s, user.value);
              && r.dailyEntries[s.currentDate].meals == AddToMeals(day.meals, t, food, mealId, now)
              && r.dailyEntries[s.currentDate].(meals := day.meals, totalNutrition := day.totalNutrition) == day
    ensures user.Some? ==> r.(dailyEntries := s.dailyEntries, recentFoods := s.recentFoods) == s
    ensures Valid(s) ==> Valid(r)
  {
    match user
    case None => s
    case Some(u) =>
      var day := DayOrEmpty(s, u);
      var day' := Recomputed(day.(meals := AddToMeals(day.meals, t, food, mealId, now)));
      s.(dailyEntries := s.dailyEntries[s.currentDate := day'],
         recentFoods := AddToRecent(s.recentFoods, food.foodItem))
  }

  // -------------------------------------------------------- updating food

  /** `Partial<ConsumedFood>`: a field is `Some` when the update carries it. */
  datatype ConsumedPatch = ConsumedPatch(
    id: Option<string>,
    foodItem: Option<FoodItem>,
    quantity: Option<real>,
    servingSize: Option<ServingSize>,
    nutritionConsumed: Option<Nutrition>)

  /** `{ ...food, ...updates }`. */
  function Merge(f: ConsumedFood, p: ConsumedPatch): (r: ConsumedFood)
    ensures r.id == p.id.GetOr(f.id)
    ensures r.nutritionConsumed == p.nutritionConsumed.GetOr(f.nutritionConsumed)
  {
    ConsumedFood(
      p.id.GetOr(f.id), p.foodItem.GetOr(f.foodItem), p.quantity.GetOr(f.quantity),
      p.servingSize.GetOr(f.servingSize), p.nutritionConsumed.GetOr(f.nutritionConsumed))
  }

  /** An update carrying no fields changes nothing, and applying the same
      update twice is the same as applying it once. */
  lemma MergeLaws(f: ConsumedFood, p: ConsumedPatch)
    ensures Merge(f, ConsumedPatch(None, None, None, None, None)) == f
    ensures Merge(Merge(f, p), p) == Merge(f, p)
  {
  }

  /** The loop of `updateFoodEntry`: in the first meal holding a food with that
      id, the first such food is merged with the update, then the loop stops. */
  function UpdateInMeals(meals: seq<MealEntry>, id: string, p: ConsumedPatch): (r: seq<MealEntry>)
    ensures |r| == |meals|
    ensures forall k :: 0 <= k < |meals| ==>
              r[k].id == meals[k].id && r[k].mealType == meals[k].mealType
              && r[k].timestamp == meals[k].timestamp && r[k].location == meals[k].location
              && |r[k].foodItems| == |meals[k].foodItems|
  {
    if |meals| == 0 then []
    else match FindFood(meals[0].foodItems, id)
      case Some(j) =>
        var foods := meals[0].foodItems;
        [meals[0].(foodItems := foods[j := Merge(foods[j], p)])] + meals[1..]
      case None =>
        [meals[0]] + UpdateInMeals(meals[1..], id, p)
  }

  /** The search finds the first food carrying the id. */
  lemma FindFoodIs(foods: seq<ConsumedFood>, id: string, j: nat)
    requires j < |foods| && foods[j].id == id
    requires forall k :: 0 <= k < j ==> foods[k].id != id
    ensures FindFood(foods, id) == Some(j)
  {
  }

  lemma FindFoodConcat(a: seq<ConsumedFood>, b: seq<ConsumedFood>, id: string)
    ensures FindFood(a + b, id) ==
              if FindFood(a, id).Some? then FindFood(a, id)
              else match FindFood(b, id) case None => None case Some(k) => Some(|a| + k)
  {
    var ab := a + b;
    match FindFood(a, id)
    case Some(j) =>
      assert forall k :: 0 <= k <= j ==> ab[k] == a[k];
      FindFoodIs(ab, id, j);
    case None =>
      var stop := match FindFood(b, id) case None => |b| case Some(j) => j;
      forall k | 0 <= k < |a| + stop
        ensures ab[k].id != id
      {
        if k < |a| {
          assert ab[k] == a[k];
        } else {
          assert ab[k] == b[k - |a|];
        }
      }
      if FindFood(b, id).Some? {
        assert ab[|a| + stop] == b[stop];
        FindFoodIs(ab, id, |a| + stop);
      }
  }

  /** The reference for an update on a flat list of foods: the first food
      carrying the id is merged with the update, every other food stays. */
  function UpdateFirst(foods: seq<ConsumedFood>, id: string, p: ConsumedPatch): (r: seq<ConsumedFood>)
    ensures |r| == |foods|
  {
    match FindFood(foods, id)
    case None => foods
    case Some(k) => foods[k := Merge(foods[k], p)]
  }

  lemma UpdateFirstConcat(a: seq<ConsumedFood>, b: seq<ConsumedFood>, id: string, p: ConsumedPatch)
    ensures UpdateFirst(a + b, id, p) ==
              if FindFood(a, id).Some? then UpdateFirst(a, id, p) + b else a + UpdateFirst(b, id, p)
  {
    FindFoodConcat(a, b, id);
    match FindFood(a, id)
    case Some(j) =>
      assert (a + b)[j] == a[j];
      UpdateInConcat(a, b, j, Merge(a[j], p));
    case None =>
      match FindFood(b, id)
      case None =>
      case Some(k) =>
        assert (a + b)[|a| + k] == b[k];
        UpdateInConcat(a, b, |a| + k, Merge(b[k], p));
  }

  /** Seen through the flattened list, an update touches exactly the first food
      carrying the id, and nothing at all when no food carries it. */
  lemma {:induction false} UpdateInMealsFlatten(meals: seq<MealEntry>, id: string, p: ConsumedPatch)
    ensures Flatten(UpdateInMeals(meals, id, p)) == UpdateFirst(Flatten(meals), id, p)
  {
    if |meals| > 0 {
      var foods := meals[0].foodItems;
      var rest := Flatten(meals[1..]);
      assert Flatten(meals) == foods + rest;
      UpdateFirstConcat(foods, rest, id, p);
      var r := UpdateInMeals(meals, id, p);
      assert r[1..] == if FindFood(foods, id).Some? then meals[1..] else UpdateInMeals(meals[1..], id, p);
      assert Flatten(r) == r[0].foodItems + Flatten(r[1..]);
      if FindFood(foods, id).None? {
        UpdateInMealsFlatten(meals[1..], id, p);
      }
    }
  }

  /** `updateFoodEntry`: a no-op when the current date has no entry; otherwise
      the first food with that id is merged with the update and the day's total
      is recomputed (even when no food matched). */
  function UpdateFoodEntry(s: State, entryId: string, p: ConsumedPatch): (r: State)
    ensures s.currentDate !in s.dailyEntries ==> r == s
    ensures s.currentDate in s.dailyEntries ==> s.currentDate in r.dailyEntries
    ensures s.currentDate in s.dailyEntries ==>
              var before := s.dailyEntries[s.currentDate];
              var after := r.dailyEntries[s.currentDate];
              && r == s.(dailyEntries := s.dailyEntries[s.currentDate := after])
              && Consistent(after)
              && after.(meals := before.meals, totalNutrition := before.totalNutrition) == before
              && after.meals == UpdateInMeals(before.meals, entryId, p)
              && |after.meals| == |before.meals|
              && Flatten(after.meals) == UpdateFirst(Flatten(before.meals), entryId, p)
    ensures Valid(s) ==> Valid(r)
  {
    if s.currentDate !in s.dailyEntries then s
    else
      var day := s.dailyEntries[s.currentDate];
      UpdateInMealsFlatten(day.meals, entryId, p);
      var day' := Recomputed(day.(meals := UpdateInMeals(day.meals, entryId, p)));
      assert UniqueMealTypes(day.meals) ==> UniqueMealTypes(day'.meals);
      s.(dailyEntries := s.dailyEntries[s.currentDate := day'])
  }

  // -------------------------------------------------------- deleting food

  /** The meal edit of `deleteFoodEntry`: the first meal of the named type loses
      every food with that id; when the day has no such meal nothing changes. */
  function DeleteFromMeals(meals: seq<MealEntry>, id: string, t: MealType): (r: seq<MealEntry>)
    ensures FindMeal(meals, t).None? ==> r == meals
    ensures FindMeal(meals, t).Some? ==>
              var k := FindMeal(meals, t).value;
              && r == meals[k := meals[k].(foodItems := Filter(meals[k].foodItems, OtherEntry(id)))]
              && Flatten(r) == Flatten(meals[..k]) + Filter(meals[k].foodItems, OtherEntry(id))
                               + Flatten(meals[k + 1..])
    ensures UniqueMealTypes(meals) ==> UniqueMealTypes(r)
  {
    match FindMeal(meals, t)
    case None => meals
    case Some(k) =>
      var m := meals[k].(foodItems := Filter(meals[k].foodItems, OtherEntry(id)));
      FlattenReplace(meals, k, m);
      meals[k := m]
  }

  /** `deleteFoodEntry`: a no-op when the current date has no entry; otherwise
      the food is removed from the named meal only and the total recomputed. */
  function DeleteFoodEntry(s: State, entryId: string, t: MealType): (r: State)
    ensures s.currentDate !in s.dailyEntries ==> r == s
    ensures s.currentDate in s.dailyEntries ==> s.currentDate in r.dailyEntries
    ensures s.currentDate in s.dailyEntries ==>
              var before := s.dailyEntries[s.currentDate];
              var after := r.dailyEntries[s.currentDate];
              && r == s.(dailyEntries := s.dailyEntries[s.currentDate := after])
              && Consistent(after)
              && after.(meals := before.meals, totalNutrition := before.totalNutrition) == before
              && after.meals == DeleteFromMeals(before.meals, entryId, t)
    ensures Valid(s) ==> Valid(r)
  {
    if s.currentDate !in s.dailyEntries then s
    else
      var day := s.dailyEntries[s.currentDate];
      var day' := Recomputed(day.(meals := DeleteFromMeals(day.meals, entryId, t)));
      s.(dailyEntries := s.dailyEntries[s.currentDate := day'])
  }

  /** `find` by type only looks at the types of the meals. */
  lemma {:induction false} FindMealByTypes(a: seq<MealEntry>, b: seq<MealEntry>, t: MealType)
    requires |a| == |b|
    requires forall j :: 0 <= j < |a| ==> a[j].mealType == b[j].mealType
    ensures FindMeal(a, t) == FindMeal(b, t)
  {
    if |a| > 0 {
      FindMealByTypes(a[1..], b[1..], t);
    }
  }

  /** A meal appended after meals of other types is the one found for its type. */
  lemma FindAppendedMeal(meals: seq<MealEntry>, m: MealEntry)
    requires FindMeal(meals, m.mealType).None?
    ensures FindMeal(meals + [m], m.mealType) == Some(|meals|)
  {
    var added := meals + [m];
    assert forall j :: 0 <= j < |meals| ==> added[j] == meals[j];
    assert added[|meals|] == m;
  }

  lemma AddThenDeleteNewMeal(meals: seq<MealEntry>, t: MealType, food: ConsumedFood, mealId: string, now: Timestamp)
    requires FindMeal(meals, t).None?
    ensures Flatten(DeleteFromMeals(AddToMeals(meals, t, food, mealId, now), food.id, t)) == Flatten(meals)
  {
    var m := MealEntry(mealId, t, [food], now, None);
    var added := meals + [m];
    assert AddToMeals(meals, t, food, mealId, now) == added;
    FindAppendedMeal(meals, m);
    var n := |meals|;
    assert Filter([food], OtherEntry(food.id)) == [];
    assert added[..n] == meals;
    assert added[n + 1..] == [];
    assert Flatten(DeleteFromMeals(added, food.id, t)) == Flatten(meals) + [] + Flatten([]);
  }

  lemma FilterAppendFresh(foods: seq<ConsumedFood>, food: ConsumedFood)
    requires forall j :: 0 <= j < |foods| ==> foods[j].id != food.id
    ensures Filter(foods + [food], OtherEntry(food.id)) == foods
  {
    FilterConcat(foods, [food], OtherEntry(food.id));
    FilterKeepsAll(foods, OtherEntry(food.id));
    assert Filter([food], OtherEntry(food.id)) == [];
  }

  lemma AddThenDeleteOldMeal(meals: seq<MealEntry>, t: MealType, food: ConsumedFood, mealId: string, now: Timestamp)
    requires FindMeal(meals, t).Some?
    requires forall j :: 0 <= j < |meals[FindMeal(meals, t).value].foodItems| ==>
               meals[FindMeal(meals, t).value].foodItems[j].id != food.id
    ensures DeleteFromMeals(AddToMeals(meals, t, food, mealId, now), food.id, t) == meals
  {
    var k := FindMeal(meals, t).value;
    var foods := meals[k].foodItems;
    var added := AddToMeals(meals, t, food, mealId, now);
    FindMealByTypes(added, meals, t);
    FilterAppendFresh(foods, food);
    assert added[k].(foodItems := foods) == meals[k];
  }

  /** Deleting a freshly added food from the meal it went into gives back the
      flattened food list (the meal created for it, if any, stays, empty). */
  lemma AddThenDeleteMeals(meals: seq<MealEntry>, t: MealType, food: ConsumedFood, mealId: string, now: Timestamp)
    requires forall k :: 0 <= k < |Flatten(meals)| ==> Flatten(meals)[k].id != food.id
    ensures Flatten(DeleteFromMeals(AddToMeals(meals, t, food, mealId, now), food.id, t)) == Flatten(meals)
  {
    if FindMeal(meals, t).None? {
      AddThenDeleteNewMeal(meals, t, food, mealId, now);
    } else {
      FreshInMeal(meals, FindMeal(meals, t).value, food.id);
      AddThenDeleteOldMeal(meals, t, food, mealId, now);
    }
  }

  /** An id no food of the day uses is used by no food of any one meal. */
  lemma FreshInMeal(meals: seq<MealEntry>, k: nat, id: string)
    requires k < |meals|
    requires forall j :: 0 <= j < |Flatten(meals)| ==> Flatten(meals)[j].id != id
    ensures forall j :: 0 <= j < |meals[k].foodItems| ==> meals[k].foodItems[j].id != id
  {
    FlattenReplace(meals, k, meals[k]);
    var pre := Flatten(meals[..k]);
    forall j | 0 <= j < |meals[k].foodItems|
      ensures meals[k].foodItems[j].id != id
    {
      assert meals[k].foodItems[j] == Flatten(meals)[|pre| + j];
    }
  }

  /** Logging a food under an id the day does not use yet and then deleting it
      from the same meal gives back the day's foods, in order, and its total. */
  lemma AddThenDeleteRestoresDay(s: State, u: UserProfile, t: MealType, food: ConsumedFood,
                                 mealId: string, now: Timestamp)
    requires Consistent(DayOrEmpty(s, u))
    requires forall k :: 0 <= k < |Flatten(DayOrEmpty(s, u).meals)| ==>
               Flatten(DayOrEmpty(s, u).meals)[k].id != food.id
    ensures var r := DeleteFoodEntry(AddFoodEntry(s, Some(u), t, food, mealId, now), food.id, t);
            && Flatten(r.dailyEntries[s.currentDate].meals) == Flatten(DayOrEmpty(s, u).meals)
            && r.dailyEntries[s.currentDate].totalNutrition == DayOrEmpty(s, u).totalNutrition
  {
    AddThenDeleteMeals(DayOrEmpty(s, u).meals, t, food, mealId, now);
  }

  // ------------------------------------------------------------ favourites

  /** `addToFavorites` (in memory): nothing without a user or when a favourite
      with the same id exists; otherwise the food is appended. */
  function AddToFavorites(favs: seq<FoodItem>, user: Option<UserProfile>, food: FoodItem): (r: seq<FoodItem>)
    ensures user.None? ==> r == favs
    ensures (exists k :: 0 <= k < |favs| && favs[k].id == food.id) ==> r == favs
    ensures user.Some? && (forall k :: 0 <= k < |favs| ==> favs[k].id != food.id) ==> r == favs + [food]
  {
    if user.None? then favs
    else if exists k :: 0 <= k < |favs| && favs[k].id == food.id then favs
    else favs + [food]
  }

  /** `removeFromFavorites`: every favourite with that id goes, the rest keep
      their order. */
  function RemoveFromFavorites(favs: seq<FoodItem>, id: string): (r: seq<FoodItem>)
    ensures forall k :: 0 <= k < |r| ==> r[k].id != id
    ensures forall k :: 0 <= k < |favs| && favs[k].id != id ==> favs[k] in r
    ensures forall k :: 0 <= k < |r| ==> r[k] in favs
    ensures forall f :: multiset(r)[f] == if f.id != id then multiset(favs)[f] else 0
  {
    FilterMultiset(favs, OtherFood(id));
    Filter(favs, OtherFood(id))
  }

  /** Removal works piecewise: removing from two lists joined is removing from
      each and joining the results, so the kept favourites keep their order. */
  lemma RemoveFromFavoritesConcat(a: seq<FoodItem>, b: seq<FoodItem>, id: string)
    ensures RemoveFromFavorites(a + b, id) == RemoveFromFavorites(a, id) + RemoveFromFavorites(b, id)
  {
    FilterConcat(a, b, OtherFood(id));
  }

  /** The favourites never hold two foods with one id. */
  lemma AddToFavoritesUniqueIds(favs: seq<FoodItem>, user: Option<UserProfile>, food: FoodItem)
    requires UniqueFoodIds(favs)
    ensures UniqueFoodIds(AddToFavorites(favs, user, food))
  {
  }

  /** Adding a new favourite and removing it again restores the list. */
  lemma AddThenRemoveFavorite(favs: seq<FoodItem>, u: UserProfile, food: FoodItem)
    requires forall k :: 0 <= k < |favs| ==> favs[k].id != food.id
    ensures RemoveFromFavorites(AddToFavorites(favs, Some(u), food), food.id) == favs
  {
    FilterConcat(favs, [food], OtherFood(food.id));
    FilterKeepsAll(favs, OtherFood(food.id));
    assert Filter([food], OtherFood(food.id)) == [];
  }

  // ------------------------------------------------------- day entry & water

  /** `updateWaterIntake`: the current day's intake is replaced by `amount`;
      nothing changes when the day has no entry. */
  function UpdateWaterIntake(s: State, amount: real): (r: State)
    ensures s.currentDate !in s.dailyEntries ==> r == s
    ensures s.currentDate in s.dailyEntries ==>
              r == s.(dailyEntries := s.dailyEntries[s.currentDate :=
                        s.dailyEntries[s.currentDate].(waterIntake := amount)])
    ensures Valid(s) ==> Valid(r)
  {
    if s.currentDate !in s.dailyEntries then s
    else
      var day := s.dailyEntries[s.currentDate];
      s.(dailyEntries := s.dailyEntries[s.currentDate := day.(waterIntake := amount)])
  }

  /** `calculateDailyNutrition`: the stored total, or zeros for a date without
      an entry; in a valid state it is the total over the day's foods. */
  function CalculateDailyNutrition(s: State, date: string): (r: Nutrition)
    ensures date !in s.dailyEntries ==> r == ZeroNutrition
    ensures Valid(s) && date in s.dailyEntries ==> r == TotalNutrition(Flatten(s.dailyEntries[date].meals))
  {
    if date in s.dailyEntries then s.dailyEntries[date].totalNutrition else ZeroNutrition
  }

  /** `getDailyEntry`. */
  function GetDailyEntry(s: State, date: string): (r: Option<DailyNutrition>)
    ensures r.Some? <==> date in s.dailyEntries
    ensures r.Some? ==> r.value == s.dailyEntries[date]
  {
    if date in s.dailyEntries then Some(s.dailyEntries[date]) else None
  }

  /** `loadDailyEntry`: a zeroed entry carrying the user's calorie goal is created
      only for a date without one and only with a signed-in user; an existing
      entry is never replaced. */
  function LoadDailyEntry(s: State, date: string, user: Option<UserProfile>): (r: State)
    ensures date in s.dailyEntries || user.None? ==> r == s
    ensures date !in s.dailyEntries && user.Some? ==>
              r == s.(dailyEntries := s.dailyEntries[date := EmptyDay(date, user.value)])
    ensures date in r.dailyEntries <==> date in s.dailyEntries || user.Some?
    ensures Valid(s) ==> Valid(r)
  {
    if date !in s.dailyEntries && user.Some? then
      s.(dailyEntries := s.dailyEntries[date := EmptyDay(date, user.value)])
    else s
  }

  lemma LoadDailyEntryIdempotent(s: State, date: string, user: Option<UserProfile>)
    ensures LoadDailyEntry(LoadDailyEntry(s, date, user), date, user) == LoadDailyEntry(s, date, user)
  {
  }

  /** `setCurrentDate`: moves to the date and loads its entry. */
  function SetCurrentDate(s: State, date: string, user: Option<UserProfile>): (r: State)
    ensures r.currentDate == date
    ensures user.Some? ==> date in r.dailyEntries
    ensures date in s.dailyEntries ==> r.dailyEntries == s.dailyEntries
    ensures r == s.(currentDate := date,
                    dailyEntries := if date !in s.dailyEntries && user.Some?
                                    then s.dailyEntries[date := EmptyDay(date, user.value)]
                                    else s.dailyEntries)
    ensures Valid(s) ==> Valid(r)
  {
    LoadDailyEntry(s.(currentDate := date), date, user)
  }

  /** Visiting another date and coming back only leaves that date's entry
      loaded. */
  lemma SetCurrentDateAndBack(s: State, date: string, user: Option<UserProfile>)
    requires s.currentDate in s.dailyEntries
    ensures SetCurrentDate(SetCurrentDate(s, date, user), s.currentDate, user)
              == LoadDailyEntry(s, date, user)
  {
  }
}

=== FILE: pipeline.dfy ===
/** The client and the recognition function together: what each kind of
    client request makes the function do, and how the client reads the
    function's successful replies. The body is taken to arrive as the value
    the client built (JSON encoding on the wire is not modelled). */
module Pipeline {
  import opened Wrappers
  import opened Text
  import opened Json
  import opened Types
  import opened ProcessV
  import opened FoodInput

  /** Text and audio are analysed as text, images as images, and a barcode
      request carries neither input, so routing always refuses it with the
      400 reply. This is the routing step only: `Handle` first rejects a body
      that fails to parse and stops on a failure to fetch the model's secret,
      so its full response is that 400 reply only when neither happens (see
      the `NoInputResponse` clause of `Handle`). */
  lemma RequestsRoute(h: Host, kind: InputType, content: string)
    requires content != ""
    ensures kind.TextInput? || kind.AudioInput? ==>
              RouteInput(h, RequestBody(kind, content)) == Send(TextRequest(content))
    ensures kind.ImageInput? ==> RouteInput(h, RequestBody(kind, content)) == Send(ImageRequest(content))
    ensures kind.BarcodeInput? ==> RouteInput(h, RequestBody(kind, content)) == Reject(NoInputResponse)
  {
    var body := RequestBody(kind, content);
    assert Truthy(Some(JStr(content)));
  }

  /** Every successful reply of the function is accepted by the client,
      unless its first item is `null`. */
  lemma RepliesAccepted(h: Host, payload: Json, stamp: nat, now: Timestamp)
    requires HasItems(payload)
    ensures var first := Prop(payload, "items").value.elems[0];
            ParseLambdaResponse(h, Some(payload), stamp, now).success <==> !first.JNull?
  {
    var items := Prop(payload, "items").value;
    assert Prop(items, "length") == Some(JNum(|items.elems| as real));
    assert At(items, 0) == Some(items.elems[0]);
  }

  /** The client's reading of the "Unknown Food Item" fallback. */
  lemma UnknownFoodItemRead(h: Host, raw: string, stamp: nat, now: Timestamp)
    ensures var r := ParseLambdaResponse(h, Some(ParseFallback(raw)), stamp, now);
            && r.success && r.confidence == Some(0.9)
            && r.foodItem.value.name == "Unknown Food Item"
            && r.foodItem.value.brand == Some("Generic")
            && r.foodItem.value.category == OtherCategory
            && r.foodItem.value.nutritionPer100g.calories == 100.0
            && r.foodItem.value.nutritionPer100g.protein == h.parseFloat("2g").GetOr(0.0)
            && r.foodItem.value.servingSizes == [ServingSize("1", "1 serving", 100.0, Gram)]
  {
    var payload := ParseFallback(raw);
    ParseFallbackFields(raw);
    RepliesAccepted(h, payload, stamp, now);
    var items := Prop(payload, "items").value;
    assert At(items, 0) == Some(UnknownFoodItem);
    var f := ItemOf(h, UnknownFoodItem, stamp, now);
    assert ParseLambdaResponse(h, Some(payload), stamp, now) == InputResult(true, Some(f), None, Some(0.9));
    FactsRead(h, "Unknown Food Item", 100.0, "2g", "15g", "3g", "1g", "2g", "150mg");
    var v := UnknownFoodItem;
    assert Prop(v, "name") == Some(JStr("Unknown Food Item")) && Truthy(Prop(v, "name"));
    assert Prop(v, "brand") == Some(JStr("Generic")) && Truthy(Prop(v, "brand"));
    assert Prop(v, "calories") == Some(JNum(100.0)) && Truthy(Prop(v, "calories"));
    assert Prop(v, "serving_size") == Some(JStr("1 serving")) && Truthy(Prop(v, "serving_size"));
    assert f.name == "Unknown Food Item";
    assert f.brand == Some("Generic");
    assert f.nutritionPer100g.calories == 100.0;
    assert f.servingSizes[0].name == "1 serving";
  }

  /** The fields of a fallback item as the client reads them. */
  lemma FactsRead(h: Host, name: string, calories: real, protein: string, carbs: string, fat: string,
                  fiber: string, sugar: string, sodium: string)
    ensures var v := FoodFacts(name, calories, protein, carbs, fat, fiber, sugar, sodium);
            && Prop(v, "name") == Some(JStr(name))
            && Prop(v, "brand") == Some(JStr("Generic"))
            && Prop(v, "category").None?
            && Prop(v, "calories") == Some(JNum(calories))
            && Prop(v, "protein") == Some(JStr(protein))
            && Prop(v, "serving_size") == Some(JStr("1 serving"))
  {
    var fs := FoodFacts(name, calories, protein, carbs, fat, fiber, sugar, sodium).fields;
    FactsShape(name, calories, protein, carbs, fat, fiber, sugar, sodium);
    BrandRead(fs);
    ServingRead(fs);
    CaloriesRead(fs);
    ProteinRead(fs);
    CategoryAbsent(fs);
  }

  /** The field names of a fallback item, in order. */
  predicate FallbackNames(fs: seq<(string, Json)>) {
    && |fs| == 10
    && fs[0].0 == "name" && fs[1].0 == "brand" && fs[2].0 == "serving_size" && fs[3].0 == "calories"
    && fs[4].0 == "protein" && fs[5].0 == "carbs" && fs[6].0 == "fat" && fs[7].0 == "fiber"
    && fs[8].0 == "sugar" && fs[9].0 == "sodium"
  }

  lemma FactsShape(name: string, calories: real, protein: string, carbs: string, fat: string,
                   fiber: string, sugar: string, sodium: string)
    ensures FallbackNames(FoodFacts(name, calories, protein, carbs, fat, fiber, sugar, sodium).fields)
  {
  }

  lemma BrandRead(fs: seq<(string, Json)>)
    requires FallbackNames(fs)
    ensures Lookup(fs, "brand") == Some(fs[1].1)
  {
    assert fs[0].0 != "brand";
    assert Lookup(fs, "brand") == Lookup(fs[1..], "brand");
    assert fs[1..][0] == fs[1];
  }

  lemma ServingRead(fs: seq<(string, Json)>)
    requires FallbackNames(fs)
    ensures Lookup(fs, "serving_size") == Some(fs[2].1)
  {
    var key := "serving_size";
    assert fs[0].0 != key && fs[1].0 != key;
    assert Lookup(fs, key) == Lookup(fs[1..], key) == Lookup(fs[2..], key);
    assert fs[2..][0] == fs[2];
  }

  lemma CaloriesRead(fs: seq<(string, Json)>)
    requires FallbackNames(fs)
    ensures Lookup(fs, "calories") == Some(fs[3].1)
  {
    var key := "calories";
    assert fs[0].0 != key && fs[1].0 != key && fs[2].0 != key;
    assert Lookup(fs, key) == Lookup(fs[1..], key) == Lookup(fs[2..], key) == Lookup(fs[3..], key);
    assert fs[3..][0] == fs[3];
  }

  lemma ProteinRead(fs: seq<(string, Json)>)
    requires FallbackNames(fs)
    ensures Lookup(fs, "protein") == Some(fs[4].1)
  {
    var key := "protein";
    assert fs[0].0 != key && fs[1].0 != key && fs[2].0 != key && fs[3].0 != key;
    assert Lookup(fs, key) == Lookup(fs[1..], key) == Lookup(fs[2..], key) == Lookup(fs[3..], key)
        == Lookup(fs[4..], key);
    assert fs[4..][0] == fs[4];
  }

  /** No field of a fallback item is named `category`. */
  lemma CategoryAbsent(fs: seq<(string, Json)>)
    requires FallbackNames(fs)
    ensures Lookup(fs, "category").None?
  {
    var key := "category";
    assert fs[0].0 != key && fs[1].0 != key && fs[2].0 != key && fs[3].0 != key && fs[4].0 != key;
    assert fs[5].0 != key && fs[6].0 != key && fs[7].0 != key && fs[8].0 != key && fs[9].0 != key;
    assert Lookup(fs, key) == Lookup(fs[1..], key) == Lookup(fs[2..], key) == Lookup(fs[3..], key)
        == Lookup(fs[4..], key) == Lookup(fs[5..], key);
    assert Lookup(fs[5..], key) == Lookup(fs[6..], key) == Lookup(fs[7..], key) == Lookup(fs[8..], key)
        == Lookup(fs[9..], key) == Lookup(fs[10..], key);
  }
}

=== FILE: process_v.dfy ===
/** The food-recognition function (`processV`): validates the request body,
    chooses between image analysis and text analysis, cleans the model's
    reply, substitutes a fallback payload when the reply is unusable, and maps
    errors to responses.

    The secret lookup and the model call are external services: their
    outcomes are parameters. Errors the JavaScript engine raises itself
    (`SyntaxError` from `JSON.parse`, `TypeError` from reading a property of
    `null`) carry no status; their message text is not modelled. */
module ProcessV {
  import opened Wrappers
  import opened Text
  import opened Json
  import opened ReplyCleaning

  /** The part of the API Gateway event the handler reads; `None` is a
      missing body. */
  datatype Event = Event(body: Option<Json>)

  /** The model request: image analysis wins over text analysis. */
  datatype Request = ImageRequest(base64Image: string) | TextRequest(transcription: string)

  /** A thrown error: its `status` (set by the model client) and `message`. */
  datatype Failure = Failure(status: Option<int>, message: Option<string>)

  /** An error raised by the engine itself. */
  const EngineError := Failure(None, None)

  datatype Response = Response(statusCode: int, headers: seq<(string, string)>, body: Json)

  const Cors: seq<(string, string)> := [("Access-Control-Allow-Origin", "*")]
  const JsonHeaders: seq<(string, string)> := Cors + [("Content-Type", "application/json")]

  const InvalidBodyResponse := Response(400, Cors, JObj([("error", JStr("Invalid request body"))]))
  const NoInputResponse :=
    Response(400, Cors, JObj([("message", JStr("No transcription or image provided."))]))

  /** A string body that `JSON.parse` rejects. Other bodies pass this check:
      an object body is taken as is and a missing or empty one falls back to
      the event. */
  predicate BodyRejected(h: Host, e: Event) {
    Truthy(e.body) && e.body.value.JStr? && h.parse(e.body.value.s).None?
  }

  /** `JSON.parse(event.body)` inside the main block: the body is converted to
      text first, and a missing body makes the parse throw. */
  function ReadInput(h: Host, e: Event): (r: Result<Json, Failure>)
    ensures e.body.None? ==> r == Err(EngineError)
    ensures e.body.Some? ==> (r.Ok? <==> h.parse(TextOf(h, e.body.value)).Some?)
    ensures r.Ok? ==> Some(r.value) == h.parse(TextOf(h, e.body.value))
    ensures r.Err? ==> r.error == EngineError
  {
    match e.body
    case None => Err(EngineError)
    case Some(b) =>
      match h.parse(TextOf(h, b))
      case None => Err(EngineError)
      case Some(j) => Ok(j)
  }

  /** What the parsed input leads to: a model request, the "no input"
      response, or a thrown error. */
  datatype Routed = Send(req: Request) | Reject(resp: Response) | Throw(failure: Failure)

  /** The destructuring of `{ transcription, base64Image }` and the choice of
      request; destructuring `null` throws. */
  function RouteInput(h: Host, input: Json): (r: Routed)
    ensures input.JNull? <==> r.Throw?
    ensures r.Reject? <==>
              !input.JNull? && !Truthy(Prop(input, "transcription")) && !Truthy(Prop(input, "base64Image"))
    ensures r.Reject? ==> r.resp == NoInputResponse
    ensures r.Send? ==> (r.req.ImageRequest? <==> Truthy(Prop(input, "base64Image")))
    ensures r.Send? && r.req.ImageRequest? ==>
              r.req.base64Image == TextOf(h, Prop(input, "base64Image").value)
    ensures r.Send? && r.req.TextRequest? ==>
              r.req.transcription == TextOf(h, Prop(input, "transcription").value)
  {
    if input.JNull? then Throw(EngineError)
    else
      var transcription := Prop(input, "transcription");
      var image := Prop(input, "base64Image");
      if !Truthy(transcription) && !Truthy(image) then Reject(NoInputResponse)
      else if Truthy(image) then Send(ImageRequest(TextOf(h, image.value)))
      else Send(TextRequest(TextOf(h, transcription.value)))
  }

  /** One recognised food in the shape the prompt asks for. */
  function FoodFacts(name: string, calories: real, protein: string, carbs: string, fat: string,
                     fiber: string, sugar: string, sodium: string): Json
  {
    JObj([("name", JStr(name)), ("brand", JStr("Generic")), ("serving_size", JStr("1 serving")),
          ("calories", JNum(calories)), ("protein", JStr(protein)), ("carbs", JStr(carbs)),
          ("fat", JStr(fat)), ("fiber", JStr(fiber)), ("sugar", JStr(sugar)), ("sodium", JStr(sodium))])
  }

  const UnknownFoodItem := FoodFacts("Unknown Food Item", 100.0, "2g", "15g", "3g", "1g", "2g", "150mg")
  const UnidentifiedFood := FoodFacts("Unidentified Food", 150.0, "3g", "20g", "5g", "2g", "3g", "200mg")

  /** The payload substituted when the cleaned reply is not JSON. */
  function ParseFallback(raw: string): Json {
    JObj([("items", JArr([UnknownFoodItem])),
          ("debug_info", JObj([("raw_response", JStr(raw)),
                               ("error", JStr("Failed to parse OpenAI response as JSON"))]))])
  }

  /** The payload substituted when the parsed reply has no usable `items`. */
  function ShapeFallback(raw: string, original: Json): Json {
    JObj([("items", JArr([UnidentifiedFood])),
          ("debug_info", JObj([("raw_response", JStr(raw)), ("original_structure", original),
                               ("error", JStr("Response missing items array"))]))])
  }

  /** `items` is a non-empty array. */
  predicate HasItems(v: Json) {
    var items := Prop(v, "items");
    items.Some? && items.value.JArr? && |items.value.elems| > 0
  }

  /** The parse fallback carries one item and records the failed text. */
  lemma ParseFallbackFields(raw: string)
    ensures Prop(ParseFallback(raw), "items") == Some(JArr([UnknownFoodItem]))
    ensures Prop(ParseFallback(raw), "debug_info")
              == Some(JObj([("raw_response", JStr(raw)),
                            ("error", JStr("Failed to parse OpenAI response as JSON"))]))
    ensures HasItems(ParseFallback(raw))
  {
    var debug := JObj([("raw_response", JStr(raw)), ("error", JStr("Failed to parse OpenAI response as JSON"))]);
    assert "debug_info" != "items" by { assert |"debug_info"| != |"items"|; }
    LookupPair("items", JArr([UnknownFoodItem]), "debug_info", debug, "items");
    LookupPair("items", JArr([UnknownFoodItem]), "debug_info", debug, "debug_info");
  }

  /** The shape fallback carries one item and keeps the rejected structure. */
  lemma ShapeFallbackFields(raw: string, original: Json)
    ensures Prop(ShapeFallback(raw, original), "items") == Some(JArr([UnidentifiedFood]))
    ensures HasItems(ShapeFallback(raw, original))
  {
    var debug := JObj([("raw_response", JStr(raw)), ("original_structure", original),
                       ("error", JStr("Response missing items array"))]);
    assert "debug_info" != "items" by { assert |"debug_info"| != |"items"|; }
    LookupPair("items", JArr([UnidentifiedFood]), "debug_info", debug, "items");
  }

  /** The reply text as the handler parses it: cleaned, then cut to the
      outermost braces. */
  function ReplyText(content: string): (r: string)
    ensures '`' !in r && '*' !in r && '#' !in r
    ensures forall x :: x in r ==> x in content
  {
    ExtractSpan(Clean(content))
  }

  /** Turns the model's reply into the payload: parse the cleaned text, fall
      back when it is not JSON, then fall back again when it has no usable
      `items`. Reading `items` of a parsed `null` throws. */
  function Interpret(h: Host, content: string): (r: Result<Json, Failure>)
    ensures r.Ok? ==> HasItems(r.value)
    ensures r.Err? <==> h.parse(ReplyText(content)) == Some(JNull)
    ensures r.Err? ==> r.error == EngineError
    ensures h.parse(ReplyText(content)).None? ==> r == Ok(ParseFallback(ReplyText(content)))
    ensures forall v :: h.parse(ReplyText(content)) == Some(v) && HasItems(v) ==> r == Ok(v)
    ensures forall v :: h.parse(ReplyText(content)) == Some(v) && !v.JNull? && !HasItems(v) ==>
                          r == Ok(ShapeFallback(ReplyText(content), v))
  {
    var text := ReplyText(content);
    ParseFallbackFields(text);
    var parsed := match h.parse(text) case None => ParseFallback(text) case Some(v) => v;
    ShapeFallbackFields(text, parsed);
    if parsed.JNull? then Err(EngineError)
    else if HasItems(parsed) then Ok(parsed)
    else Ok(ShapeFallback(text, parsed))
  }

  /** The message for a thrown error, chosen by its status. */
  function ErrorMessage(status: Option<int>): string {
    if status == Some(401) then "Invalid OpenAI API key. Please check your API key."
    else if status == Some(429) then "OpenAI API rate limit exceeded. Please try again later."
    else if status == Some(400) then "Invalid request to OpenAI API. The image might be too large."
    else "Error processing your request with OpenAI."
  }

  /** The catch block: every thrown error becomes a 500 whose `message` names
      the error class and whose `details` repeat the error's own message. */
  function ErrorResponse(f: Failure): (r: Response)
    ensures r.statusCode == 500 && r.headers == Cors
    ensures Prop(r.body, "message") == Some(JStr(ErrorMessage(f.status)))
    ensures f.message.Some? ==> Prop(r.body, "details") == Some(JStr(f.message.value))
    ensures f.message.None? ==> Prop(r.body, "details").None?
    ensures !HasItems(r.body)
  {
    var message := ("message", JStr(ErrorMessage(f.status)));
    assert "details" != "message" && "details" != "items" && "message" != "items" by {
      assert "details"[0] != "message"[0];
      assert |"details"| != |"items"| && |"message"| != |"items"|;
    }
    LookupPair("message", message.1, "details", JStr(f.message.GetOr("")), "message");
    LookupPair("message", message.1, "details", JStr(f.message.GetOr("")), "details");
    LookupPair("message", message.1, "details", JStr(f.message.GetOr("")), "items");
    match f.message
    case None => Response(500, Cors, JObj([message]))
    case Some(m) => Response(500, Cors, JObj([message, ("details", JStr(m))]))
  }

  /** The response to a model outcome: an error, a `null` content (whose
      cleaning throws), or content to interpret. */
  function Respond(h: Host, outcome: Result<Option<string>, Failure>): (r: Response)
    ensures r.statusCode == 200 || r.statusCode == 500
    ensures r.statusCode == 200 ==> HasItems(r.body) && r.headers == JsonHeaders
    ensures r.statusCode == 500 ==> r.headers == Cors && !HasItems(r.body)
  {
    match outcome
    case Err(f) => ErrorResponse(f)
    case Ok(None) => ErrorResponse(EngineError)
    case Ok(Some(content)) =>
      match Interpret(h, content)
      case Err(f) => ErrorResponse(f)
      case Ok(payload) => Response(200, JsonHeaders, payload)
  }

  /** The handler. `secret` is the failure of the key lookup, if any; `model`
      answers a request with the reply content or a failure. */
  function Handle(h: Host, e: Event, secret: Option<Failure>,
                  model: Request -> Result<Option<string>, Failure>): (r: Response)
    ensures r.statusCode == 200 || r.statusCode == 400 || r.statusCode == 500
    ensures r.statusCode == 200 ==> HasItems(r.body) && r.headers == JsonHeaders
    ensures r.statusCode != 200 ==> r.headers == Cors
    ensures r.statusCode == 400 ==> r == InvalidBodyResponse || r == NoInputResponse
    ensures r == InvalidBodyResponse <==> BodyRejected(h, e)
    ensures r == NoInputResponse <==>
              && !BodyRejected(h, e) && secret.None? && ReadInput(h, e).Ok?
              && RouteInput(h, ReadInput(h, e).value).Reject?
  {
    if BodyRejected(h, e) then InvalidBodyResponse
    else if secret.Some? then ErrorResponse(secret.value)
    else
      match ReadInput(h, e)
      case Err(f) => ErrorResponse(f)
      case Ok(input) =>
        match RouteInput(h, input)
        case Throw(f) => ErrorResponse(f)
        case Reject(resp) => resp
        case Send(req) => Respond(h, model(req))
  }

  /** A body carrying both inputs is analysed as an image. */
  lemma ImageWins(h: Host, e: Event, model: Request -> Result<Option<string>, Failure>, input: Json)
    requires !BodyRejected(h, e) && ReadInput(h, e) == Ok(input)
    requires Truthy(Prop(input, "transcription")) && Truthy(Prop(input, "base64Image"))
    ensures Handle(h, e, None, model)
              == Respond(h, model(ImageRequest(TextOf(h, Prop(input, "base64Image").value))))
  {
  }

  /** A well-formed reply is passed through unchanged. */
  lemma ReplyPassedThrough(h: Host, content: string, v: Json)
    requires h.parse(ReplyText(content)) == Some(v) && HasItems(v)
    ensures Respond(h, Ok(Some(content))) == Response(200, JsonHeaders, v)
  {
  }

  /** A reply that is not JSON gives the "Unknown Food Item" payload, and its
      debug information holds the text that failed to parse. */
  lemma UnparseableReply(h: Host, content: string)
    requires h.parse(ReplyText(content)).None?
    ensures var r := Respond(h, Ok(Some(content)));
            && r.statusCode == 200
            && Prop(r.body, "items") == Some(JArr([UnknownFoodItem]))
            && Prop(r.body, "debug_info")
                 == Some(JObj([("raw_response", JStr(ReplyText(content))),
                               ("error", JStr("Failed to parse OpenAI response as JSON"))]))
  {
    var text := ReplyText(content);
    ParseFallbackFields(text);
    assert Interpret(h, content) == Ok(ParseFallback(text));
  }
}

=== FILE: reply_cleaning.dfy ===
/** The text clean-up the recognition function applies to the model's reply
    before parsing it: markdown fences, backticks, asterisks and hashes are
    removed, runs of line breaks collapse to one, the ends are trimmed, and
    when a `{` is followed somewhere by a `}` the text is cut down to the span
    from the first `{` to the last `}` (the greedy match of `/\{[\s\S]*\}/`). */
module ReplyCleaning {
  import opened Wrappers
  import opened Text

  /** `s.replace(/pat/g, '')` for a literal pattern: occurrences are found
      left to right and each search resumes after the previous removal. */
  function RemoveAll(s: string, pat: string): (r: string)
    requires |pat| > 0
    ensures |r| <= |s|
    ensures forall x :: x in r ==> x in s
    decreases |s|
  {
    if |s| == 0 then ""
    else if pat <= s then RemoveAll(s[|pat|..], pat)
    else [s[0]] + RemoveAll(s[1..], pat)
  }

  /** `s.replace(/c/g, '')`, and also `s.replace(/c+/g, '')`: every
      occurrence of `c` is deleted and nothing else changes. */
  function DropChar(s: string, c: char): (r: string)
    ensures c !in r
    ensures forall x :: x in r <==> x in s && x != c
    ensures forall x :: x != c ==> multiset(r)[x] == multiset(s)[x]
    ensures |r| <= |s|
  {
    if |s| == 0 then ""
    else
      assert s == [s[0]] + s[1..];
      if s[0] == c then DropChar(s[1..], c)
      else [s[0]] + DropChar(s[1..], c)
  }

  /** Deletion works piecewise, so the characters kept stay in their order. */
  lemma {:induction false} DropCharConcat(a: string, b: string, c: char)
    ensures DropChar(a + b, c) == DropChar(a, c) + DropChar(b, c)
  {
    if |a| > 0 {
      assert (a + b)[0] == a[0] && (a + b)[1..] == a[1..] + b;
      DropCharConcat(a[1..], b, c);
    } else {
      assert a + b == b;
    }
  }

  predicate NoDoubleNewline(s: string) {
    forall k :: 0 <= k < |s| - 1 ==> !(s[k] == '\n' && s[k + 1] == '\n')
  }

  /** `s.replace(/\n+/g, '\n')`: a line break followed by another is dropped,
      which leaves one line break per run. */
  function CollapseNewlines(s: string): (r: string)
    ensures NoDoubleNewline(r)
    ensures forall x :: x in r <==> x in s
    ensures |s| > 0 ==> |r| > 0 && r[0] == s[0]
    ensures |r| <= |s|
  {
    if |s| == 0 then ""
    else if |s| >= 2 && s[0] == '\n' && s[1] == '\n' then CollapseNewlines(s[1..])
    else
      var rest := CollapseNewlines(s[1..]);
      assert forall x :: x in s <==> x == s[0] || x in s[1..] by {
        assert s == [s[0]] + s[1..];
      }
      [s[0]] + rest
  }

  /** What cleaning leaves: no backtick, asterisk or hash, no two line breaks
      in a row, and no whitespace at either end. */
  predicate Settled(s: string) {
    && '`' !in s && '*' !in s && '#' !in s
    && NoDoubleNewline(s)
    && (|s| > 0 ==> !IsJsWhitespace(s[0]) && !IsJsWhitespace(s[|s| - 1]))
  }

  /** A slice keeps the absence of a character and of doubled line breaks. */
  lemma SliceKeeps(s: string, i: nat, j: nat)
    requires i <= j <= |s|
    requires NoDoubleNewline(s)
    ensures NoDoubleNewline(s[i..j])
    ensures forall x :: x in s[i..j] ==> x in s
  {
    var t := s[i..j];
    forall k | 0 <= k < |t| - 1
      ensures !(t[k] == '\n' && t[k + 1] == '\n')
    {
      assert t[k] == s[i + k] && t[k + 1] == s[i + k + 1];
    }
  }

  /** The cleaning chain of the recognition function, step by step. */
  function Clean(s: string): (r: string)
    ensures Settled(r)
    ensures forall x :: x in r ==> x in s
    ensures Plain(s) ==> r == Trim(CollapseNewlines(s))
  {
    CleanPlain(s);
    var a := RemoveAll(s, "```json");
    var b := RemoveAll(a, "```");
    var c := DropChar(b, '`');
    var d := DropChar(c, '*');
    var e := DropChar(d, '#');
    var f := CollapseNewlines(e);
    var r := Trim(f);
    var i, j :| 0 <= i <= j <= |f| && r == f[i..j];
    SliceKeeps(f, i, j);
    r
  }

  /** A reply with no backtick, asterisk or hash: nothing in it is markdown. */
  predicate Plain(s: string) {
    '`' !in s && '*' !in s && '#' !in s
  }

  /** On a plain reply the markdown removals change nothing, so only the
      line-break collapse and the trim act. */
  lemma CleanPlain(s: string)
    ensures Plain(s) ==>
              CollapseNewlines(DropChar(DropChar(DropChar(RemoveAll(RemoveAll(s, "```json"), "```"), '`'), '*'), '#'))
                == CollapseNewlines(s)
  {
    if Plain(s) {
      RemoveAllAbsent(s, "```json");
      RemoveAllAbsent(s, "```");
      DropCharAbsent(s, '`');
      DropCharAbsent(s, '*');
      DropCharAbsent(s, '#');
    }
  }

  lemma {:induction false} RemoveAllAbsent(s: string, pat: string)
    requires |pat| > 0 && pat[0] !in s
    ensures RemoveAll(s, pat) == s
    decreases |s|
  {
    if |s| > 0 {
      assert !(pat <= s) by { assert s[0] != pat[0]; }
      RemoveAllAbsent(s[1..], pat);
      assert s == [s[0]] + s[1..];
    }
  }

  /** A stretch without the pattern's first character passes through the
      removal untouched. */
  lemma {:induction false} RemoveAllAfterPlain(x: string, y: string, pat: string)
    requires |pat| > 0 && pat[0] !in x
    ensures RemoveAll(x + y, pat) == x + RemoveAll(y, pat)
    decreases |x|
  {
    if |x| > 0 {
      assert (x + y)[0] == x[0] && (x + y)[1..] == x[1..] + y;
      assert !(pat <= x + y) by { assert (x + y)[0] != pat[0]; }
      RemoveAllAfterPlain(x[1..], y, pat);
      assert x == [x[0]] + x[1..];
    } else {
      assert x + y == y;
    }
  }

  /** A model reply in a `json` fence around plain text cleans to that text,
      collapsed and trimmed: both fence markers go and nothing else does. */
  lemma CleanFenced(x: string)
    requires Plain(x)
    ensures Clean("```json" + x + "```") == Trim(CollapseNewlines(x))
  {
    var s := "```json" + x + "```";
    assert "```json" <= s && s[7..] == x + "```";
    assert RemoveAll(s, "```json") == RemoveAll(x + "```", "```json");
    RemoveAllAfterPlain(x, "```", "```json");
    assert RemoveAll("```", "```json") == "```" by {
      assert RemoveAll("", "```json") == "";
      assert RemoveAll("`", "```json") == "`";
      assert RemoveAll("``", "```json") == "``";
    }
    RemoveAllAfterPlain(x, "```", "```");
    assert RemoveAll("```", "```") == "" by {
      assert RemoveAll("", "```") == "";
    }
    assert x + "" == x;
    DropCharAbsent(x, '`');
    DropCharAbsent(x, '*');
    DropCharAbsent(x, '#');
  }

  lemma {:induction false} DropCharAbsent(s: string, c: char)
    requires c !in s
    ensures DropChar(s, c) == s
  {
    if |s| > 0 {
      assert s[0] != c;
      DropCharAbsent(s[1..], c);
      assert s == [s[0]] + s[1..];
    }
  }

  lemma {:induction false} CollapseSingle(s: string)
    requires NoDoubleNewline(s)
    ensures CollapseNewlines(s) == s
  {
    if |s| > 0 {
      assert !(|s| >= 2 && s[0] == '\n' && s[1] == '\n');
      assert NoDoubleNewline(s[1..]) by {
        forall k | 0 <= k < |s[1..]| - 1
          ensures !(s[1..][k] == '\n' && s[1..][k + 1] == '\n')
        {
          assert s[1..][k] == s[k + 1] && s[1..][k + 1] == s[k + 2];
        }
      }
      CollapseSingle(s[1..]);
      assert s == [s[0]] + s[1..];
    }
  }

  lemma TrimAlreadyTrimmed(s: string)
    requires |s| > 0 ==> !IsJsWhitespace(s[0]) && !IsJsWhitespace(s[|s| - 1])
    ensures Trim(s) == s
  {
    assert SkipBlanks(s, 0) == 0;
    assert |s| > 0 ==> SkipBlanksBack(s, |s|) == |s|;
    assert s[0..|s|] == s;
  }

  /** Cleaning changes nothing exactly when the text is already settled, so
      cleaning twice is cleaning once. */
  lemma CleanFixpoint(s: string)
    ensures Clean(s) == s <==> Settled(s)
    ensures Clean(Clean(s)) == Clean(s)
  {
    forall t | Settled(t)
      ensures Clean(t) == t
    {
      RemoveAllAbsent(t, "```json");
      RemoveAllAbsent(t, "```");
      DropCharAbsent(t, '`');
      DropCharAbsent(t, '*');
      DropCharAbsent(t, '#');
      CollapseSingle(t);
      TrimAlreadyTrimmed(t);
    }
  }

  /** Some `{` comes before some `}`: the pattern `/\{[\s\S]*\}/` matches. */
  predicate HasSpan(s: string) {
    exists i, j :: 0 <= i < j < |s| && s[i] == '{' && s[j] == '}'
  }

  lemma SpanBounds(s: string)
    ensures HasSpan(s) <==>
              FirstIndex(s, '{').Some? && LastIndex(s, '}').Some?
              && FirstIndex(s, '{').value < LastIndex(s, '}').value
  {
    if HasSpan(s) {
      var i, j :| 0 <= i < j < |s| && s[i] == '{' && s[j] == '}';
      var a := FirstIndex(s, '{').value;
      var b := LastIndex(s, '}').value;
      assert forall k :: 0 <= k < a ==> s[..a][k] == s[k] != '{';
      assert forall k :: b < k < |s| ==> s[b + 1..][k - b - 1] == s[k] != '}';
    }
  }

  /** The regex match of the first `{` through the last `}`, or the text
      unchanged when there is no such span. */
  function ExtractSpan(s: string): (r: string)
    ensures !HasSpan(s) ==> r == s
    ensures HasSpan(s) ==>
              exists i, j :: 0 <= i < j < |s| && r == s[i..j + 1]
                             && s[i] == '{' && s[j] == '}'
                             && '{' !in s[..i] && '}' !in s[j + 1..]
    ensures forall x :: x in r ==> x in s
  {
    SpanBounds(s);
    match (FirstIndex(s, '{'), LastIndex(s, '}'))
    case (Some(i), Some(j)) =>
      if i < j then
        SpanWitness(s, i, j);
        s[i..j + 1]
      else s
    case _ => s
  }

  /** The first `{` and the last `}` delimit the span. */
  lemma SpanWitness(s: string, i: nat, j: nat)
    requires FirstIndex(s, '{') == Some(i) && LastIndex(s, '}') == Some(j) && i < j
    ensures exists i', j' :: 0 <= i' < j' < |s| && s[i..j + 1] == s[i'..j' + 1]
                             && s[i'] == '{' && s[j'] == '}'
                             && '{' !in s[..i'] && '}' !in s[j' + 1..]
    ensures forall x :: x in s[i..j + 1] ==> x in s
  {
    assert s[i..j + 1] == s[i..j + 1];
  }

  /** The extracted span is its own span. */
  lemma ExtractSpanIdempotent(s: string)
    ensures ExtractSpan(ExtractSpan(s)) == ExtractSpan(s)
  {
    var r := ExtractSpan(s);
    if HasSpan(s) {
      SpanBounds(s);
      var a, b := FirstIndex(s, '{').value, LastIndex(s, '}').value;
      assert r == s[a..b + 1];
      assert r[0] == s[a] && r[|r| - 1] == s[b];
      BracedSpan(r);
    }
  }

  /** A text that opens with `{` and closes with `}` is its own span. */
  lemma BracedSpan(r: string)
    requires |r| >= 2 && r[0] == '{' && r[|r| - 1] == '}'
    ensures ExtractSpan(r) == r
  {
    assert FirstIndex(r, '{') == Some(0);
    assert LastIndex(r, '}') == Some(|r| - 1);
    assert r[0..|r|] == r;
  }
}

=== FILE: sequences.dfy ===
/** Order-preserving filtering, the `Array.prototype.filter` of the source. */
module Sequences {

  function Filter<T(!new)>(xs: seq<T>, keep: T -> bool): (r: seq<T>)
    ensures |r| <= |xs|
    ensures forall k :: 0 <= k < |r| ==> keep(r[k])
    ensures forall k :: 0 <= k < |r| ==> r[k] in xs
    ensures forall k :: 0 <= k < |xs| && keep(xs[k]) ==> xs[k] in r
  {
    if |xs| == 0 then []
    else if keep(xs[0]) then [xs[0]] + Filter(xs[1..], keep)
    else Filter(xs[1..], keep)
  }

  /** Filtering keeps every copy of each kept element and no copy of the
      others. */
  lemma {:induction false} FilterMultiset<T(!new)>(xs: seq<T>, keep: T -> bool)
    ensures forall x :: multiset(Filter(xs, keep))[x] == if keep(x) then multiset(xs)[x] else 0
  {
    if |xs| > 0 {
      FilterMultiset(xs[1..], keep);
      assert xs == [xs[0]] + xs[1..];
    }
  }

  lemma {:induction false} FilterKeepsAll<T(!new)>(xs: seq<T>, keep: T -> bool)
    requires forall k :: 0 <= k < |xs| ==> keep(xs[k])
    ensures Filter(xs, keep) == xs
  {
    if |xs| > 0 {
      FilterKeepsAll(xs[1..], keep);
      assert xs == [xs[0]] + xs[1..];
    }
  }

  lemma {:induction false} FilterConcat<T(!new)>(xs: seq<T>, ys: seq<T>, keep: T -> bool)
    ensures Filter(xs + ys, keep) == Filter(xs, keep) + Filter(ys, keep)
  {
    if |xs| == 0 {
      assert xs + ys == ys;
    } else {
      var zs := xs + ys;
      assert zs[0] == xs[0] && zs[1..] == xs[1..] + ys;
      FilterConcat(xs[1..], ys, keep);
      if keep(xs[0]) {
        calc {
          Filter(zs, keep);
          [xs[0]] + Filter(xs[1..] + ys, keep);
          [xs[0]] + (Filter(xs[1..], keep) + Filter(ys, keep));
          ([xs[0]] + Filter(xs[1..], keep)) + Filter(ys, keep);
        }
      }
    }
  }

  /** `Array.prototype.map`. */
  function Map<T, U>(f: T -> U, xs: seq<T>): (r: seq<U>)
    ensures |r| == |xs|
    ensures forall k :: 0 <= k < |xs| ==> r[k] == f(xs[k])
  {
    seq(|xs|, k requires 0 <= k < |xs| => f(xs[k]))
  }

  lemma MapConcat<T, U>(f: T -> U, a: seq<T>, b: seq<T>)
    ensures Map(f, a + b) == Map(f, a) + Map(f, b)
  {
  }

  /** Taking out the element at `i` takes one copy of it out of the multiset. */
  lemma RemoveAtMultiset<T>(ys: seq<T>, i: nat)
    requires i < |ys|
    ensures multiset(ys) == multiset(ys[..i] + ys[i + 1..]) + multiset{ys[i]}
  {
    assert ys == ys[..i] + [ys[i]] + ys[i + 1..];
  }

  lemma MultisetCancel<T>(a: multiset<T>, b: multiset<T>, x: T)
    requires a + multiset{x} == b + multiset{x}
    ensures a == b
  {
    forall y
      ensures a[y] == b[y]
    {
      assert (a + multiset{x})[y] == a[y] + multiset{x}[y];
      assert (b + multiset{x})[y] == b[y] + multiset{x}[y];
    }
  }

  /** Taking out the element at `i` takes one copy of its image out of the
      mapped multiset. */
  lemma MapRemoveAt<T, U>(f: T -> U, ys: seq<T>, i: nat)
    requires i < |ys|
    ensures multiset(Map(f, ys)) == multiset(Map(f, ys[..i] + ys[i + 1..])) + multiset{f(ys[i])}
  {
    var m := Map(f, ys);
    assert m[..i] == Map(f, ys[..i]) && m[i + 1..] == Map(f, ys[i + 1..]);
    MapConcat(f, ys[..i], ys[i + 1..]);
    RemoveAtMultiset(m, i);
  }

  /** Taking the same element out of two arrangements of one multiset leaves
      two arrangements of the rest. */
  lemma PermutationTail<T>(xs: seq<T>, ys: seq<T>, i: nat)
    requires 0 < |xs| && i < |ys| && ys[i] == xs[0]
    requires multiset(xs) == multiset(ys)
    ensures multiset(xs[1..]) == multiset(ys[..i] + ys[i + 1..])
  {
    RemoveAtMultiset(ys, i);
    assert xs == [xs[0]] + xs[1..];
    assert multiset(xs) == multiset(xs[1..]) + multiset{xs[0]};
    MultisetCancel(multiset(xs[1..]), multiset(ys[..i] + ys[i + 1..]), xs[0]);
  }

  /** Putting the same element back into two mapped arrangements keeps their
      results equal as multisets. */
  lemma MapPutBack<T, U>(f: T -> U, xs: seq<T>, ys: seq<T>, i: nat)
    requires 0 < |xs| && i < |ys| && ys[i] == xs[0]
    requires multiset(Map(f, xs[1..])) == multiset(Map(f, ys[..i] + ys[i + 1..]))
    ensures multiset(Map(f, xs)) == multiset(Map(f, ys))
  {
    var rest := multiset(Map(f, xs[1..]));
    MapRemoveAt(f, ys, i);
    assert multiset(Map(f, ys)) == rest + multiset{f(xs[0])};
    assert Map(f, xs) == [f(xs[0])] + Map(f, xs[1..]);
    assert multiset(Map(f, xs)) == multiset{f(xs[0])} + rest;
  }

  /** A prefix holds no element more often than the whole sequence. */
  lemma PrefixMultiset<T>(a: seq<T>, b: seq<T>)
    requires a <= b
    ensures multiset(a) <= multiset(b)
  {
    assert b == a + b[|a|..];
  }

  /** Mapping two arrangements of the same elements gives two arrangements of
      the same results. */
  lemma {:induction false} MapPermutation<T, U>(f: T -> U, xs: seq<T>, ys: seq<T>)
    requires multiset(xs) == multiset(ys)
    ensures multiset(Map(f, xs)) == multiset(Map(f, ys))
    decreases |xs|
  {
    if |xs| == 0 {
      assert |ys| == |multiset(ys)| == 0;
    } else {
      assert xs[0] in multiset(ys);
      var i :| 0 <= i < |ys| && ys[i] == xs[0];
      PermutationTail(xs, ys, i);
      MapPermutation(f, xs[1..], ys[..i] + ys[i + 1..]);
      MapPutBack(f, xs, ys, i);
    }
  }

  /** Updating one position of a concatenation updates the half holding it. */
  lemma UpdateInConcat<T>(a: seq<T>, b: seq<T>, k: nat, x: T)
    requires k < |a| + |b|
    ensures k < |a| ==> (a + b)[k := x] == a[k := x] + b
    ensures k >= |a| ==> (a + b)[k := x] == a + b[k - |a| := x]
  {
  }
}

=== FILE: sorting.dfy ===
/** The stable sort both `Array.prototype.sort` (stable since ECMAScript 2019)
    and an SQLite `ORDER BY` over an index scan (ties broken by rowid) produce.
    `le(a, b)` means "a may come before b"; the order is a total preorder. */
module Sorting {

  ghost predicate TotalPreorder<T(!new)>(le: (T, T) -> bool) {
    && (forall a, b :: le(a, b) || le(b, a))
    && (forall a, b, c :: le(a, b) && le(b, c) ==> le(a, c))
  }

  predicate Sorted<T>(s: seq<T>, le: (T, T) -> bool) {
    forall i, j :: 0 <= i < j < |s| ==> le(s[i], s[j])
  }

  /** Places `x` after every element that may precede it, so equal elements keep
      their order of arrival. */
  function Insert<T>(x: T, s: seq<T>, le: (T, T) -> bool): (r: seq<T>)
    ensures |r| == |s| + 1
    ensures multiset(r) == multiset(s) + multiset{x}
  {
    if |s| == 0 then [x]
    else if !le(s[0], x) then [x] + s
    else
      assert s == [s[0]] + s[1..];
      [s[0]] + Insert(x, s[1..], le)
  }

  /** An element that goes before the last one leaves the last one in place. */
  lemma {:induction false} InsertKeepsLast<T>(x: T, s: seq<T>, le: (T, T) -> bool)
    requires |s| > 0 && !le(s[|s| - 1], x)
    ensures Insert(x, s, le)[|s|] == s[|s| - 1]
  {
    if le(s[0], x) {
      InsertKeepsLast(x, s[1..], le);
    }
  }

  /** Insertion sort from left to right: the stable sort of `xs`. */
  function Sort<T>(xs: seq<T>, le: (T, T) -> bool): (r: seq<T>)
    ensures |r| == |xs|
    ensures multiset(r) == multiset(xs)
  {
    if |xs| == 0 then []
    else
      assert xs == xs[..|xs| - 1] + [xs[|xs| - 1]];
      Insert(xs[|xs| - 1], Sort(xs[..|xs| - 1], le), le)
  }

  lemma {:induction false} InsertSorted<T(!new)>(x: T, s: seq<T>, le: (T, T) -> bool)
    requires TotalPreorder(le)
    requires Sorted(s, le)
    ensures Sorted(Insert(x, s, le), le)
  {
    if |s| == 0 {
    } else if !le(s[0], x) {
      assert le(x, s[0]);
    } else {
      InsertSorted(x, s[1..], le);
      var t := Insert(x, s[1..], le);
      var r := [s[0]] + t;
      assert multiset(t) == multiset(s[1..]) + multiset{x};
      forall j | 0 < j < |r|
        ensures le(s[0], r[j])
      {
        assert r[j] in multiset(t);
        if r[j] != x {
          assert r[j] in multiset(s[1..]);
          var k :| 0 <= k < |s[1..]| && s[1..][k] == r[j];
          assert s[k + 1] == r[j];
        }
      }
    }
  }

  /** The sort yields an ordered permutation of its input. */
  lemma {:induction false} SortSorted<T(!new)>(xs: seq<T>, le: (T, T) -> bool)
    requires TotalPreorder(le)
    ensures Sorted(Sort(xs, le), le)
    ensures multiset(Sort(xs, le)) == multiset(xs)
  {
    if |xs| > 0 {
      SortSorted(xs[..|xs| - 1], le);
      InsertSorted(xs[|xs| - 1], Sort(xs[..|xs| - 1], le), le);
    }
  }

  lemma {:induction false} InsertAtEnd<T>(x: T, s: seq<T>, le: (T, T) -> bool)
    requires forall k :: 0 <= k < |s| ==> le(s[k], x)
    ensures Insert(x, s, le) == s + [x]
  {
    if |s| > 0 {
      InsertAtEnd(x, s[1..], le);
      assert s == [s[0]] + s[1..];
    }
  }

  /** Sorting an already ordered sequence changes nothing (stability). */
  lemma {:induction false} SortOfSorted<T>(xs: seq<T>, le: (T, T) -> bool)
    requires Sorted(xs, le)
    ensures Sort(xs, le) == xs
  {
    if |xs| > 0 {
      var init := xs[..|xs| - 1];
      assert Sorted(init, le);
      SortOfSorted(init, le);
      InsertAtEnd(xs[|xs| - 1], init, le);
      assert init + [xs[|xs| - 1]] == xs;
    }
  }

  /** Appending one element to an ordered sequence and sorting the whole is a
      single insertion. */
  lemma SortAppend<T>(xs: seq<T>, x: T, le: (T, T) -> bool)
    requires Sorted(xs, le)
    ensures Sort(xs + [x], le) == Insert(x, xs, le)
  {
    assert (xs + [x])[..|xs|] == xs;
    SortOfSorted(xs, le);
  }
}

=== FILE: text.dfy ===
/** String helpers with the semantics of the JavaScript and SQLite built-ins
    the application relies on: `String.prototype.trim`, first/last index of a
    character, the ASCII case folding of SQLite's `LIKE`, and the byte-wise
    (code point) ordering of SQLite's BINARY collation. */
module Text {
  import opened Wrappers

  /** ECMAScript WhiteSpace and LineTerminator code points, which `trim` removes. */
  predicate IsJsWhitespace(c: char) {
    || c == '\t' || c == '\n' || c == '\U{000B}' || c == '\U{000C}' || c == '\r'
    || c == ' ' || c == '\U{00A0}' || c == '\U{1680}'
    || ('\U{2000}' <= c <= '\U{200A}')
    || c == '\U{2028}' || c == '\U{2029}' || c == '\U{202F}' || c == '\U{205F}'
    || c == '\U{3000}' || c == '\U{FEFF}'
  }

  predicate AllWhitespace(s: string) {
    forall k :: 0 <= k < |s| ==> IsJsWhitespace(s[k])
  }

  /** The index of the first character at or after `i` that is not
      whitespace, or `|s|` when there is none. */
  function SkipBlanks(s: string, i: nat): (n: nat)
    requires i <= |s|
    ensures i <= n <= |s|
    ensures forall k :: i <= k < n ==> IsJsWhitespace(s[k])
    ensures n < |s| ==> !IsJsWhitespace(s[n])
    decreases |s| - i
  {
    if i < |s| && IsJsWhitespace(s[i]) then SkipBlanks(s, i + 1) else i
  }

  /** The index just past the last character before `j` that is not
      whitespace, or 0 when there is none. */
  function SkipBlanksBack(s: string, j: nat): (n: nat)
    requires j <= |s|
    ensures n <= j
    ensures forall k :: n <= k < j ==> IsJsWhitespace(s[k])
    ensures n > 0 ==> !IsJsWhitespace(s[n - 1])
  {
    if j > 0 && IsJsWhitespace(s[j - 1]) then SkipBlanksBack(s, j - 1) else j
  }

  /** `String.prototype.trim`: a contiguous slice of the input, with only whitespace
      cut away on either side and no whitespace left at either end. */
  function Trim(s: string): (r: string)
    ensures exists i, j :: 0 <= i <= j <= |s| && r == s[i..j]
                        && AllWhitespace(s[..i]) && AllWhitespace(s[j..])
    ensures |r| > 0 ==> !IsJsWhitespace(r[0]) && !IsJsWhitespace(r[|r| - 1])
  {
    var i := SkipBlanks(s, 0);
    var j := if i == |s| then i else SkipBlanksBack(s, |s|);
    assert i < |s| ==> i < j by {
      if i < |s| {
        assert !IsJsWhitespace(s[i]);
      }
    }
    assert AllWhitespace(s[..i]) && AllWhitespace(s[j..]);
    s[i..j]
  }

  /** `!text.trim()` in the source: trimming leaves nothing exactly when every
      character is whitespace. */
  lemma TrimEmptyIffBlank(s: string)
    ensures Trim(s) == [] <==> AllWhitespace(s)
  {
    assert s[..|s|] == s;
    assert s[0..] == s;
  }

  /** Index of the first occurrence of `c`, or `None` when `c` does not occur. */
  function FirstIndex(s: string, c: char): (r: Option<nat>)
    ensures r.None? <==> c !in s
    ensures r.Some? ==> r.value < |s| && s[r.value] == c && c !in s[..r.value]
  {
    if |s| == 0 then None
    else if s[0] == c then Some(0)
    else
      match FirstIndex(s[1..], c)
      case None =>
        assert s == [s[0]] + s[1..];
        None
      case Some(k) =>
        assert s[..k + 1] == [s[0]] + s[1..][..k];
        Some(k + 1)
  }

  /** Index of the last occurrence of `c`, or `None` when `c` does not occur. */
  function LastIndex(s: string, c: char): (r: Option<nat>)
    ensures r.None? <==> c !in s
    ensures r.Some? ==> r.value < |s| && s[r.value] == c && c !in s[r.value + 1..]
  {
    if |s| == 0 then None
    else if s[|s| - 1] == c then Some(|s| - 1)
    else
      var init := s[..|s| - 1];
      match LastIndex(init, c)
      case None =>
        assert s == init + [s[|s| - 1]];
        None
      case Some(k) =>
        assert s[k + 1..] == init[k + 1..] + [s[|s| - 1]];
        Some(k)
  }

  /** `q` occurs in `s` as a contiguous block. */
  predicate ContainsSubstring(s: string, q: string) {
    exists i :: 0 <= i <= |s| && q <= s[i..]
  }

  /** ASCII-only lower-casing, the case folding of SQLite's built-in `LIKE`. */
  function LowerAscii(c: char): (r: char)
    ensures 'A' <= c <= 'Z' ==> r as int == c as int + 32
    ensures !('A' <= c <= 'Z') ==> r == c
  {
    if 'A' <= c <= 'Z' then (c as int + 32) as char else c
  }

  function LowerAsciiString(s: string): (r: string)
    ensures |r| == |s|
    ensures forall k :: 0 <= k < |s| ==> r[k] == LowerAscii(s[k])
  {
    seq(|s|, k requires 0 <= k < |s| => LowerAscii(s[k]))
  }

  /** SQLite's built-in `s LIKE p` with no ESCAPE clause: `%` matches any run
      of characters, `_` any single character, and every other character
      matches itself with ASCII case ignored. */
  predicate Like(s: string, p: string)
    decreases |p| + |s|
  {
    if |p| == 0 then |s| == 0
    else if p[0] == '%' then Like(s, p[1..]) || (|s| > 0 && Like(s[1..], p))
    else |s| > 0 && (p[0] == '_' || LowerAscii(p[0]) == LowerAscii(s[0])) && Like(s[1..], p[1..])
  }

  /** `name LIKE '%' || q || '%'`: the query is a pattern, so a `%` or `_` in
      it is a wildcard. */
  predicate LikeContains(name: string, q: string) {
    Like(name, "%" + q + "%")
  }

  predicate NoWildcards(q: string) {
    '%' !in q && '_' !in q
  }

  /** A trailing `%` matches whatever follows. */
  lemma {:induction false} LikeAnyRest(s: string)
    ensures Like(s, "%")
    decreases |s|
  {
    if |s| > 0 {
      LikeAnyRest(s[1..]);
    }
  }

  /** A leading `%` lets the rest of the pattern match any suffix. */
  lemma {:induction false} LikeLeadingPercent(s: string, p: string)
    ensures Like(s, "%" + p) <==> exists i :: 0 <= i <= |s| && Like(s[i..], p)
    decreases |s|
  {
    var pat := "%" + p;
    assert pat[0] == '%' && pat[1..] == p;
    assert Like(s, pat) == (Like(s, p) || (|s| > 0 && Like(s[1..], pat)));
    assert s[0..] == s;
    if |s| > 0 {
      LikeLeadingPercent(s[1..], p);
      if Like(s[1..], pat) {
        var i :| 0 <= i <= |s[1..]| && Like(s[1..][i..], p);
        assert s[i + 1..] == s[1..][i..];
      }
      forall i | 1 <= i <= |s| && Like(s[i..], p)
        ensures Like(s[1..], pat)
      {
        assert s[i..] == s[1..][i - 1..];
      }
    }
  }

  /** For a query without wildcards, `q%` matches exactly the texts that start
      with `q`, ASCII case ignored. */
  lemma {:induction false} LikeLiteralPrefix(s: string, q: string)
    requires NoWildcards(q)
    ensures Like(s, q + "%") <==> LowerAsciiString(q) <= LowerAsciiString(s)
    decreases |q|
  {
    if |q| == 0 {
      assert q + "%" == "%";
      LikeAnyRest(s);
    } else {
      assert (q + "%")[0] == q[0] && (q + "%")[1..] == q[1..] + "%";
      assert q[0] != '%' && q[0] != '_';
      assert NoWildcards(q[1..]) by {
        assert forall c :: c in q[1..] ==> c in q;
      }
      if |s| > 0 {
        LikeLiteralPrefix(s[1..], q[1..]);
        LowerAsciiCons(q);
        LowerAsciiCons(s);
      }
    }
  }

  lemma LowerAsciiCons(s: string)
    requires |s| > 0
    ensures LowerAsciiString(s) == [LowerAscii(s[0])] + LowerAsciiString(s[1..])
  {
  }

  lemma LowerAsciiSuffix(s: string, i: nat)
    requires i <= |s|
    ensures LowerAsciiString(s[i..]) == LowerAsciiString(s)[i..]
  {
  }

  /** For a query without wildcards, the search pattern `%q%` is plain
      substring search with ASCII case ignored. */
  lemma LikeContainsLiteral(name: string, q: string)
    requires NoWildcards(q)
    ensures LikeContains(name, q) <==> ContainsSubstring(LowerAsciiString(name), LowerAsciiString(q))
  {
    assert "%" + q + "%" == "%" + (q + "%");
    LikeLeadingPercent(name, q + "%");
    forall i | 0 <= i <= |name|
      ensures Like(name[i..], q + "%") <==> LowerAsciiString(q) <= LowerAsciiString(name)[i..]
    {
      LikeLiteralPrefix(name[i..], q);
      LowerAsciiSuffix(name, i);
    }
  }

  /** A lone `_` finds every non-empty name. */
  lemma LikeContainsUnderscore(name: string)
    ensures LikeContains(name, "_") <==> |name| > 0
  {
    var pat := "_" + "%";
    assert "%" + "_" + "%" == "%" + pat;
    assert LikeContains(name, "_") == Like(name, "%" + pat);
    LikeLeadingPercent(name, pat);
    assert pat[0] == '_' && pat[1..] == "%";
    forall t: string
      ensures Like(t, pat) <==> |t| > 0
    {
      if |t| > 0 {
        LikeAnyRest(t[1..]);
      }
    }
    assert name[0..] == name;
    if LikeContains(name, "_") {
      var i :| 0 <= i <= |name| && Like(name[i..], pat);
      assert |name[i..]| > 0;
    }
  }

  /** The BINARY collation of SQLite: lexicographic by code point (UTF-8 byte
      order coincides with code point order), a proper prefix sorting first. */
  predicate LexLe(a: string, b: string) {
    |a| == 0 || (|b| > 0 && (a[0] < b[0] || (a[0] == b[0] && LexLe(a[1..], b[1..]))))
  }

  lemma {:induction false} LexLeTotal(a: string, b: string)
    ensures LexLe(a, b) || LexLe(b, a)
  {
    if |a| > 0 && |b| > 0 && a[0] == b[0] {
      LexLeTotal(a[1..], b[1..]);
    }
  }

  lemma {:induction false} LexLeTransitive(a: string, b: string, c: string)
    requires LexLe(a, b) && LexLe(b, c)
    ensures LexLe(a, c)
  {
    if |a| > 0 && a[0] == b[0] && b[0] == c[0] {
      LexLeTransitive(a[1..], b[1..], c[1..]);
    }
  }

  lemma {:induction false} LexLeAntisymmetric(a: string, b: string)
    requires LexLe(a, b) && LexLe(b, a)
    ensures a == b
  {
    if |a| > 0 {
      LexLeAntisymmetric(a[1..], b[1..]);
      assert a == [a[0]] + a[1..];
      assert b == [b[0]] + b[1..];
    }
  }

  predicate IsDigit(c: char) {
    '0' <= c <= '9'
  }

  /** The decimal text of a non-negative integer, as template literals render
      a `Date.now()` value: digits only, no leading zero. */
  function NatText(n: nat): (r: string)
    ensures |r| > 0 && forall k :: 0 <= k < |r| ==> IsDigit(r[k])
    ensures |r| > 1 ==> r[0] != '0'
  {
    if n < 10 then [('0' as int + n) as char]
    else NatText(n / 10) + [('0' as int + n % 10) as char]
  }
}

=== FILE: types.dfy ===
/** The entities of the nutrition tracker: nutrition facts, foods and their
    serving sizes, logged foods grouped into meals and days, the user profile
    with its goals and preferences, exercises, workouts and weight entries.

    String unions that can receive arbitrary text at run time (profile
    attributes cast with `as any`, categories invented by the recognition
    service) carry an `Unlisted…` constructor holding that text verbatim.
    Dates are millisecond timestamps. */
module Types {
  import opened Wrappers

  /** A JavaScript `Date`, as milliseconds since the epoch. */
  type Timestamp = int

  datatype Nutrition = Nutrition(
    calories: real, protein: real, carbs: real, fat: real,
    fiber: real, sugar: real, sodium: real, cholesterol: real)

  const ZeroNutrition := Nutrition(0.0, 0.0, 0.0, 0.0, 0.0, 0.0, 0.0, 0.0)

  datatype MeasurementUnit = Gram | Ounce | Millilitre | Cup | Tablespoon | Teaspoon | Piece | Slice {
    function Text(): string {
      match this
      case Gram => "g"
      case Ounce => "oz"
      case Millilitre => "ml"
      case Cup => "cup"
      case Tablespoon => "tbsp"
      case Teaspoon => "tsp"
      case Piece => "piece"
      case Slice => "slice"
    }
  }

  datatype ServingSize = ServingSize(id: string, name: string, weight: real, unit: MeasurementUnit)

  /** A serving size before it has an id (`Omit<ServingSize, 'id'>`). */
  datatype NewServingSize = NewServingSize(name: string, weight: real, unit: MeasurementUnit)

  datatype FoodCategory =
    | ProteinFood | Grain | Vegetable | Fruit | Dairy | FatFood | Beverage | SnackFood | OtherCategory
    | UnlistedCategory(text: string)
  {
    function Text(): string {
      match this
      case ProteinFood => "protein"
      case Grain => "grain"
      case Vegetable => "vegetable"
      case Fruit => "fruit"
      case Dairy => "dairy"
      case FatFood => "fat"
      case Beverage => "beverage"
      case SnackFood => "snack"
      case OtherCategory => "other"
      case UnlistedCategory(t) => t
    }

    predicate Canonical() {
      UnlistedCategory? ==> CategoryFromText(text).UnlistedCategory?
    }
  }

  /** The category a piece of text denotes; the text is kept verbatim. */
  function CategoryFromText(s: string): (r: FoodCategory)
    ensures r.Text() == s
  {
    match s
    case "protein" => ProteinFood
    case "grain" => Grain
    case "vegetable" => Vegetable
    case "fruit" => Fruit
    case "dairy" => Dairy
    case "fat" => FatFood
    case "beverage" => Beverage
    case "snack" => SnackFood
    case "other" => OtherCategory
    case _ => UnlistedCategory(s)
  }

  datatype FoodItem = FoodItem(
    id: string,
    name: string,
    brand: Option<string>,
    barcode: Option<string>,
    nutritionPer100g: Nutrition,
    servingSizes: seq<ServingSize>,
    category: FoodCategory,
    imageUrl: Option<string>,
    isCustom: bool,
    createdAt: Timestamp,
    updatedAt: Timestamp)

  datatype ConsumedFood = ConsumedFood(
    id: string,
    foodItem: FoodItem,
    quantity: real,
    servingSize: ServingSize,
    nutritionConsumed: Nutrition)

  datatype MealType = Breakfast | Lunch | Dinner | SnackMeal

  datatype MealEntry = MealEntry(
    id: string,
    mealType: MealType,
    foodItems: seq<ConsumedFood>,
    timestamp: Timestamp,
    location: Option<string>)

  datatype DailyNutrition = DailyNutrition(
    id: string,
    userId: string,
    date: string,
    meals: seq<MealEntry>,
    totalNutrition: Nutrition,
    calorieGoal: real,
    waterIntake: real,
    notes: Option<string>)

  datatype Gender = Male | Female | OtherGender | UnlistedGender(text: string) {
    function Text(): string {
      match this
      case Male => "male"
      case Female => "female"
      case OtherGender => "other"
      case UnlistedGender(t) => t
    }
    predicate Canonical() {
      UnlistedGender? ==> GenderFromText(text).UnlistedGender?
    }
  }

  function GenderFromText(s: string): (r: Gender)
    ensures r.Text() == s
  {
    match s
    case "male" => Male
    case "female" => Female
    case "other" => OtherGender
    case _ => UnlistedGender(s)
  }

  datatype ActivityLevel = Sedentary | Light | Moderate | Active | VeryActive | UnlistedActivity(text: string) {
    function Text(): string {
      match this
      case Sedentary => "sedentary"
      case Light => "light"
      case Moderate => "moderate"
      case Active => "active"
      case VeryActive => "very_active"
      case UnlistedActivity(t) => t
    }
    predicate Canonical() {
      UnlistedActivity? ==> ActivityFromText(text).UnlistedActivity?
    }
  }

  function ActivityFromText(s: string): (r: ActivityLevel)
    ensures r.Text() == s
  {
    match s
    case "sedentary" => Sedentary
    case "light" => Light
    case "moderate" => Moderate
    case "active" => Active
    case "very_active" => VeryActive
    case _ => UnlistedActivity(s)
  }

  datatype GoalType = LoseWeight | GainWeight | Maintain | BuildMuscle | UnlistedGoal(text: string) {
    function Text(): string {
      match this
      case LoseWeight => "lose_weight"
      case GainWeight => "gain_weight"
      case Maintain => "maintain"
      case BuildMuscle => "build_muscle"
      case UnlistedGoal(t) => t
    }
    predicate Canonical() {
      UnlistedGoal? ==> GoalFromText(text).UnlistedGoal?
    }
  }

  function GoalFromText(s: string): (r: GoalType)
    ensures r.Text() == s
  {
    match s
    case "lose_weight" => LoseWeight
    case "gain_weight" => GainWeight
    case "maintain" => Maintain
    case "build_muscle" => BuildMuscle
    case _ => UnlistedGoal(s)
  }

  datatype UnitSystem = Metric | Imperial | UnlistedUnits(text: string) {
    function Text(): string {
      match this
      case Metric => "metric"
      case Imperial => "imperial"
      case UnlistedUnits(t) => t
    }
    predicate Canonical() {
      UnlistedUnits? ==> UnitsFromText(text).UnlistedUnits?
    }
  }

  function UnitsFromText(s: string): (r: UnitSystem)
    ensures r.Text() == s
  {
    match s
    case "metric" => Metric
    case "imperial" => Imperial
    case _ => UnlistedUnits(s)
  }

  datatype ThemeMode = LightTheme | DarkTheme | SystemTheme | UnlistedTheme(text: string) {
    function Text(): string {
      match this
      case LightTheme => "light"
      case DarkTheme => "dark"
      case SystemTheme => "system"
      case UnlistedTheme(t) => t
    }
    predicate Canonical() {
      UnlistedTheme? ==> ThemeFromText(text).UnlistedTheme?
    }
  }

  function ThemeFromText(s: string): (r: ThemeMode)
    ensures r.Text() == s
  {
    match s
    case "light" => LightTheme
    case "dark" => DarkTheme
    case "system" => SystemTheme
    case _ => UnlistedTheme(s)
  }

  /** Reading back the text of a canonical value gives the value itself. */
  lemma TextRoundTrips(c: FoodCategory, g: Gender, a: ActivityLevel, goal: GoalType, u: UnitSystem, th: ThemeMode)
    ensures c.Canonical() ==> CategoryFromText(c.Text()) == c
    ensures g.Canonical() ==> GenderFromText(g.Text()) == g
    ensures a.Canonical() ==> ActivityFromText(a.Text()) == a
    ensures goal.Canonical() ==> GoalFromText(goal.Text()) == goal
    ensures u.Canonical() ==> UnitsFromText(u.Text()) == u
    ensures th.Canonical() ==> ThemeFromText(th.Text()) == th
  {
  }

  datatype MacroRatios = MacroRatios(protein: real, carbs: real, fat: real)

  datatype CustomNutritionGoals = CustomNutritionGoals(
    fiber: Option<real>, sodium: Option<real>, sugar: Option<real>, cholesterol: Option<real>)

  datatype NutritionGoals = NutritionGoals(
    goalType: GoalType,
    targetWeight: Option<real>,
    weeklyWeightChange: Option<real>,
    calorieGoal: real,
    macroRatios: MacroRatios,
    customGoals: Option<CustomNutritionGoals>)

  datatype MealReminderTimes = MealReminderTimes(breakfast: string, lunch: string, dinner: string)

  datatype NotificationSettings = NotificationSettings(
    mealReminders: bool,
    goalReminders: bool,
    waterReminders: bool,
    workoutReminders: bool,
    mealReminderTimes: MealReminderTimes)

  datatype PrivacySettings = PrivacySettings(shareData: bool, analytics: bool, crashReporting: bool)

  datatype UserPreferences = UserPreferences(
    units: UnitSystem,
    theme: ThemeMode,
    notifications: NotificationSettings,
    privacy: PrivacySettings)

  datatype UserProfile = UserProfile(
    id: string,
    email: string,
    name: string,
    dateOfBirth: Timestamp,
    gender: Gender,
    height: real,
    currentWeight: real,
    activityLevel: ActivityLevel,
    goals: NutritionGoals,
    preferences: UserPreferences,
    createdAt: Timestamp,
    updatedAt: Timestamp)

  datatype ExerciseCategory = Cardio | Strength | Flexibility | Sports

  datatype MuscleGroup = Chest | Back | Shoulders | Arms | Legs | Abs | Glutes {
    function Text(): string {
      match this
      case Chest => "chest"
      case Back => "back"
      case Shoulders => "shoulders"
      case Arms => "arms"
      case Legs => "legs"
      case Abs => "abs"
      case Glutes => "glutes"
    }
  }

  datatype Exercise = Exercise(
    id: string,
    name: string,
    category: ExerciseCategory,
    metValue: Option<real>,
    equipment: Option<seq<string>>,
    muscleGroups: seq<MuscleGroup>,
    instructions: Option<string>)

  datatype StrengthSet = StrengthSet(reps: int, weight: real, restTime: Option<int>)

  datatype ExerciseSet = ExerciseSet(
    id: string,
    exerciseId: string,
    sets: Option<seq<StrengthSet>>,
    duration: Option<real>,
    distance: Option<real>,
    caloriesBurned: real)

  datatype WorkoutSession = WorkoutSession(
    id: string,
    userId: string,
    date: Timestamp,
    exercises: seq<ExerciseSet>,
    totalDuration: real,
    caloriesBurned: real,
    notes: Option<string>)

  datatype WeightEntry = WeightEntry(
    id: string, userId: string, weight: real, date: Timestamp, notes: Option<string>)
}

=== FILE: user_store.dfy ===
/** The user store: the signed-in profile and the session flags. The profile
    update is an in-memory merge stamped with the current time. */
module UserStore {
  import opened Wrappers
  import opened Types

  datatype State = State(
    user: Option<UserProfile>,
    isAuthenticated: bool,
    hasCompletedOnboarding: bool,
    isLoading: bool)

  const Initial := State(None, false, false, false)

  /** `Partial<UserProfile>`: a field is `Some` when the update carries it. */
  datatype ProfilePatch = ProfilePatch(
    id: Option<string>,
    email: Option<string>,
    name: Option<string>,
    dateOfBirth: Option<Timestamp>,
    gender: Option<Gender>,
    height: Option<real>,
    currentWeight: Option<real>,
    activityLevel: Option<ActivityLevel>,
    goals: Option<NutritionGoals>,
    preferences: Option<UserPreferences>,
    createdAt: Option<Timestamp>,
    updatedAt: Option<Timestamp>)

  const NoChanges := ProfilePatch(None, None, None, None, None, None, None, None, None, None, None, None)

  /** The patch that sets only the current weight, as the weight store sends it. */
  function WeightPatch(weight: real): ProfilePatch {
    NoChanges.(currentWeight := Some(weight))
  }

  /** `{ ...currentUser, ...updates, updatedAt: new Date() }`. */
  function Merge(u: UserProfile, p: ProfilePatch, now: Timestamp): (r: UserProfile)
    ensures r.updatedAt == now
    ensures p == NoChanges ==> r == u.(updatedAt := now)
  {
    UserProfile(
      p.id.GetOr(u.id), p.email.GetOr(u.email), p.name.GetOr(u.name),
      p.dateOfBirth.GetOr(u.dateOfBirth), p.gender.GetOr(u.gender),
      p.height.GetOr(u.height), p.currentWeight.GetOr(u.currentWeight),
      p.activityLevel.GetOr(u.activityLevel), p.goals.GetOr(u.goals),
      p.preferences.GetOr(u.preferences), p.createdAt.GetOr(u.createdAt), now)
  }

  /** `updateUserProfile` (in memory): nothing without a user; otherwise the
      update is merged over the profile, `updatedAt` becomes `now` whatever the
      update says, and the session flags stay as they are. */
  function UpdateUserProfile(s: State, p: ProfilePatch, now: Timestamp): (r: State)
    ensures s.user.None? ==> r == s
    ensures s.user.Some? ==> r == s.(user := Some(Merge(s.user.value, p, now)))
    ensures r.isAuthenticated == s.isAuthenticated && r.hasCompletedOnboarding == s.hasCompletedOnboarding
  {
    match s.user
    case None => s
    case Some(u) => s.(user := Some(Merge(u, p, now)))
  }

  /** An empty update only refreshes `updatedAt`; repeating an update at the
      same instant changes nothing more. */
  lemma UpdateUserProfileLaws(s: State, p: ProfilePatch, now: Timestamp)
    ensures s.user.Some? ==>
              UpdateUserProfile(s, NoChanges, now).user == Some(s.user.value.(updatedAt := now))
    ensures UpdateUserProfile(UpdateUserProfile(s, p, now), p, now) == UpdateUserProfile(s, p, now)
  {
  }

  /** The fields an update does not carry keep their values. */
  lemma UpdateKeepsOtherFields(s: State, weight: real, now: Timestamp)
    requires s.user.Some?
    ensures var u := UpdateUserProfile(s, WeightPatch(weight), now).user.value;
            u.currentWeight == weight && u.(currentWeight := s.user.value.currentWeight, updatedAt := s.user.value.updatedAt) == s.user.value
  {
  }

  /** `setUser`: signs the user in. */
  function SetUser(s: State, u: UserProfile): (r: State)
    ensures r.user == Some(u) && r.isAuthenticated
    ensures r.hasCompletedOnboarding == s.hasCompletedOnboarding && r.isLoading == s.isLoading
  {
    s.(user := Some(u), isAuthenticated := true)
  }

  /** `logout`: the profile and both session flags are cleared; the loading flag
      is left alone. */
  function Logout(s: State): (r: State)
    ensures r.user.None? && !r.isAuthenticated && !r.hasCompletedOnboarding
    ensures r.isLoading == s.isLoading
  {
    s.(user := None, isAuthenticated := false, hasCompletedOnboarding := false)
  }

  /** `clearAllData`: back to the initial state. */
  function ClearAllData(s: State): (r: State)
    ensures r == Initial
  {
    State(None, false, false, false)
  }

  /** After logging out there is no profile to update, and logging out again
      changes nothing. */
  lemma LogoutLaws(s: State, p: ProfilePatch, now: Timestamp)
    ensures UpdateUserProfile(Logout(s), p, now) == Logout(s)
    ensures Logout(Logout(s)) == Logout(s)
    ensures ClearAllData(s) == Logout(s).(isLoading := false)
  {
  }
}

=== FILE: weight_store.dfy ===
/** The weight store: weight entries kept newest first. Logging a weight also
    updates the signed-in user's current weight through the user store. */
module WeightStore {
  import opened Wrappers
  import opened Types
  import opened Sorting
  import opened Sequences
  import UserStore

  datatype State = State(entries: seq<WeightEntry>, isLoading: bool)

  /** The comparator `(a, b) => b.date - a.date`: `a` may come first when it is
      not older than `b`. */
  function NewestFirst(): (WeightEntry, WeightEntry) -> bool {
    (a: WeightEntry, b: WeightEntry) => a.date >= b.date
  }

  lemma NewestFirstIsTotalPreorder()
    ensures TotalPreorder(NewestFirst())
  {
  }

  /** `addWeightEntry`: nothing without a signed-in user; otherwise the new entry
      joins the list, the list is stably sorted newest first, and the user's
      current weight becomes the logged weight. */
  function AddWeightEntry(s: State, users: UserStore.State, weight: real, date: Timestamp,
                          notes: Option<string>, entryId: string, now: Timestamp)
    : (r: (State, UserStore.State))
    ensures users.user.None? ==> r == (s, users)
    ensures users.user.Some? ==>
              && Sorted(r.0.entries, NewestFirst())
              && multiset(r.0.entries) == multiset(s.entries)
                   + multiset{WeightEntry(entryId, users.user.value.id, weight, date, notes)}
              && r.1 == UserStore.UpdateUserProfile(users, UserStore.WeightPatch(weight), now)
              && r.1.user.Some? && r.1.user.value.currentWeight == weight
    ensures users.user.Some? ==> r.0.(entries := s.entries) == s
  {
    match users.user
    case None => (s, users)
    case Some(u) =>
      var entry := WeightEntry(entryId, u.id, weight, date, notes);
      NewestFirstIsTotalPreorder();
      SortSorted(s.entries + [entry], NewestFirst());
      (s.(entries := Sort(s.entries + [entry], NewestFirst())),
       UserStore.UpdateUserProfile(users, UserStore.WeightPatch(weight), now))
  }

  /** On a list that is already newest first, adding an entry is a single
      insertion: it goes after every entry at least as new and before the
      first strictly older one. */
  lemma AddWeightEntryInserts(s: State, users: UserStore.State, weight: real, date: Timestamp,
                              notes: Option<string>, entryId: string, now: Timestamp)
    requires users.user.Some?
    requires Sorted(s.entries, NewestFirst())
    ensures var entry := WeightEntry(entryId, users.user.value.id, weight, date, notes);
            AddWeightEntry(s, users, weight, date, notes, entryId, now).0.entries
              == Insert(entry, s.entries, NewestFirst())
  {
    var entry := WeightEntry(entryId, users.user.value.id, weight, date, notes);
    SortAppend(s.entries, entry, NewestFirst());
  }

  /** The keep-test of `getWeightEntries`: entries on or after the cutoff. */
  function Since(cutoff: Timestamp): WeightEntry -> bool {
    (e: WeightEntry) => e.date >= cutoff
  }

  /** `getWeightEntries`: the entries dated at or after `cutoff` (the caller's
      "now" minus the number of days, 30 by default), in stored order. */
  function WeightEntriesSince(s: State, cutoff: Timestamp): (r: seq<WeightEntry>)
    ensures forall k :: 0 <= k < |r| ==> r[k].date >= cutoff && r[k] in s.entries
    ensures forall k :: 0 <= k < |s.entries| && s.entries[k].date >= cutoff ==> s.entries[k] in r
    ensures forall e :: multiset(r)[e] == if e.date >= cutoff then multiset(s.entries)[e] else 0
  {
    FilterMultiset(s.entries, Since(cutoff));
    Filter(s.entries, Since(cutoff))
  }

  /** The recent entries of a split list are those of each part, joined, so
      they come in stored order. */
  lemma WeightEntriesSinceConcat(s: State, a: seq<WeightEntry>, b: seq<WeightEntry>, cutoff: Timestamp)
    ensures WeightEntriesSince(s.(entries := a + b), cutoff)
              == WeightEntriesSince(s.(entries := a), cutoff) + WeightEntriesSince(s.(entries := b), cutoff)
  {
    FilterConcat(a, b, Since(cutoff));
  }

  /** On a newest-first list the recent entries form a prefix. */
  lemma {:induction false} WeightEntriesSincePrefix(entries: seq<WeightEntry>, cutoff: Timestamp)
    requires Sorted(entries, NewestFirst())
    ensures Filter(entries, Since(cutoff)) <= entries
  {
    if |entries| > 0 {
      assert Sorted(entries[1..], NewestFirst());
      WeightEntriesSincePrefix(entries[1..], cutoff);
      if entries[0].date < cutoff {
        assert forall k :: 0 <= k < |entries[1..]| ==> entries[1..][k].date < cutoff;
        FilterNone(entries[1..], Since(cutoff));
      }
    }
  }

  lemma {:induction false} FilterNone<T(!new)>(xs: seq<T>, keep: T -> bool)
    requires forall k :: 0 <= k < |xs| ==> !keep(xs[k])
    ensures Filter(xs, keep) == []
  {
    if |xs| > 0 {
      FilterNone(xs[1..], keep);
    }
  }

  /** `getLatestWeight`: the first entry, or nothing when there is none. */
  function LatestWeight(s: State): (r: Option<WeightEntry>)
    ensures r.None? <==> |s.entries| == 0
    ensures r.Some? ==> r.value == s.entries[0]
    ensures Sorted(s.entries, NewestFirst()) && r.Some? ==>
              forall k :: 0 <= k < |s.entries| ==> s.entries[k].date <= r.value.date
  {
    if |s.entries| > 0 then Some(s.entries[0]) else None
  }

  /** `getFirstWeight`: the last entry, or nothing when there is none. */
  function FirstWeight(s: State): (r: Option<WeightEntry>)
    ensures r.None? <==> |s.entries| == 0
    ensures r.Some? ==> r.value == s.entries[|s.entries| - 1]
    ensures Sorted(s.entries, NewestFirst()) && r.Some? ==>
              forall k :: 0 <= k < |s.entries| ==> s.entries[k].date >= r.value.date
  {
    if |s.entries| > 0 then Some(s.entries[|s.entries| - 1]) else None
  }

  /** Logging a weight newer than every stored one makes it the latest weight. */
  lemma LatestAfterNewerEntry(s: State, users: UserStore.State, weight: real, date: Timestamp,
                              notes: Option<string>, entryId: string, now: Timestamp)
    requires users.user.Some?
    requires Sorted(s.entries, NewestFirst())
    requires forall k :: 0 <= k < |s.entries| ==> s.entries[k].date < date
    ensures LatestWeight(AddWeightEntry(s, users, weight, date, notes, entryId, now).0)
              == Some(WeightEntry(entryId, users.user.value.id, weight, date, notes))
  {
    AddWeightEntryInserts(s, users, weight, date, notes, entryId, now);
  }

  /** Logging a weight newer than the oldest stored one keeps the first weight. */
  lemma FirstAfterNewerEntry(s: State, users: UserStore.State, weight: real, date: Timestamp,
                             notes: Option<string>, entryId: string, now: Timestamp)
    requires users.user.Some?
    requires Sorted(s.entries, NewestFirst())
    requires |s.entries| > 0 && s.entries[|s.entries| - 1].date < date
    ensures FirstWeight(AddWeightEntry(s, users, weight, date, notes, entryId, now).0) == FirstWeight(s)
  {
    var entry := WeightEntry(entryId, users.user.value.id, weight, date, notes);
    AddWeightEntryInserts(s, users, weight, date, notes, entryId, now);
    InsertKeepsLast(entry, s.entries, NewestFirst());
  }
}

=== FILE: workout_store.dfy ===
/** The workout store: the saved workout sessions, the exercise catalogue loaded
    from the local database, and the workout in progress. */
module WorkoutStore {
  import opened Wrappers
  import opened Types
  import opened Sequences

  datatype State = State(
    workouts: seq<WorkoutSession>,
    exercises: seq<Exercise>,
    currentWorkout: Option<WorkoutSession>,
    isLoading: bool)

  /** `Omit<WorkoutSession, 'id'>`: a finished workout before it is given an id. */
  datatype WorkoutDraft = WorkoutDraft(
    userId: string,
    date: Timestamp,
    exercises: seq<ExerciseSet>,
    totalDuration: real,
    caloriesBurned: real,
    notes: Option<string>)

  function WithId(d: WorkoutDraft, id: string): WorkoutSession {
    WorkoutSession(id, d.userId, d.date, d.exercises, d.totalDuration, d.caloriesBurned, d.notes)
  }

  /** `loadExercises`: the catalogue is replaced by what the database returned;
      a database failure is logged and leaves the state as it was. */
  function LoadExercises(s: State, fetched: Result<seq<Exercise>, string>): (r: State)
    ensures fetched.Err? ==> r == s
    ensures fetched.Ok? ==> r.exercises == fetched.value && r.(exercises := s.exercises) == s
  {
    match fetched
    case Ok(list) => s.(exercises := list)
    case Err(_) => s
  }

  /** `startWorkout`: nothing without a user; otherwise an empty session for the
      user, dated now, becomes the workout in progress. */
  function StartWorkout(s: State, user: Option<UserProfile>, id: string, now: Timestamp): (r: State)
    ensures user.None? ==> r == s
    ensures user.Some? ==>
              && r.currentWorkout == Some(WorkoutSession(id, user.value.id, now, [], 0.0, 0.0, None))
              && r.(currentWorkout := s.currentWorkout) == s
  {
    match user
    case None => s
    case Some(u) => s.(currentWorkout := Some(WorkoutSession(id, u.id, now, [], 0.0, 0.0, None)))
  }

  /** `endWorkout`: the finished workout, with its new id, is appended and no
      workout is in progress any more. */
  function EndWorkout(s: State, d: WorkoutDraft, id: string): (r: State)
    ensures r.currentWorkout.None?
    ensures |r.workouts| == |s.workouts| + 1 && r.workouts[..|s.workouts|] == s.workouts
    ensures r.workouts[|s.workouts|].id == id
    ensures r.workouts[|s.workouts|].(id := "") == WorkoutSession("", d.userId, d.date, d.exercises,
                                                                 d.totalDuration, d.caloriesBurned, d.notes)
    ensures r.(workouts := s.workouts, currentWorkout := s.currentWorkout) == s
  {
    s.(workouts := s.workouts + [WithId(d, id)], currentWorkout := None)
  }

  /** `addWorkout`: the workout goes to the front. */
  function AddWorkout(s: State, w: WorkoutSession): (r: State)
    ensures |r.workouts| == |s.workouts| + 1 && r.workouts[0] == w && r.workouts[1..] == s.workouts
    ensures r.(workouts := s.workouts) == s
  {
    s.(workouts := [w] + s.workouts)
  }

  function OtherWorkout(id: string): WorkoutSession -> bool {
    (w: WorkoutSession) => w.id != id
  }

  /** `deleteWorkout`: every workout with that id goes, the rest keep their order. */
  function DeleteWorkout(s: State, id: string): (r: State)
    ensures forall k :: 0 <= k < |r.workouts| ==> r.workouts[k].id != id && r.workouts[k] in s.workouts
    ensures forall k :: 0 <= k < |s.workouts| && s.workouts[k].id != id ==> s.workouts[k] in r.workouts
    ensures forall w :: multiset(r.workouts)[w] == if w.id != id then multiset(s.workouts)[w] else 0
    ensures r.(workouts := s.workouts) == s
  {
    FilterMultiset(s.workouts, OtherWorkout(id));
    s.(workouts := Filter(s.workouts, OtherWorkout(id)))
  }

  /** Deletion works piecewise over a split of the list, so the kept workouts
      keep their order. */
  lemma DeleteWorkoutConcat(s: State, a: seq<WorkoutSession>, b: seq<WorkoutSession>, id: string)
    ensures DeleteWorkout(s.(workouts := a + b), id).workouts
              == DeleteWorkout(s.(workouts := a), id).workouts + DeleteWorkout(s.(workouts := b), id).workouts
  {
    FilterConcat(a, b, OtherWorkout(id));
  }

  /** Adding a workout under an unused id and deleting it restores the list;
      so does finishing one under an unused id and deleting it. */
  lemma AddThenDeleteWorkout(s: State, w: WorkoutSession, d: WorkoutDraft, id: string)
    requires forall k :: 0 <= k < |s.workouts| ==> s.workouts[k].id != w.id
    requires forall k :: 0 <= k < |s.workouts| ==> s.workouts[k].id != id
    ensures DeleteWorkout(AddWorkout(s, w), w.id).workouts == s.workouts
    ensures DeleteWorkout(EndWorkout(s, d, id), id).workouts == s.workouts
  {
    FilterConcat([w], s.workouts, OtherWorkout(w.id));
    FilterKeepsAll(s.workouts, OtherWorkout(w.id));
    assert Filter([w], OtherWorkout(w.id)) == [];
    FilterConcat(s.workouts, [WithId(d, id)], OtherWorkout(id));
    FilterKeepsAll(s.workouts, OtherWorkout(id));
    assert Filter([WithId(d, id)], OtherWorkout(id)) == [];
  }

  /** `getWorkoutsForDate`: the workouts whose date falls on the given day, in
      stored order. The calendar-day test is a parameter, since it depends on
      the device's time zone. */
  function WorkoutsForDate(s: State, onDay: Timestamp -> bool): (r: seq<WorkoutSession>)
    ensures forall k :: 0 <= k < |r| ==> onDay(r[k].date) && r[k] in s.workouts
    ensures forall k :: 0 <= k < |s.workouts| && onDay(s.workouts[k].date) ==> s.workouts[k] in r
    ensures forall w :: multiset(r)[w] == if onDay(w.date) then multiset(s.workouts)[w] else 0
  {
    FilterMultiset(s.workouts, OnDay(onDay));
    Filter(s.workouts, OnDay(onDay))
  }

  function OnDay(onDay: Timestamp -> bool): WorkoutSession -> bool {
    (w: WorkoutSession) => onDay(w.date)
  }

  /** The day's workouts of a split list are those of each part, joined, so
      they come in stored order. */
  lemma WorkoutsForDateConcat(s: State, a: seq<WorkoutSession>, b: seq<WorkoutSession>, onDay: Timestamp -> bool)
    ensures WorkoutsForDate(s.(workouts := a + b), onDay)
              == WorkoutsForDate(s.(workouts := a), onDay) + WorkoutsForDate(s.(workouts := b), onDay)
  {
    FilterConcat(a, b, OnDay(onDay));
  }
}

=== FILE: wrappers.dfy ===
/** Failure-compatible wrappers shared by every module of the model:
    `Option` stands for a JavaScript value that may be `null`/`undefined`,
    `Result` for an operation that either returns a value or throws. */
module Wrappers {

  datatype Option<+T> = None | Some(value: T) {

    /** The value, or `default` when absent (the `??`/`||` idiom of the source). */
    function GetOr(default: T): T {
      match this
      case Some(v) => v
      case None => default
    }
  }

  datatype Result<+R, +E> = Ok(value: R) | Err(error: E) {

    predicate IsFailure() {
      Err?
    }

    function PropagateFailure<U>(): Result<U, E>
      requires Err?
    {
      Err(error)
    }

    function Extract(): R
      requires Ok?
    {
      value
    }
  }
}
